=== FILE: README.md ===
# WXML template parser front end, in Dafny

This project models the front end of the WXML template compiler:
`parse` in `src/compiler/parser/index.js` and the interpolation compiler
in `src/compiler/parser/text-parser.js`. It proves properties of that model.

- **Tree building.** `parse` turns the tokenizer's events (start tag,
  end tag, text, comment) into an element tree under a `Program` root.
  It reads the structural attributes `wx:for`, `wx:if`, `wx:elif`,
  `wx:else`, `v-pre`, `v-once`, `key`, `src`, `name`, `is` and `data`.
  It chains conditional branches and drops blank text.
- **Expression store.** Every expression text it meets is registered
  in a shared store, and each text is compiled once (`pushProp`).
- **Interpolation.** `parseText` cuts a text into literal gaps and
  `{{ }}` regions. Gaps become JSON string literals. Regions become
  `_s(...)` around the compiled expression, and the pieces are joined
  with `+`. The expression itself is parsed by an external JavaScript
  parser, then lowered by `walk` into a bracketed instruction string.

## Modules

| module | contents |
|---|---|
| `Wrappers` | `Option` and `Result` |
| `Diagnostics` | fatal errors (thrown exceptions in the original) and warnings |
| `JsText` | `trim`, the `\s` class, `JSON.stringify`/`JSON.parse` of strings, string order, `join` |
| `Expr` | the expression tree, `walk`, the instruction format it writes, and a decoder for that format |
| `Pattern` | the default interpolation pattern as an explicit backtracking search, custom delimiters, `buildRegex` escaping, leftmost search |
| `TextParser` | `parseExp` and `parseText` |
| `PropStore` | `pushProp` and the store's deduplication invariant |
| `Ast` | element and node records |
| `Attrs` | `makeAttrsMap`, the attribute helpers, the attribute sort, `isTextTag`, `isForbiddenTag` |
| `TplBracket` | the `tplBracket` pattern that reads `wx:for` / `wx:if` / `wx:elif` values |
| `Directives` | `processPre`, `processRawAttrs`, `processFor`, `processIf`, `processOnce`, `processKey`, `processInclude`, `processImport`, `processComponent`, `processAttrs` |
| `Builder` | the closure state of `parse` and the handlers `start`, `end`, `chars` and `comment`, folded over an event list |

## Representation choices

- **The tree.** It is an arena. Index 0 is the `Program` root, and a
  new node is appended, so its index is its creation time. Element
  children and `ifConditions` blocks are indices. `Builder.WellFormed`
  states the shape invariant:
  - children lie after their parent;
  - branches lie at or after the element that heads their chain;
  - the open elements are elements;
  - the root has a child whenever an element is open.
- **Strings.** Text is a sequence of Unicode scalar values.
- **Absent values.** A JavaScript value that may be `undefined` is an
  `Option`. Its truthiness (`Ast.Truthy`) is "present and not empty".
- **Fatal errors.** A thrown error aborts the whole parse; the model
  returns `Err` and no store, so the store the caller keeps after a
  failure is not modelled (see "Left out"). The causes are:
  - an expression neither parse accepts;
  - `include` or `import` without `src`;
  - a `wx:if` / `wx:elif` value that only the bare alternative of
    `tplBracket` matches, where `inMatch[1].trim()` fails on `undefined`;
  - an end tag or comment with no open element (a `TypeError` in the
    original).
- **Warnings.** As a development build gives them (see "Left out"), they are recorded in order rather than sent to a
  callback. Their wording is not modelled.
- **Parameters.** These are the external pieces of the parser:
  - the JavaScript expression parser, and `JSON.stringify` of the tree
    it builds (`TextParser.ExprParser`);
  - HTML entity decoding;
  - `options.isPreTag` and `options.getTagNamespace`.

## Notes on the code

- **Trailing-space removal in `end`.** It removes the last child only
  when that child is a type-3 node with text `" "`. Since `chars` no
  longer creates type-3 text nodes (that branch is commented out), only
  a comment whose text is a single space is ever removed.
  `Builder.EndDropsTrailingSpace` states exactly this.
- **Compilation delimiters.** `pushProp` compiles with `parseText(optExp || exp)`
  and no delimiters. Stored expressions are therefore always compiled
  with the default `{{ }}` pattern, even when the template uses custom
  delimiters. The model keeps this.
- **Spacing in `walk`.** The logical case writes its operands without
  a space after the comma; the binary and unary cases write one. The
  decoder accepts both layouts.
- **Attribute sort.** Its comparator never returns 0, so equal names
  are in an unspecified order. The model sorts stably and proves
  sortedness and permutation only.

## Model

| member | source | states |
|---|---|---|
| `JsText.TrimSpec` | src/compiler/parser/text-parser.js:37 | `trim` gives an infix framed by white space that neither starts nor ends with white space, and gives nothing exactly for a blank text |
| `JsText.TrimUnique` | src/compiler/parser/text-parser.js:37 | any framed, unpadded infix is the trim: `trim` is fully characterised |
| `JsText.TrimDropBlankPrefix` | src/compiler/parser/index.js:420 | dropping leading white space does not change the trimmed text |
| `JsText.UnquoteQuote` | src/compiler/parser/index.js:341 | `JSON.parse(JSON.stringify(s))` gives `s` back for every string |
| `JsText.LessIrreflexive` | src/compiler/parser/index.js:556 | the string order used by the attribute sort is irreflexive |
| `JsText.LessTransitive` | src/compiler/parser/index.js:556 | the string order is transitive |
| `JsText.LessTotal` | src/compiler/parser/index.js:556 | any two different strings are ordered one way or the other |
| `Expr.Walk` | src/compiler/parser/text-parser.js:47-78 | `walk` writes nothing exactly for the nodes it has no case for, and otherwise a bracketed instruction |
| `Expr.Lower` | src/compiler/parser/text-parser.js:47-78 | the lowered instruction is empty exactly for nodes `walk` cannot lower |
| `Expr.WalkRendersLower` | src/compiler/parser/text-parser.js:47-78 | `walk`'s output is the concrete syntax of the lowered instruction, with the exact spacing of each case |
| `Expr.DecodeRender` | src/compiler/parser/text-parser.js:52-72 | for readable instructions (no raw literal holding `]`, no name or operator holding `"`), decoding a rendered instruction gives it back, whatever follows |
| `Expr.WalkReadsBack` | src/compiler/parser/text-parser.js:47-87 | when the lowered tree is readable, `walk` loses nothing beyond what lowering drops: its output decodes back to that tree |
| `Expr.RawBracketAmbiguous` | src/compiler/parser/text-parser.js:57-61 | outside the readable class the format is ambiguous: a raw holding `], [1, ` makes two different sums render to the same text |
| `Pattern.DefaultMatchAt` | src/compiler/parser/text-parser.js:8 | a match at a position is a region of the default pattern, and no match means no region starts there |
| `Pattern.IterateSound` | src/compiler/parser/text-parser.js:8 | what the backtracking search takes is one or more pieces |
| `Pattern.IterateComplete` | src/compiler/parser/text-parser.js:8 | whenever pieces followed by `}}` exist, the search finds a match |
| `Pattern.LazyClose` | src/compiler/parser/text-parser.js:11-15 | the lazy `(?:.\|\n)+?` stops at the first closing delimiter it can reach, and fails only when none is reachable |
| `Pattern.CustomMatchAt` | src/compiler/parser/text-parser.js:11-15 | a custom-delimiter match is the shortest region between the delimiters, and none means no region |
| `Pattern.EscapedIsLiteral` | src/compiler/parser/text-parser.js:9-14 | an escaped delimiter matches exactly itself |
| `Pattern.MatchFramed` | src/compiler/parser/text-parser.js:11-15 | a match is framed by the opening and closing delimiters |
| `Pattern.FindLeftmost` | src/compiler/parser/text-parser.js:29 | the match found is the leftmost one, and finding none means no position matches |
| `Pattern.DefaultFindNone` | src/compiler/parser/text-parser.js:20-25 | the default pattern finds nothing exactly when no `{{`, pieces, `}}` region occurs |
| `Pattern.CustomFindNone` | src/compiler/parser/text-parser.js:20-25 | custom delimiters find nothing exactly when no region between them occurs |
| `TextParser.ParseExp` | src/compiler/parser/text-parser.js:89-104 | fails exactly when both readings are rejected, naming the text; a result is non-empty exactly when the first expression can be lowered |
| `TextParser.ParseExpReadsBack` | src/compiler/parser/text-parser.js:89-104 | when the first expression's instruction tree is readable, the compiled form decodes back to it |
| `TextParser.Segments` | src/compiler/parser/text-parser.js:26-44 | the segments tile the text from the start position to its end |
| `TextParser.SegmentsMatches` | src/compiler/parser/text-parser.js:29-40 | every region is the pattern's match at its start, and no match starts inside a gap |
| `TextParser.SegmentsReassemble` | src/compiler/parser/text-parser.js:26-44 | putting the segments' sources back together gives the text back |
| `TextParser.Token` | src/compiler/parser/text-parser.js:33-38 | only a region can fail, with the error naming its trimmed inner text |
| `TextParser.TokensOk` | src/compiler/parser/text-parser.js:29-44 | the tokens succeed exactly when every segment's token does, and each is its segment's token |
| `TextParser.ParseText` | src/compiler/parser/text-parser.js:17-45 | nothing exactly when the pattern finds nothing, and an error only when some region fails to compile |
| `TextParser.ParseTextNone` | src/compiler/parser/text-parser.js:20-25 | with the default pattern, nothing exactly when no region occurs in the text |
| `TextParser.ParseTextNoneCustom` | src/compiler/parser/text-parser.js:11-25 | with custom delimiters, nothing exactly when no region between them occurs |
| `TextParser.ParseTextShape` | src/compiler/parser/text-parser.js:26-44 | the result joins one token per segment with `+`: gaps are JSON literals of non-empty gaps, regions are `_s(` the compiled trimmed inner text `)` |
| `TextParser.ParseTextTruthy` | src/compiler/parser/text-parser.js:17-45 | a result is truthy exactly when the pattern matched |
| `PropStore.PushProp` | src/compiler/parser/index.js:721-730 | a known text changes nothing; the empty text gets slot -1; a new text gets the next slot and the compiled form of `optExp \|\| exp`; fails exactly when that compilation fails |
| `PropStore.InsertValid` | src/compiler/parser/index.js:722-725 | a new non-empty text at the next slot keeps the deduplication invariant |
| `PropStore.PushPropValid` | src/compiler/parser/index.js:721-730 | `pushProp` keeps the invariant: one slot per text, one compiled form per distinct non-empty text |
| `PropStore.AddTemplate` | src/compiler/parser/index.js:543 | a template is appended and nothing else changes |
| `PropStore.PushAll` | src/compiler/parser/index.js:721-730 | a sequence of pushes only grows the store |
| `PropStore.PushAllValid` | src/compiler/parser/index.js:721-730 | a sequence of pushes keeps the deduplication invariant |
| `PropStore.PushAllKeys` | src/compiler/parser/index.js:721-730 | every pushed text gets a slot, and nothing else does |
| `Attrs.MakeAttrsMapKeys` | src/compiler/parser/index.js:660-674 | the map's keys are exactly the attribute names |
| `Attrs.MakeAttrsMapLastWins` | src/compiler/parser/index.js:660-674 | each name maps to the value of its last occurrence |
| `Attrs.MakeAttrsMapWarnings` | src/compiler/parser/index.js:660-674 | a warning is given, in order, exactly for each attribute that overwrites a truthy value |
| `Attrs.RemoveFirst` | src/compiler/parser/index.js:329 | removes exactly the first attribute with the name, keeping the rest in order |
| `Attrs.GetAndRemoveAttr` | src/compiler/parser/index.js:329 | the value is the map's, present iff the name is in the map; only the list changes, losing its first entry with the name |
| `Attrs.InsertByName` | src/compiler/parser/index.js:556 | insertion keeps the list sorted and adds exactly the one attribute |
| `Attrs.SortByName` | src/compiler/parser/index.js:556 | the sorted list is sorted by name and is a permutation of the input |
| `Attrs.ForbiddenTags` | src/compiler/parser/index.js:677-687 | every forbidden tag is a text tag, and every text tag without a `type` attribute is forbidden |
| `TplBracket.BracedAt` | src/compiler/parser/index.js:24 | the braced alternative opens with `{{` and white space, and group 1 is one line followed by `\s*}}` |
| `TplBracket.MatchFrom` | src/compiler/parser/index.js:24 | the pattern fails exactly on line terminators only; a braced match has the braced shape |
| `TplBracket.MatchValueNone` | src/compiler/parser/index.js:379-380 | `value.match(tplBracket)` is null exactly for a text of line terminators only |
| `TplBracket.BracedValue` | src/compiler/parser/index.js:413-420 | `{{e}}` on one line matches whole, and group 1 trims to what `e` trims to |
| `TplBracket.BareValue` | src/compiler/parser/index.js:413-420 | a one-line value not opening with `{` matches only the bare alternative, leaving group 1 undefined |
| `Directives.ProcessPre` | src/compiler/parser/index.js:328-332 | `pre` is set exactly when `v-pre` is present; only `v-pre` leaves the list |
| `Directives.ProcessRawAttrs` | src/compiler/parser/index.js:334-348 | raw attributes keep their names and order, and their values read back from the JSON literals; an attribute-less element becomes plain unless it is `pre` |
| `Directives.ReadLoopVars` | src/compiler/parser/index.js:386-405 | alias, index and key default to `item`, `index` and `index`, and each given one is pushed |
| `Directives.ReadLoop` | src/compiler/parser/index.js:376-407 | loop variables are set exactly when the value matches the bracket pattern; a non-matching truthy value gives the invalid-loop warning |
| `Directives.ForLoop` | src/compiler/parser/index.js:376-407 | `processFor` off `import`: sets the loop fields only for a valid loop; other fields, and the branch chain, are unchanged |
| `Directives.ProcessFor` | src/compiler/parser/index.js:370-407 | `import` drops the loop attributes and sets nothing; otherwise a valid loop sets the loop fields and pushes, and an invalid one warns |
| `Directives.ReadCondition` | src/compiler/parser/index.js:413-420 | no condition exactly for line terminators only; a fatal error exactly when only the bare alternative matches; otherwise the braced match's group 1 trimmed and its whole text |
| `Directives.ConditionOfBraced` | src/compiler/parser/index.js:413-421 | a braced condition yields its trimmed inner text and the whole match |
| `Directives.ConditionOfBare` | src/compiler/parser/index.js:413-420 | a bare condition is a fatal error |
| `Directives.CondOf` | src/compiler/parser/index.js:409-446 | fails exactly on a truthy bare condition; a condition is read exactly when one is present |
| `Directives.IfBranch` | src/compiler/parser/index.js:410-427 | a matched `wx:if` sets `if` to group 1 trimmed, pushes it with the whole match as the text to compile, and adds the element to its own chain |
| `Directives.ElifBranch` | src/compiler/parser/index.js:428-446 | `wx:else` sets `else`; a matched `wx:elif` sets `elseif` to group 1 trimmed and pushes it with the whole match |
| `Directives.ElseStep` | src/compiler/parser/index.js:428-446 | after a matched `wx:elif` the element's `elseif` is group 1 trimmed and it is pushed with the whole match; a truthy unmatched value warns; `else` is set exactly when `wx:else` is present or already set |
| `Directives.ProcessIf` | src/compiler/parser/index.js:409-447 | fails exactly on a truthy bare condition; otherwise only the condition attributes leave the list |
| `Directives.IfOfBraced` | src/compiler/parser/index.js:410-427 | `wx:if="{{e}}"` sets `if` to the trimmed `e` and chains the element to itself |
| `Directives.ElifOfBraced` | src/compiler/parser/index.js:433-445 | `wx:elif="{{e}}"` sets `elseif` to the trimmed `e` |
| `Directives.IfOfBare` | src/compiler/parser/index.js:410-420 | a bare `wx:if` value aborts the parse |
| `Directives.ProcessOnce` | src/compiler/parser/index.js:488-493 | `once` is set exactly when `v-once` is present; only `v-once` leaves the list |
| `Directives.ProcessKey` | src/compiler/parser/index.js:350-360 | a truthy `key` binding becomes the key; a keyed `template` is warned about |
| `Directives.ProcessInclude` | src/compiler/parser/index.js:516-525 | only `include` is affected; it fails exactly without a truthy `src`, and otherwise records it |
| `Directives.ProcessImport` | src/compiler/parser/index.js:527-536 | only `import` is affected; it fails exactly without a truthy `src`, and otherwise records it |
| `Directives.TemplateRef` | src/compiler/parser/index.js:540-548 | a named `template` is registered under its name; otherwise `is` is read |
| `Directives.ProcessComponent` | src/compiler/parser/index.js:538-553 | only `template` reads `name` / `is`; `data` is read on every element and pushed |
| `Directives.ProcessAttrs` | src/compiler/parser/index.js:555-636 | the list is sorted by name and permuted only; `attrs` gains the sorted list; every value is pushed |
| `Directives.Apply` | src/compiler/parser/index.js:721-730 | applying a step's pushes only grows the store, fails exactly when a push does, and registers its template |
| `Directives.CondStage` | src/compiler/parser/index.js:160-161 | the loop and condition stages keep the node's identity, grow the store, and abort on a bare condition |
| `Directives.SourceStage` | src/compiler/parser/index.js:162-172 | `processOnce` to `processImport` keep the node's identity and abort on a missing `src` |
| `Directives.AttrStage` | src/compiler/parser/index.js:173-177 | the component and attribute stages leave the list sorted, and every remaining attribute reaches `attrs` |
| `Directives.ProcessElement` | src/compiler/parser/index.js:160-177 | the whole directive chain keeps the node's identity, grows the store, sorts the list, and aborts on a bare condition or a missing `src` |
| `Directives.ProcessElementBranches` | src/compiler/parser/index.js:424-427 | every branch the directive chain records on the element is the element itself |
| `Directives.ProcessElementValid` | src/compiler/parser/index.js:160-177 | the directive chain keeps the store's deduplication invariant |
| `Builder.Create` | src/compiler/parser/index.js:111-130 | the new element has the tag, the open element as parent, and no children and no branches |
| `Builder.NamespaceInherited` | src/compiler/parser/index.js:111-112 | the open element's truthy namespace wins over the platform's namespace for the tag |
| `Builder.ReadDirectives` | src/compiler/parser/index.js:148-178 | the directives keep the node's identity and branches; inside v-pre only raw attributes are read |
| `Builder.PlaceAtTop` | src/compiler/parser/index.js:197-221 | the first element becomes the root's child and chain head; a branch after a truthy `if` head joins its chain; anything else is appended and becomes the head |
| `Builder.PlaceInside` | src/compiler/parser/index.js:222-236 | inside an open element, a forbidden element is attached nowhere, a branch goes to `processIfConditions`, and any other element becomes the last child |
| `Builder.FindPrevElement` | src/compiler/parser/index.js:464-479 | only non-elements are dropped from the end, and the result is the nearest element, if any |
| `Builder.TrailingDropped` | src/compiler/parser/index.js:464-479 | the parent keeps a prefix of its children; the dropped ones are non-elements; the found element is the last kept child |
| `Builder.IfConditionsChain` | src/compiler/parser/index.js:449-462 | a branch joins the chain of the previous element when that has a truthy `if`, and is otherwise reported as an orphan |
| `Builder.Place` | src/compiler/parser/index.js:197-236 | placing a new element keeps the arena well formed and the root non-empty |
| `Builder.StartTag` | src/compiler/parser/index.js:108-247 | `start` keeps the arena well formed and only grows the store |
| `Builder.EndTag` | src/compiler/parser/index.js:249-260 | `end` fails exactly with no open element, and keeps the arena well formed |
| `Builder.EndDropsTrailingSpace` | src/compiler/parser/index.js:249-260 | `end` pops the innermost element, drops its last child only when that is a single-space comment outside pre, and resets the pre flags |
| `Builder.CharsText` | src/compiler/parser/index.js:262-316 | `chars` keeps the arena well formed and only grows the store |
| `Builder.CharsOutsideRoot` | src/compiler/parser/index.js:263-274 | text with nothing open only gives the once-only warning: text-only template, or non-blank stray text |
| `Builder.BlankTextDropped` | src/compiler/parser/index.js:284-289 | inside an open element, blank text outside pre never changes the state |
| `Builder.CharsNode` | src/compiler/parser/index.js:284-303 | a node is added exactly when the kept text is non-blank, outside v-pre and matches the pattern; it is the last child, and its text gets a store slot |
| `Builder.CommentText` | src/compiler/parser/index.js:317-323 | `comment` fails exactly with no open element |
| `Builder.CommentAppended` | src/compiler/parser/index.js:317-323 | the comment becomes the open element's last child, and no other node changes |
| `Builder.Run` | src/compiler/parser/index.js:101-324 | any sequence of events keeps the arena well formed and only grows the store |
| `Builder.Parse` | src/compiler/parser/index.js:48-326 | a parse from the bare root yields a well-formed tree and only grows the store |
| `Builder.RunValid` | src/compiler/parser/index.js:101-324 | any sequence of events keeps the store's deduplication invariant |
| `Builder.ParseValid` | src/compiler/parser/index.js:48-326 | a whole parse keeps the store's deduplication invariant |

## Left out

- The HTML tokenizer (`parseHTML`) is not part of this model. `parse` receives its output as a list of events.
- Entity decoding (`he.decode`), the JavaScript expression parser (acorn) and `JSON.stringify` of its syntax tree are parameters. Their behaviour belongs to other libraries.
- `options.isPreTag` and `options.getTagNamespace` are parameters.
- Warning texts are not modelled; each warning is a datatype value carrying the data it reports.
- The IE-only SVG namespace guard and the IE textarea placeholder check are not modelled, because the browser flags `isIE` and `isEdge` are both taken as false.
- Every warning of the model is one a development build gives. The source issues each only when `process.env.NODE_ENV !== 'production'` (index.js:134, 264, 353, 381, 415, 438, 456, 470, 664), so a production build gives none of them. The duplicate-attribute warning also needs `!isIE && !isEdge` (index.js:666-667). This affects `Attrs.MakeAttrsMapWarnings`, the forbidden-tag warning of `Builder.Create`, `Builder.CharsText`, `Builder.CharsOutsideRoot`, `Builder.FindPrevElement`, `Builder.IfConditionsChain` and the warnings of `Directives.ReadLoop`, `Directives.ElseStep` and `Directives.ProcessKey`.
- `isServerRendering` is taken as false, so a forbidden tag is always marked.
- Pre-transforms and post-transforms are the identity, because no modules are passed to this compiler.
- The scoped-slot branch of `start` is dead: nothing sets `slotScope`, because `processSlot` is commented out.
- The code-info list behind `getCurrentCodeInfo` keeps only the templates of the current file.
- Text is a sequence of Unicode scalar values, where JavaScript uses UTF-16 code units. Strings outside the Basic Multilingual Plane measure and escape differently. They also order differently: the `>` of the attribute sort compares UTF-16 code units, and the model compares scalar values.
- The attribute helpers' file is not part of this model:
  - `getAndRemoveAttr` is modelled as upstream Vue defines it: it reads the attribute map and removes the first list entry with the name;
  - `addAttr` is modelled as upstream Vue defines it: it appends;
  - `getBindingAttr` is given a minimal contract: a lookup of the plain name in the map, with no removal.
- Attrs.GetBindingAttr: upstream Vue reads `:key`, then `v-bind:key`, then `key`, and removes what it reads. It then returns the filtered expression or the JSON literal of a static value. The model does none of this, so:
  - `key` stays in the attribute list, and `ProcessAttrs` pushes it and copies it into `attrs`;
  - `el.key` holds the raw value, not a JSON literal;
  - `:key` and `v-bind:key` are not read.
- Directives.AttrStage: it states that remaining attributes reach `attrs` as members (`Reaches`), not their order.
- Directives.ProcessElement: it states membership only for `attrs`, as for `AttrStage`.
- Builder.StartTag: it states the arena invariant and store growth. The placement itself is stated by `Builder.PlaceAtTop`, `Builder.PlaceInside` and `Builder.IfConditionsChain` over `Builder.Place` and `Builder.ProcessIfConditions`.
- Attrs.SortByName: it proves sortedness and permutation, not the order of equal names, because the source comparator leaves that unspecified.
- Attrs.MakeAttrsMapWarnings: the attribute map is a plain `{}`, so a name such as `constructor`, `toString` or `valueOf` already reads a truthy inherited value. Its first occurrence therefore draws the duplicate warning. The model treats the map as empty and warns only when a name recurs.
- Attrs.MakeAttrsMap: assigning `map['__proto__']` stores nothing, but the model keeps the key.
- PropStore.PushProp: if the caller's store map is a plain `{}`, a text such as `constructor` reads an inherited value that is not `null`. It is then never registered, but the model gives it a slot.
- PropStore.PushProp: on a compile error the source has already written the text's slot (index.js:724) before `parseText` throws (index.js:725). The model returns only the error and no store, so it says nothing about the half-written store a caller keeps. Reusing that store breaks the one-slot-per-text invariant.
- Builder.Parse: the store is shared with the caller and mutated in place, so after a fatal error the caller keeps every push made earlier in that parse, plus a half-written slot. The model's `Err` carries no store, and `Builder.ParseValid` speaks only of successful parses.
- TextParser.ParseText: the model starts every call from a fresh pattern, so it leaves out state that outlives a fatal error. The source's patterns are module-level `/g` regexes (text-parser.js:8, 11-15).
  - Normally `lastIndex` is back at 0 when `parseText` returns: a failing `test` resets it, and so does the `exec` that ends the loop.
  - A `parseExp` that throws inside the loop (text-parser.js:37) leaves `lastIndex` at the end of the failing match.
  - The first `test` of a later parse in the same process (text-parser.js:23) then searches only from that index. Example: a stale index of 20 and a next text `{{a}}` of length 5 give `undefined`, so `chars` adds no node and pushes nothing.
  - The model's `ParseText` always searches from index 0.
- TextParser.ParseText: the model also builds the custom-delimiter pattern afresh for each pair, but the source memoises it for the life of the process (`buildRegex = cached(...)`, text-parser.js:3, 11-15).
  - `cached` comes from `shared/util`, which is not part of this model. Upstream Vue's memoiser keys on `String(delimiters)`, the comma-joined pair.
  - Two pairs with the same comma-joined text then share the pattern built for whichever came first. Example: `("[,", "]")` first, then `("[", ",]")` on the text `[a,]`. The source reuses the first pair's pattern and finds nothing, but the model finds the region `[a,]` with inner text `a`.
- Expr.Walk: the `console.log(node.type)` that `walk` runs on each visited node (text-parser.js:50) is console output and is not modelled.

=== FILE: ast.dfy ===
/** The nodes `parse` builds in src/compiler/parser/index.js. The tree is
    kept as an arena: nodes are addressed by their index, an element lists
    its children by index and names its parent by index.

    JavaScript field names that are Dafny keywords are renamed: `for` is
    `forExp`, `if` is `ifExp`, `else` is `isElse`, `include` and `import`
    are `includeSrc` and `importSrc`. A field that JavaScript leaves
    undefined is `None`, `false` or the empty list here. */
module Ast {
  import opened Wrappers

  datatype Attr = Attr(name: string, value: string)

  /** One link of a conditional chain: the condition (`None` for `wx:else`)
      and the element it guards. */
  datatype IfCondition = IfCondition(exp: Option<string>, block: nat)

  datatype Element = Element(
    tag: string,
    attributeList: seq<Attr>,
    attributeMap: map<string, string>,
    parent: Option<nat>,
    children: seq<nat>,
    ns: Option<string>,
    forbidden: bool,
    pre: bool,
    plain: bool,
    attrs: seq<Attr>,
    forExp: Option<string>,
    alias: Option<string>,
    iterator1: Option<string>,
    key: Option<string>,
    ifExp: Option<string>,
    elseif: Option<string>,
    isElse: bool,
    ifConditions: seq<IfCondition>,
    once: bool,
    includeSrc: Option<string>,
    importSrc: Option<string>,
    name: Option<string>,
    component: Option<string>,
    data: Option<string>)

  /** Element (type 1), interpolated text (type 2) or comment (type 3). */
  datatype AstNode =
    | ElementNode(el: Element)
    | ExprNode(expression: string, text: string)
    | CommentNode(text: string)

  /** JavaScript truthiness of an optional string: present and not empty. */
  predicate Truthy(o: Option<string>) {
    o.Some? && o.value != ""
  }

  /** A fresh element as `start` first creates it, before any directive is read. */
  function NewElement(tag: string, attrs: seq<Attr>, attrsMap: map<string, string>, parent: Option<nat>, ns: Option<string>): Element {
    Element(tag, attrs, attrsMap, parent, [], ns, false, false, false, [],
            None, None, None, None, None, None, false, [], false, None, None, None, None, None)
  }
}

=== FILE: attrs.dfy ===
/** Attribute bookkeeping of src/compiler/parser/index.js: `makeAttrsMap`,
    the attribute helpers `getAndRemoveAttr`, `getBindingAttr` and `addAttr`
    (from a helpers module that is not part of this model; they are given the
    minimal behaviour their callers rely on), the name order `processAttrs`
    sorts by, and the tag classifications `isTextTag` and `isForbiddenTag`. */
module Attrs {
  import opened Wrappers
  import opened JsText
  import opened Diagnostics
  import opened Ast

  // ---------------------------------------------------------------------------
  // makeAttrsMap
  // ---------------------------------------------------------------------------

  predicate HasName(attrs: seq<Attr>, n: string) {
    exists i :: 0 <= i < |attrs| && attrs[i].name == n
  }

  /** No later attribute has the name of attribute `i`. */
  predicate IsLastOf(attrs: seq<Attr>, i: nat) {
    i < |attrs| && forall j :: i < j < |attrs| ==> attrs[j].name != attrs[i].name
  }

  /** Attribute `i` repeats a name and the latest earlier attribute of that
      name has a non-empty value: the map already holds a truthy value for the
      name when attribute `i` is read. */
  predicate WarnsAt(attrs: seq<Attr>, i: nat) {
    i < |attrs| && exists j :: 0 <= j < i && LatestBefore(attrs, j, i) && attrs[j].value != ""
  }

  /** Attribute `j` is the latest before `i` with the name of attribute `i`. */
  predicate LatestBefore(attrs: seq<Attr>, j: nat, i: nat) {
    j < i < |attrs| && attrs[j].name == attrs[i].name && forall k :: j < k < i ==> attrs[k].name != attrs[i].name
  }

  /** The duplicate warnings in attribute order. */
  function DuplicateWarnings(attrs: seq<Attr>): seq<Warning>
    decreases |attrs|
  {
    if attrs == [] then []
    else
      DuplicateWarnings(attrs[..|attrs| - 1])
        + (if WarnsAt(attrs, |attrs| - 1) then [DuplicateAttribute(attrs[|attrs| - 1].name)] else [])
  }

  /** `makeAttrsMap`: reads the attributes in order into a map, warning
      whenever an attribute overwrites a truthy value. */
  function MakeAttrsMap(attrs: seq<Attr>): (r: (map<string, string>, seq<Warning>))
    decreases |attrs|
  {
    if attrs == [] then (map[], [])
    else
      var init := attrs[..|attrs| - 1];
      var a := attrs[|attrs| - 1];
      var (m, w) := MakeAttrsMap(init);
      (m[a.name := a.value], w + (if a.name in m && m[a.name] != "" then [DuplicateAttribute(a.name)] else []))
  }

  /** The map has exactly the names of the list as keys. */
  lemma {:induction false} MakeAttrsMapKeys(attrs: seq<Attr>)
    ensures MakeAttrsMap(attrs).0.Keys == set a | a in attrs :: a.name
    decreases |attrs|
  {
    if attrs != [] {
      var init := attrs[..|attrs| - 1];
      var a := attrs[|attrs| - 1];
      MakeAttrsMapKeys(init);
      assert attrs == init + [a];
      assert (set x | x in attrs :: x.name) == (set x | x in init :: x.name) + {a.name};
    }
  }

  /** In the map, each name holds the value of its last occurrence. */
  lemma {:induction false} MakeAttrsMapLastWins(attrs: seq<Attr>, i: nat)
    requires i < |attrs| && IsLastOf(attrs, i)
    ensures attrs[i].name in MakeAttrsMap(attrs).0 && MakeAttrsMap(attrs).0[attrs[i].name] == attrs[i].value
    decreases |attrs|
  {
    var last := |attrs| - 1;
    var init := attrs[..last];
    var a := attrs[last];
    assert MakeAttrsMap(attrs).0 == MakeAttrsMap(init).0[a.name := a.value];
    if i < last {
      assert init[i] == attrs[i];
      assert IsLastOf(init, i) by {
        forall j | i < j < |init| ensures init[j].name != init[i].name {
          assert init[j] == attrs[j];
        }
      }
      MakeAttrsMapLastWins(init, i);
      assert a.name != attrs[i].name;
    }
  }

  /** The last index with the name of index `j`. */
  function LastIndex(attrs: seq<Attr>, j: nat): (k: nat)
    requires j < |attrs|
    ensures j <= k < |attrs| && attrs[k].name == attrs[j].name && IsLastOf(attrs, k)
    decreases |attrs| - j
  {
    if exists j' :: j < j' < |attrs| && attrs[j'].name == attrs[j].name then
      var j' :| j < j' < |attrs| && attrs[j'].name == attrs[j].name;
      LastIndex(attrs, j')
    else j
  }

  lemma LatestUnique(attrs: seq<Attr>, j1: nat, j2: nat, i: nat)
    requires LatestBefore(attrs, j1, i) && LatestBefore(attrs, j2, i)
    ensures j1 == j2
  {
  }

  /** The map holds a truthy value for the name of the last attribute, read
      before it, exactly when that attribute warns. */
  lemma LastWarns(attrs: seq<Attr>)
    requires |attrs| > 0
    ensures var last := |attrs| - 1; var m := MakeAttrsMap(attrs[..last]).0;
      (attrs[last].name in m && m[attrs[last].name] != "") <==> WarnsAt(attrs, last)
  {
    var last := |attrs| - 1;
    var init := attrs[..last];
    var m := MakeAttrsMap(init).0;
    var n := attrs[last].name;
    MakeAttrsMapKeys(init);
    if n in m {
      assert n in set a | a in init :: a.name;
      var a0 :| a0 in init && a0.name == n;
      var j :| 0 <= j < |init| && init[j] == a0;
      var k := LastIndex(init, j);
      MakeAttrsMapLastWins(init, k);
      assert LatestBefore(attrs, k, last) by {
        forall x | k < x < last ensures attrs[x].name != n {
          assert init[x] == attrs[x];
        }
      }
      forall j' | 0 <= j' < last && LatestBefore(attrs, j', last) ensures j' == k {
        LatestUnique(attrs, j', k, last);
      }
    } else {
      forall j' | 0 <= j' < last ensures attrs[j'].name != n {
        assert init[j'] in init;
      }
    }
  }

  /** The warnings are exactly the overwrites of truthy values, in order. */
  lemma {:induction false} MakeAttrsMapWarnings(attrs: seq<Attr>)
    ensures MakeAttrsMap(attrs).1 == DuplicateWarnings(attrs)
    decreases |attrs|
  {
    if attrs != [] {
      MakeAttrsMapWarnings(attrs[..|attrs| - 1]);
      LastWarns(attrs);
    }
  }

  // ---------------------------------------------------------------------------
  // The attribute helpers
  // ---------------------------------------------------------------------------

  /** The first index holding `name`. */
  function FirstIndex(list: seq<Attr>, name: string): (i: nat)
    requires HasName(list, name)
    ensures i < |list| && list[i].name == name && forall j :: 0 <= j < i ==> list[j].name != name
  {
    if list[0].name == name then 0
    else
      assert HasName(list[1..], name) by {
        var k :| 0 <= k < |list| && list[k].name == name;
        assert list[1..][k - 1] == list[k];
      }
      1 + FirstIndex(list[1..], name)
  }

  /** The list without the attributes whose names are in `names`, in order. */
  function Without(list: seq<Attr>, names: set<string>): (r: seq<Attr>)
    ensures |r| <= |list|
    decreases |list|
  {
    if list == [] then []
    else (if list[0].name in names then [] else [list[0]]) + Without(list[1..], names)
  }

  /** What the filter keeps comes from the list and has none of the names. */
  lemma {:induction false} WithoutMembers(list: seq<Attr>, names: set<string>, a: Attr)
    requires a in Without(list, names)
    ensures a in list && a.name !in names
    decreases |list|
  {
    if list[0] != a || list[0].name in names {
      assert a in Without(list[1..], names);
      WithoutMembers(list[1..], names, a);
    }
  }

  lemma {:induction false} WithoutAppend(a: seq<Attr>, b: seq<Attr>, names: set<string>)
    ensures Without(a + b, names) == Without(a, names) + Without(b, names)
    decreases |a|
  {
    if a == [] {
      assert a + b == b;
    } else {
      assert (a + b)[0] == a[0];
      assert (a + b)[1..] == a[1..] + b;
      WithoutAppend(a[1..], b, names);
    }
  }

  /** Filtering twice filters by both sets. */
  lemma {:induction false} WithoutTwice(list: seq<Attr>, n1: set<string>, n2: set<string>)
    ensures Without(Without(list, n1), n2) == Without(list, n1 + n2)
    decreases |list|
  {
    if list != [] {
      var head := if list[0].name in n1 then [] else [list[0]];
      WithoutAppend(head, Without(list[1..], n1), n2);
      WithoutTwice(list[1..], n1, n2);
      if head != [] {
        assert Without(head, n2) == Without([list[0]], n2);
        assert Without([list[0]], n2) == (if list[0].name in n2 then [] else [list[0]]) + Without([], n2);
      }
    }
  }

  /** `after` is `before` less some attributes whose names are in `names`:
      the list does not grow, and every other attribute stays, in the same
      order. */
  predicate Kept(before: seq<Attr>, after: seq<Attr>, names: set<string>) {
    |after| <= |before| && Without(after, names) == Without(before, names)
  }

  /** Two removals are one removal by the names of both. */
  lemma KeptTrans(a: seq<Attr>, b: seq<Attr>, c: seq<Attr>, n1: set<string>, n2: set<string>, n: set<string>)
    requires Kept(a, b, n1) && Kept(b, c, n2) && n1 <= n && n2 <= n
    ensures Kept(a, c, n)
  {
    KeptMore(a, b, n1, n);
    KeptMore(b, c, n2, n);
  }

  lemma KeptMore(a: seq<Attr>, b: seq<Attr>, n1: set<string>, n2: set<string>)
    requires Kept(a, b, n1) && n1 <= n2
    ensures Kept(a, b, n2)
  {
    WithoutTwice(a, n1, n2);
    WithoutTwice(b, n1, n2);
    assert n1 + n2 == n2;
  }

  /** Every attribute of `list` whose name is not in `names` is in `out`. */
  predicate Reaches(list: seq<Attr>, names: set<string>, out: seq<Attr>) {
    forall a :: a in Without(list, names) ==> a in out
  }

  /** Attributes kept through a removal reach wherever the rest reaches. */
  lemma ReachesKept(a: seq<Attr>, b: seq<Attr>, n1: set<string>, n2: set<string>, n: set<string>, out: seq<Attr>)
    requires Kept(a, b, n1) && Reaches(b, n2, out) && n1 <= n && n2 <= n
    ensures Reaches(a, n, out)
  {
    KeptMore(a, b, n1, n);
    WithoutTwice(b, n2, n);
    assert n2 + n == n;
    forall x | x in Without(a, n) ensures x in out {
      WithoutMembers(Without(b, n2), n, x);
    }
  }

  /** The list without its first attribute named `name`. */
  function RemoveFirst(list: seq<Attr>, name: string): (r: seq<Attr>)
    ensures Kept(list, r, {name})
    ensures !HasName(list, name) ==> r == list
    ensures HasName(list, name) ==> |r| == |list| - 1
    ensures HasName(list, name) ==> var i := FirstIndex(list, name); r[..i] == list[..i] && r[i..] == list[i + 1..]
  {
    if HasName(list, name) then
      var i := FirstIndex(list, name);
      assert list == list[..i] + [list[i]] + list[i + 1..];
      WithoutAppend(list[..i] + [list[i]], list[i + 1..], {name});
      WithoutAppend(list[..i], [list[i]], {name});
      WithoutAppend(list[..i], list[i + 1..], {name});
      assert Without([list[i]], {name}) == [] + Without([], {name});
      list[..i] + list[i + 1..]
    else list
  }

  /** `getAndRemoveAttr`: the value the attribute map holds for `name`; when
      there is one, the first attribute of that name leaves the list. The map
      is left as it is. */
  function GetAndRemoveAttr(el: Element, name: string): (r: (Element, Option<string>))
    ensures name in el.attributeMap <==> r.1.Some?
    ensures r.1.Some? ==> r.1.value == el.attributeMap[name]
    ensures r.1 == AttrValue(el, name)
    ensures r.0 == el.(attributeList := r.0.attributeList)
    ensures Kept(el.attributeList, r.0.attributeList, {name})
    ensures r.1.Some? ==> r.0.attributeList == RemoveFirst(el.attributeList, name)
    ensures r.1.None? ==> r.0.attributeList == el.attributeList
  {
    if name in el.attributeMap then (el.(attributeList := RemoveFirst(el.attributeList, name)), Some(el.attributeMap[name]))
    else (el, None)
  }

  /** The value the attribute map holds for `name`, if any. */
  function AttrValue(el: Element, name: string): Option<string> {
    if name in el.attributeMap then Some(el.attributeMap[name]) else None
  }

  /** `getBindingAttr`: reads the attribute map and leaves the list alone. */
  function GetBindingAttr(el: Element, name: string): Option<string> {
    AttrValue(el, name)
  }

  /** `addAttr`: appends to the element's generated attribute list `attrs`. */
  function AddAttr(attrs: seq<Attr>, name: string, value: string): seq<Attr> {
    attrs + [Attr(name, value)]
  }

  // ---------------------------------------------------------------------------
  // Sorting by name
  // ---------------------------------------------------------------------------

  /** Ascending by name under the `<` order on strings. */
  predicate SortedByName(s: seq<Attr>) {
    forall i, j :: 0 <= i < j < |s| ==> !Less(s[j].name, s[i].name)
  }

  lemma NotLessTransitive(a: string, b: string, c: string)
    requires !Less(b, a) && !Less(c, b)
    ensures !Less(c, a)
  {
    LessTotal(a, b);
    LessTotal(b, c);
    if Less(c, a) && a != b && b != c {
      LessTransitive(b, c, a);
    }
  }

  /** No attribute of `s` is named below `x`. */
  predicate AllAtLeast(s: seq<Attr>, x: string) {
    forall j :: 0 <= j < |s| ==> !Less(s[j].name, x)
  }

  lemma AllAtLeastPermuted(s: seq<Attr>, t: seq<Attr>, x: string)
    requires AllAtLeast(t, x) && multiset(s) == multiset(t)
    ensures AllAtLeast(s, x)
  {
    forall j | 0 <= j < |s| ensures !Less(s[j].name, x) {
      assert s[j] in multiset(t);
      var k :| 0 <= k < |t| && t[k] == s[j];
    }
  }

  lemma SortedCons(a: Attr, s: seq<Attr>)
    requires SortedByName(s) && AllAtLeast(s, a.name)
    ensures SortedByName([a] + s)
  {
    var r := [a] + s;
    forall i, j | 0 <= i < j < |r| ensures !Less(r[j].name, r[i].name) {
      assert r[j] == s[j - 1];
      if i > 0 { assert r[i] == s[i - 1]; }
    }
  }

  /** Inserts `a` before the first attribute not named below it. */
  function InsertByName(a: Attr, s: seq<Attr>): (r: seq<Attr>)
    requires SortedByName(s)
    ensures SortedByName(r) && multiset(r) == multiset(s) + multiset{a}
  {
    if s == [] || !Less(s[0].name, a.name) then
      assert AllAtLeast(s, a.name) by {
        forall j | 0 <= j < |s| ensures !Less(s[j].name, a.name) {
          if j > 0 { NotLessTransitive(a.name, s[0].name, s[j].name); }
        }
      }
      SortedCons(a, s);
      [a] + s
    else
      var rest := InsertByName(a, s[1..]);
      assert s == [s[0]] + s[1..];
      assert AllAtLeast(s[1..] + [a], s[0].name) by {
        LessTotal(a.name, s[0].name);
        if Less(a.name, s[0].name) { LessTransitive(a.name, s[0].name, a.name); LessIrreflexive(a.name); }
        assert forall j :: 0 <= j < |s| - 1 ==> (s[1..] + [a])[j] == s[j + 1];
      }
      AllAtLeastPermuted(rest, s[1..] + [a], s[0].name);
      SortedCons(s[0], rest);
      [s[0]] + rest
  }

  /** The order `processAttrs` puts the attribute list in. */
  function SortByName(s: seq<Attr>): (r: seq<Attr>)
    ensures SortedByName(r) && multiset(r) == multiset(s)
  {
    if s == [] then []
    else
      assert s == [s[0]] + s[1..];
      InsertByName(s[0], SortByName(s[1..]))
  }

  // ---------------------------------------------------------------------------
  // Tag classes
  // ---------------------------------------------------------------------------

  /** `isTextTag`: the text of `script` and `style` is not entity-decoded. */
  predicate IsTextTag(tag: string) {
    tag == "script" || tag == "style"
  }

  /** `isForbiddenTag`: `style`, and `script` that is untyped or typed as JavaScript. */
  predicate IsForbiddenTag(tag: string, attrsMap: map<string, string>) {
    || tag == "style"
    || (tag == "script" && (!Truthy(if "type" in attrsMap then Some(attrsMap["type"]) else None)
                            || attrsMap["type"] == "text/javascript"))
  }

  /** The forbidden tags are text tags: every `style`, and the `script`s
      whose type does not say they hold something other than JavaScript. */
  lemma ForbiddenTags(tag: string, attrsMap: map<string, string>)
    ensures IsForbiddenTag(tag, attrsMap) ==> IsTextTag(tag)
    ensures IsTextTag(tag) && "type" !in attrsMap ==> IsForbiddenTag(tag, attrsMap)
  {
  }
}

=== FILE: builder.dfy ===
/** The tree builder of `parse` in src/compiler/parser/index.js: the state it
    keeps while the tokenizer reports start tags, end tags, text and
    comments, and the four handlers that grow the tree.

    The tree is an arena (see module Ast): index 0 is the `Program` root and
    every node a handler creates is appended, so a node's index is its
    creation time. The tokenizer is not modelled; its output is the list of
    events `Parse` folds the handlers over. */
module Builder {
  import opened Wrappers
  import opened JsText
  import opened Diagnostics
  import opened PropStore
  import opened Ast
  import opened Attrs
  import opened Pattern
  import opened TextParser
  import opened Directives

  /** What `parse` takes from its caller besides the events. */
  datatype Config = Config(
    template: string,                          // the whole source, for the text-only check of `chars`
    isPreTag: string -> bool,                  // `options.isPreTag`
    getTagNamespace: string -> Option<string>, // `options.getTagNamespace`
    delimiters: Delimiters,                    // `options.delimiters`
    preserveWhitespace: bool,                  // `options.preserveWhitespace !== false`
    decode: string -> string,                  // HTML entity decoding of text
    js: ExprParser)

  /** What the tokenizer reports. `end` ignores its arguments, so `End` has none. */
  datatype Event =
    | Start(tag: string, attrs: seq<Attr>, unary: bool)
    | End
    | Chars(text: string)
    | Comment(text: string)

  /** The closure state of `parse`: the arena, the open elements innermost
      last (`currentParent` is the last), the head of the top-level chain
      (`currRoot`), the v-pre and pre flags, whether the once-only warning
      was given, the expression store, and the warnings in order. */
  datatype State = State(
    nodes: seq<AstNode>,
    stack: seq<nat>,
    currRoot: nat,
    inVPre: bool,
    inPre: bool,
    warned: bool,
    store: Store,
    warnings: seq<Warning>)

  const ProgramRoot: Element := NewElement("Program", [], map[], None, None)

  function Initial(st: Store): State {
    State([ElementNode(ProgramRoot)], [], 0, false, false, false, st, [])
  }

  function CurrentParent(s: State): Option<nat> {
    if s.stack == [] then None else Some(s.stack[|s.stack| - 1])
  }

  // ---------------------------------------------------------------------------
  // The arena
  // ---------------------------------------------------------------------------

  predicate IsElement(nodes: seq<AstNode>, i: nat) {
    i < |nodes| && nodes[i].ElementNode?
  }

  /** The links of node `i` in an arena of `size` nodes point inside it, and
      point forward to children and chain links and back to the parent: a
      node's children and branches are created after it, its parent before. */
  predicate Linked(n: AstNode, i: nat, size: nat) {
    n.ElementNode? ==>
      && (forall k :: 0 <= k < |n.el.children| ==> i < n.el.children[k] < size)
      && (forall k :: 0 <= k < |n.el.ifConditions| ==> i <= n.el.ifConditions[k].block < size)
      && (n.el.parent.Some? ==> n.el.parent.value < i)
  }

  predicate AllLinked(nodes: seq<AstNode>) {
    forall i :: 0 <= i < |nodes| ==> Linked(nodes[i], i, |nodes|)
  }

  /** The open elements are elements of the arena other than the root. */
  predicate StackOk(nodes: seq<AstNode>, stack: seq<nat>) {
    forall k :: 0 <= k < |stack| ==> 0 < stack[k] && IsElement(nodes, stack[k])
  }

  /** The invariant every handler keeps: the root and the chain head are
      elements, every link points inside the arena in creation order, the
      stack holds elements, and an element is open only once the root has
      a child. */
  predicate WellFormed(s: State) {
    && IsElement(s.nodes, 0)
    && IsElement(s.nodes, s.currRoot)
    && AllLinked(s.nodes)
    && StackOk(s.nodes, s.stack)
    && (s.stack != [] ==> s.nodes[0].el.children != [])
  }

  /** `p.children.push(c)`. */
  function AddChild(nodes: seq<AstNode>, p: nat, c: nat): seq<AstNode>
    requires IsElement(nodes, p)
  {
    nodes[p := ElementNode(nodes[p].el.(children := nodes[p].el.children + [c]))]
  }

  /** `addIfCondition(el, condition)`. */
  function AddIfCondition(nodes: seq<AstNode>, i: nat, cond: IfCondition): seq<AstNode>
    requires IsElement(nodes, i)
  {
    nodes[i := ElementNode(nodes[i].el.(ifConditions := nodes[i].el.ifConditions + [cond]))]
  }

  lemma LinkedGrows(n: AstNode, i: nat, size: nat)
    requires Linked(n, i, size)
    ensures Linked(n, i, size + 1)
  {
  }

  /** A new last node whose links are in order keeps the arena in order. */
  lemma AppendLinked(nodes: seq<AstNode>, n: AstNode)
    requires AllLinked(nodes) && Linked(n, |nodes|, |nodes| + 1)
    ensures AllLinked(nodes + [n])
  {
    var r := nodes + [n];
    forall i | 0 <= i < |r| ensures Linked(r[i], i, |r|) {
      if i < |nodes| {
        LinkedGrows(nodes[i], i, |nodes|);
      }
    }
  }

  /** Replacing one node by one whose links are in order keeps the arena in order. */
  lemma UpdateLinked(nodes: seq<AstNode>, i: nat, n: AstNode)
    requires AllLinked(nodes) && i < |nodes| && Linked(n, i, |nodes|)
    ensures AllLinked(nodes[i := n])
  {
    var r := nodes[i := n];
    forall j | 0 <= j < |r| ensures Linked(r[j], j, |r|) {
      if j != i {
        assert r[j] == nodes[j];
      }
    }
  }

  lemma AddChildLinked(nodes: seq<AstNode>, p: nat, c: nat)
    requires AllLinked(nodes) && IsElement(nodes, p) && p < c < |nodes|
    ensures AllLinked(AddChild(nodes, p, c))
  {
    assert Linked(nodes[p], p, |nodes|);
    UpdateLinked(nodes, p, ElementNode(nodes[p].el.(children := nodes[p].el.children + [c])));
  }

  lemma AddIfConditionLinked(nodes: seq<AstNode>, i: nat, cond: IfCondition)
    requires AllLinked(nodes) && IsElement(nodes, i) && i <= cond.block < |nodes|
    ensures AllLinked(AddIfCondition(nodes, i, cond))
  {
    assert Linked(nodes[i], i, |nodes|);
    UpdateLinked(nodes, i, ElementNode(nodes[i].el.(ifConditions := nodes[i].el.ifConditions + [cond])));
  }

  /** Cutting an element's children to a prefix keeps the arena in order. */
  lemma TruncateLinked(nodes: seq<AstNode>, p: nat, kept: seq<nat>)
    requires AllLinked(nodes) && IsElement(nodes, p)
    requires |kept| <= |nodes[p].el.children| && kept == nodes[p].el.children[..|kept|]
    ensures AllLinked(nodes[p := ElementNode(nodes[p].el.(children := kept))])
  {
    assert Linked(nodes[p], p, |nodes|);
    UpdateLinked(nodes, p, ElementNode(nodes[p].el.(children := kept)));
  }

  /** An element's children point inside the arena. */
  lemma ChildrenInside(nodes: seq<AstNode>, p: nat)
    requires AllLinked(nodes) && IsElement(nodes, p)
    ensures forall k :: 0 <= k < |nodes[p].el.children| ==> p < nodes[p].el.children[k] < |nodes|
  {
    assert Linked(nodes[p], p, |nodes|);
  }

  // ---------------------------------------------------------------------------
  // warnOnce, endPre
  // ---------------------------------------------------------------------------

  /** `warnOnce`: only the first such warning of a compilation is given. */
  function WarnOnce(s: State, w: Warning): State {
    if s.warned then s else s.(warned := true, warnings := s.warnings + [w])
  }

  /** `endPre`: closing the `v-pre` element leaves v-pre; closing a pre tag leaves pre. */
  function EndPre(cfg: Config, s: State, el: Element): State {
    s.(inVPre := if el.pre then false else s.inVPre,
       inPre := if cfg.isPreTag(el.tag) then false else s.inPre)
  }

  // ---------------------------------------------------------------------------
  // start
  // ---------------------------------------------------------------------------

  /** The parent's namespace when it has one, otherwise the platform's; the
      element keeps it only when it is truthy. */
  function Namespace(cfg: Config, s: State, tag: string): Option<string>
    requires WellFormed(s)
  {
    var inherited := if s.stack == [] then None else s.nodes[s.stack[|s.stack| - 1]].el.ns;
    var ns := Or(inherited, cfg.getTagNamespace(tag));
    if Truthy(ns) then ns else None
  }

  /** The element `start` creates before reading any directive, and the
      warnings of that step: repeated attributes, then a forbidden tag. */
  function Create(cfg: Config, s: State, tag: string, attrs: seq<Attr>): (r: (Element, seq<Warning>))
    requires WellFormed(s)
    ensures r.0.tag == tag && r.0.parent == CurrentParent(s) && r.0.children == [] && r.0.ifConditions == []
  {
    var (attrsMap, dups) := MakeAttrsMap(attrs);
    var forbidden := IsForbiddenTag(tag, attrsMap);
    (NewElement(tag, attrs, attrsMap, CurrentParent(s), Namespace(cfg, s, tag)).(forbidden := forbidden),
     dups + (if forbidden then [ForbiddenTag(tag)] else []))
  }

  /** The directives of `start`. Outside v-pre `processPre` runs first and
      a `v-pre` element opens a v-pre region; a pre tag opens a pre region.
      Inside v-pre only the raw attributes are read, otherwise the whole
      chain runs. */
  function ReadDirectives(cfg: Config, s: State, el: Element, self: nat): (r: Result<(State, Element), Fatal>)
    requires OwnBranches(el, self)
    ensures r.Ok? ==> var (s', e) := r.value;
      && s'.nodes == s.nodes && s'.stack == s.stack && s'.currRoot == s.currRoot && s'.warned == s.warned
      && Extends(s.store, s'.store)
      && e.tag == el.tag && e.parent == el.parent && e.children == el.children && e.forbidden == el.forbidden
      && OwnBranches(e, self)
  {
    var el1 := if s.inVPre then el else ProcessPre(el);
    var s1 := s.(inVPre := s.inVPre || el1.pre, inPre := s.inPre || cfg.isPreTag(el1.tag));
    if s1.inVPre then Ok((s1, RawElement(el1)))
    else ReadElement(cfg, s1, el1, self)
  }

  /** `processRawAttrs` seen from the tree: the node and its chain stay as they were. */
  function RawElement(el: Element): (r: Element)
    ensures SameNode(el, r) && r.ifConditions == el.ifConditions
  {
    ProcessRawAttrs(el)
  }

  /** The directive chain outside v-pre: its store and warnings replace the state's. */
  function ReadElement(cfg: Config, s: State, el: Element, self: nat): (r: Result<(State, Element), Fatal>)
    requires OwnBranches(el, self)
    ensures r.Ok? ==> var (s', e) := r.value;
      && s' == s.(store := s'.store, warnings := s'.warnings) && Extends(s.store, s'.store)
      && SameNode(el, e) && OwnBranches(e, self)
  {
    var p :- ProcessElement(el, self, s.store, cfg.js);
    ProcessElementBranches(el, self, s.store, cfg.js);
    Ok((s.(store := p.store, warnings := s.warnings + p.warnings), p.el))
  }

  /** Whether an element is a `wx:elif` / `wx:else` branch (`el.elseif || el.else`). */
  predicate IsBranch(el: Element) {
    Truthy(el.elseif) || el.isElse
  }

  /** Tree management for the root. The first element becomes the root's
      child and the head of the top-level chain. A later element with no
      element open joins the head's chain when the head has a truthy `if`
      and the element is a branch; otherwise it becomes the next child of the
      root and the new head. */
  function AttachTop(s: State, el: Element, self: nat): (r: State)
    requires WellFormed(s) && 0 < self && self == |s.nodes| - 1 && IsElement(s.nodes, self)
    ensures WellFormed(r) && r.stack == s.stack && r.store == s.store && |r.nodes| == |s.nodes| && IsElement(r.nodes, self)
    ensures r.nodes[0].el.children != []
  {
    if s.nodes[0].el.children == [] || (s.stack == [] && !(Truthy(s.nodes[s.currRoot].el.ifExp) && IsBranch(el))) then
      AddChildLinked(s.nodes, 0, self);
      s.(nodes := AddChild(s.nodes, 0, self), currRoot := self)
    else if s.stack != [] then s
    else
      AddIfConditionLinked(s.nodes, s.currRoot, IfCondition(el.elseif, self));
      s.(nodes := AddIfCondition(s.nodes, s.currRoot, IfCondition(el.elseif, self)))
  }

  /** `findPrevElement(parent.children)`: scanning from the end, children
      that are not elements are dropped, each with a warning unless its text
      is a single space; the scan stops at the first element, which is kept
      and returned. */
  function FindPrevElement(nodes: seq<AstNode>, children: seq<nat>): (r: (seq<nat>, seq<Warning>, Option<nat>))
    requires forall k :: 0 <= k < |children| ==> children[k] < |nodes|
    ensures |r.0| <= |children| && r.0 == children[..|r.0|]
    ensures forall k :: |r.0| <= k < |children| ==> !nodes[children[k]].ElementNode?
    ensures r.2.Some? <==> r.0 != []
    ensures r.2.Some? ==> r.2.value == r.0[|r.0| - 1] && nodes[r.2.value].ElementNode?
    decreases |children|
  {
    if children == [] then ([], [], None)
    else
      var last := children[|children| - 1];
      if nodes[last].ElementNode? then (children, [], Some(last))
      else
        var (kept, w, prev) := FindPrevElement(nodes, children[..|children| - 1]);
        (kept, (if nodes[last].text != " " then [IgnoredText(Trim(nodes[last].text))] else []) + w, prev)
  }

  /** The first half of `processIfConditions`: `findPrevElement` applied
      to the parent's children, with its warnings. */
  function DropTrailing(s: State, p: nat): (r: (State, Option<nat>))
    requires WellFormed(s) && 0 < p && IsElement(s.nodes, p)
    ensures WellFormed(r.0) && r.0.stack == s.stack && r.0.store == s.store && |r.0.nodes| == |s.nodes|
    ensures r.0.nodes[0] == s.nodes[0]
    ensures forall i :: IsElement(s.nodes, i) ==> IsElement(r.0.nodes, i)
    ensures r.1.Some? ==> 0 < r.1.value && IsElement(r.0.nodes, r.1.value)
  {
    ChildrenInside(s.nodes, p);
    var parent := s.nodes[p].el;
    var (kept, w, prev) := FindPrevElement(s.nodes, parent.children);
    TruncateLinked(s.nodes, p, kept);
    (s.(nodes := s.nodes[p := ElementNode(parent.(children := kept))], warnings := s.warnings + w), prev)
  }

  /** `processIfConditions(el, parent)`: the branch joins the chain of the
      nearest element before it among the parent's children when that
      element has a truthy `if`; otherwise it is reported as an orphan. */
  function ProcessIfConditions(s: State, el: Element, self: nat, p: nat): (r: State)
    requires WellFormed(s) && 0 < p && IsElement(s.nodes, p) && self == |s.nodes| - 1
    ensures WellFormed(r) && r.stack == s.stack && r.store == s.store && |r.nodes| == |s.nodes|
    ensures r.nodes[0] == s.nodes[0]
    ensures forall i :: IsElement(s.nodes, i) ==> IsElement(r.nodes, i)
  {
    var (s1, prev) := DropTrailing(s, p);
    if prev.Some? && Truthy(s1.nodes[prev.value].el.ifExp) then
      AddIfConditionLinked(s1.nodes, prev.value, IfCondition(el.elseif, self));
      s1.(nodes := AddIfCondition(s1.nodes, prev.value, IfCondition(el.elseif, self)))
    else
      s1.(warnings := s1.warnings + [OrphanBranch(el.tag, OrDefault(el.elseif, ""))])
  }

  /** Tree management inside an open element: a branch goes to
      `processIfConditions`, any other element becomes the parent's last
      child; a forbidden element is attached nowhere. */
  function AttachToParent(s: State, el: Element, self: nat): (r: State)
    requires WellFormed(s) && self == |s.nodes| - 1 && IsElement(s.nodes, self)
    requires CurrentParent(s).Some? ==> CurrentParent(s).value < self
    ensures WellFormed(r) && r.stack == s.stack && r.store == s.store && |r.nodes| == |s.nodes| && IsElement(r.nodes, self)
    ensures r.nodes[0] == s.nodes[0]
  {
    match CurrentParent(s)
    case None => s
    case Some(p) =>
      if el.forbidden then s
      else if IsBranch(el) then ProcessIfConditions(s, el, self, p)
      else
        AddChildLinked(s.nodes, p, self);
        s.(nodes := AddChild(s.nodes, p, self))
  }

  /** The element as the arena's new last node, attached. */
  function Place(s: State, el: Element): (r: State)
    requires WellFormed(s) && el.children == [] && OwnBranches(el, |s.nodes|) && el.parent == CurrentParent(s)
    ensures WellFormed(r) && r.stack == s.stack && r.store == s.store && |r.nodes| == |s.nodes| + 1
    ensures IsElement(r.nodes, |s.nodes|) && r.nodes[0].el.children != []
  {
    var self := |s.nodes|;
    assert Linked(ElementNode(el), self, self + 1);
    AppendLinked(s.nodes, ElementNode(el));
    var s1 := s.(nodes := s.nodes + [ElementNode(el)]);
    AttachToParent(AttachTop(s1, el, self), el, self)
  }

  /** The end of `start`: the element is placed, then opened, or, when
      unary, closed at once. */
  function Finish(cfg: Config, s: State, el: Element, unary: bool): (r: State)
    requires WellFormed(s) && el.children == [] && OwnBranches(el, |s.nodes|) && el.parent == CurrentParent(s)
    ensures WellFormed(r) && r.store == s.store
  {
    var s1 := Place(s, el);
    if unary then EndPre(cfg, s1, el) else s1.(stack := s1.stack + [|s.nodes|])
  }

  /** `start(tag, attrs, unary)`: creates the element, reads its directives,
      attaches it, and opens it unless it is unary. */
  function StartTag(cfg: Config, s: State, tag: string, attrs: seq<Attr>, unary: bool): (r: Result<State, Fatal>)
    requires WellFormed(s)
    ensures r.Ok? ==> WellFormed(r.value) && Extends(s.store, r.value.store)
  {
    var (el0, w) := Create(cfg, s, tag, attrs);
    var (s1, el) :- ReadDirectives(cfg, s.(warnings := s.warnings + w), el0, |s.nodes|);
    Ok(Finish(cfg, s1, el, unary))
  }

  // ---------------------------------------------------------------------------
  // end, chars, comment
  // ---------------------------------------------------------------------------

  /** The last child is a comment whose text is a single space. */
  predicate TrailingSpace(nodes: seq<AstNode>, el: Element)
    requires forall k :: 0 <= k < |el.children| ==> el.children[k] < |nodes|
  {
    |el.children| > 0 && nodes[el.children[|el.children| - 1]] == CommentNode(" ")
  }

  /** `end()`: outside pre a trailing single-space comment of the element is
      dropped, then the element is closed. With nothing open the original
      fails reading the children of `undefined`. */
  function EndTag(cfg: Config, s: State): (r: Result<State, Fatal>)
    requires WellFormed(s)
    ensures r.Ok? ==> WellFormed(r.value) && r.value.store == s.store
    ensures r.Err? <==> s.stack == []
  {
    match CurrentParent(s)
    case None => Err(NoOpenElement)
    case Some(p) =>
      var el := s.nodes[p].el;
      ChildrenInside(s.nodes, p);
      var nodes :=
        if TrailingSpace(s.nodes, el) && !s.inPre then
          TruncateLinked(s.nodes, p, el.children[..|el.children| - 1]);
          s.nodes[p := ElementNode(el.(children := el.children[..|el.children| - 1]))]
        else s.nodes;
      Ok(EndPre(cfg, s.(nodes := nodes, stack := s.stack[..|s.stack| - 1]), el))
  }

  /** The text `chars` keeps inside an element: text that is not blank, or
      any text in pre, is kept (entity-decoded unless the parent is
      `script` or `style`); blank text outside pre becomes one space when
      whitespace is preserved and the parent already has children, and
      nothing otherwise. */
  function KeptText(cfg: Config, inPre: bool, parent: Element, text: string): string {
    if inPre || Trim(text) != "" then
      (if IsTextTag(parent.tag) then text else cfg.decode(text))
    else if cfg.preserveWhitespace && |parent.children| > 0 then " "
    else ""
  }

  /** The interpolation node for kept text `t` as the last child of `p`,
      with `t` registered. */
  function AddText(cfg: Config, s: State, p: nat, t: string): (r: Result<State, Fatal>)
    requires WellFormed(s) && IsElement(s.nodes, p)
    ensures r.Ok? ==> WellFormed(r.value) && Extends(s.store, r.value.store)
  {
    var expr :- ParseText(t, cfg.delimiters, cfg.js);
    if !Truthy(expr) then Ok(s)
    else
      var st :- PushProp(s.store, t, None, cfg.js);
      var n := ExprNode(expr.value, t);
      AppendLinked(s.nodes, n);
      AddChildLinked(s.nodes + [n], p, |s.nodes|);
      Ok(s.(nodes := AddChild(s.nodes + [n], p, |s.nodes|), store := st))
  }

  /** `chars(text)`. With nothing open the text is dropped, warning once if
      it is the whole template or is not blank. Inside an element, kept text
      other than a single space becomes an interpolation node, and its text is
      registered, when it is outside v-pre and holds an interpolation. */
  function CharsText(cfg: Config, s: State, text: string): (r: Result<State, Fatal>)
    requires WellFormed(s)
    ensures r.Ok? ==> WellFormed(r.value) && Extends(s.store, r.value.store)
  {
    match CurrentParent(s)
    case None =>
      Ok(if text == cfg.template then WarnOnce(s, RootIsText)
         else if Trim(text) != "" then WarnOnce(s, TextOutsideRoot(Trim(text)))
         else s)
    case Some(p) =>
      var t := KeptText(cfg, s.inPre, s.nodes[p].el, text);
      if t == "" || s.inVPre || t == " " then Ok(s)
      else AddText(cfg, s, p, t)
  }

  /** `comment(text)`: the comment becomes the open element's last child.
      With nothing open the original fails reading the children of
      `undefined`. */
  function CommentText(s: State, text: string): (r: Result<State, Fatal>)
    requires WellFormed(s)
    ensures r.Ok? ==> WellFormed(r.value) && r.value.store == s.store
    ensures r.Err? <==> s.stack == []
  {
    match CurrentParent(s)
    case None => Err(NoOpenElement)
    case Some(p) =>
      AppendLinked(s.nodes, CommentNode(text));
      AddChildLinked(s.nodes + [CommentNode(text)], p, |s.nodes|);
      Ok(s.(nodes := AddChild(s.nodes + [CommentNode(text)], p, |s.nodes|)))
  }

  // ---------------------------------------------------------------------------
  // parse
  // ---------------------------------------------------------------------------

  function Handle(cfg: Config, s: State, ev: Event): (r: Result<State, Fatal>)
    requires WellFormed(s)
    ensures r.Ok? ==> WellFormed(r.value) && Extends(s.store, r.value.store)
  {
    match ev
    case Start(tag, attrs, unary) => StartTag(cfg, s, tag, attrs, unary)
    case End => EndTag(cfg, s)
    case Chars(text) => CharsText(cfg, s, text)
    case Comment(text) => CommentText(s, text)
  }

  /** The handlers over the events in order; the first fatal error aborts. */
  function Run(cfg: Config, s: State, events: seq<Event>): (r: Result<State, Fatal>)
    requires WellFormed(s)
    ensures r.Ok? ==> WellFormed(r.value) && Extends(s.store, r.value.store)
    decreases |events|
  {
    if events == [] then Ok(s)
    else
      var s' :- Handle(cfg, s, events[0]);
      var r :- Run(cfg, s', events[1..]);
      ExtendsTrans(s.store, s'.store, r.store);
      Ok(r)
  }

  /** `parse`: the tree is `nodes` with the root at index 0. */
  function Parse(cfg: Config, events: seq<Event>, st: Store): (r: Result<State, Fatal>)
    ensures r.Ok? ==> WellFormed(r.value) && Extends(st, r.value.store)
  {
    Run(cfg, Initial(st), events)
  }
  // ---------------------------------------------------------------------------
  // Properties of the handlers
  // ---------------------------------------------------------------------------

  /** An element takes the namespace of the open element when that has a
      truthy one, and otherwise the platform's namespace for its tag when
      that is truthy. */
  lemma NamespaceInherited(cfg: Config, s: State, tag: string, attrs: seq<Attr>)
    requires WellFormed(s)
    ensures var ns := Create(cfg, s, tag, attrs).0.ns;
      && (s.stack != [] && Truthy(s.nodes[CurrentParent(s).value].el.ns) ==> ns == s.nodes[CurrentParent(s).value].el.ns)
      && ((s.stack == [] || !Truthy(s.nodes[CurrentParent(s).value].el.ns)) ==>
            ns == (if Truthy(cfg.getTagNamespace(tag)) then cfg.getTagNamespace(tag) else None))
  {
  }

  /** Tree management with no element open. The first element becomes the
      root's only child and the chain head. After that, a branch whose chain
      head has a truthy `if` joins the head's chain and leaves the root's
      children alone; any other element is appended to them and becomes the
      head. */
  lemma PlaceAtTop(s: State, el: Element)
    requires WellFormed(s) && el.children == [] && OwnBranches(el, |s.nodes|) && el.parent == CurrentParent(s)
    requires s.stack == []
    ensures var r := Place(s, el); var self := |s.nodes|; var kids := s.nodes[0].el.children;
      && r.nodes[self] == ElementNode(el)
      && (kids == [] ==> r.nodes[0].el.children == [self] && r.currRoot == self)
      && (kids != [] && Truthy(s.nodes[s.currRoot].el.ifExp) && IsBranch(el) ==>
            && r.nodes[0].el.children == kids && r.currRoot == s.currRoot
            && r.nodes[s.currRoot].el.ifConditions == s.nodes[s.currRoot].el.ifConditions + [IfCondition(el.elseif, self)])
      && (kids != [] && !(Truthy(s.nodes[s.currRoot].el.ifExp) && IsBranch(el)) ==>
            r.nodes[0].el.children == kids + [self] && r.currRoot == self)
  {
  }

  /** Tree management inside an open element: the root and the chain head
      are untouched; a forbidden element is attached nowhere, a branch goes
      to `processIfConditions`, and any other element becomes the open
      element's last child. */
  lemma PlaceInside(s: State, el: Element)
    requires WellFormed(s) && el.children == [] && OwnBranches(el, |s.nodes|) && el.parent == CurrentParent(s)
    requires s.stack != []
    ensures var r := Place(s, el); var self := |s.nodes|; var p := CurrentParent(s).value;
      var s1 := s.(nodes := s.nodes + [ElementNode(el)]);
      && r.nodes[0] == s.nodes[0] && r.currRoot == s.currRoot
      && (el.forbidden ==> r.nodes == s1.nodes)
      && (!el.forbidden && !IsBranch(el) ==> r.nodes == AddChild(s1.nodes, p, self))
      && (!el.forbidden && IsBranch(el) ==> r == ProcessIfConditions(s1, el, self, p))
  {
  }

  /** `findPrevElement` only drops non-element children from the end of
      the parent's list, and stops at the nearest element. */
  lemma TrailingDropped(s: State, p: nat)
    requires WellFormed(s) && 0 < p && IsElement(s.nodes, p)
    ensures var (r, prev) := DropTrailing(s, p);
      var before := s.nodes[p].el.children; var after := r.nodes[p].el.children;
      && |after| <= |before| && after == before[..|after|]
      && (forall k :: |after| <= k < |before| ==> !s.nodes[before[k]].ElementNode?)
      && (prev.Some? <==> after != [])
      && (prev.Some? ==> prev.value == after[|after| - 1] && p < prev.value && IsElement(s.nodes, prev.value))
      && (forall i :: 0 <= i < |s.nodes| && i != p ==> r.nodes[i] == s.nodes[i])
  {
    ChildrenInside(s.nodes, p);
  }

  /** After `findPrevElement`, the branch is appended to the chain of the
      element it returned when that has a truthy `if`, and nothing else
      changes; otherwise the orphan is reported and no chain changes. */
  lemma IfConditionsChain(s: State, el: Element, self: nat, p: nat)
    requires WellFormed(s) && 0 < p && IsElement(s.nodes, p) && self == |s.nodes| - 1
    ensures var (s1, prev) := DropTrailing(s, p); var r := ProcessIfConditions(s, el, self, p);
      && r.stack == s1.stack && r.currRoot == s1.currRoot
      && (prev.Some? && Truthy(s1.nodes[prev.value].el.ifExp) ==>
            r.nodes == AddIfCondition(s1.nodes, prev.value, IfCondition(el.elseif, self)) && r.warnings == s1.warnings)
      && (!(prev.Some? && Truthy(s1.nodes[prev.value].el.ifExp)) ==>
            r.nodes == s1.nodes && r.warnings == s1.warnings + [OrphanBranch(el.tag, OrDefault(el.elseif, ""))])
  {
  }

  /** `chars` with nothing open changes nothing but the once-only warning,
      which is given only if no such warning was given before. */
  lemma CharsOutsideRoot(cfg: Config, s: State, text: string)
    requires WellFormed(s) && s.stack == []
    ensures CharsText(cfg, s, text).Ok?
    ensures var r := CharsText(cfg, s, text).value;
      && r.nodes == s.nodes && r.stack == s.stack && r.store == s.store
      && (s.warned ==> r == s)
      && (!s.warned && text == cfg.template ==> r.warnings == s.warnings + [RootIsText])
      && (!s.warned && text != cfg.template && Trim(text) != "" ==> r.warnings == s.warnings + [TextOutsideRoot(Trim(text))])
      && (text != cfg.template && Trim(text) == "" ==> r == s)
  {
  }

  /** Blank text outside pre never becomes a node: it is kept as one space
      or as nothing, and neither is parsed. */
  lemma BlankTextDropped(cfg: Config, s: State, text: string)
    requires WellFormed(s) && s.stack != [] && !s.inPre && Trim(text) == ""
    ensures CharsText(cfg, s, text) == Ok(s)
  {
  }

  /** Inside an open element, `chars` adds a node exactly when the kept text
      is neither empty nor a single space, the builder is outside v-pre, and
      the interpolation pattern matches the text; the node is the open
      element's new last child, carries the compiled text, and the text gets
      a slot in the store. Otherwise nothing changes. */
  lemma CharsNode(cfg: Config, s: State, text: string)
    requires WellFormed(s) && s.stack != [] && CharsText(cfg, s, text).Ok?
    ensures var r := CharsText(cfg, s, text).value; var p := CurrentParent(s).value;
      var t := KeptText(cfg, s.inPre, s.nodes[p].el, text);
      var adds := t != "" && t != " " && !s.inVPre && Find(t, 0, cfg.delimiters).Some?;
      && (adds ==>
            var e := ParseText(t, cfg.delimiters, cfg.js).value;
            && e.Some? && e.value != ""
            && r.nodes == AddChild(s.nodes + [ExprNode(e.value, t)], p, |s.nodes|)
            && t in r.store.slots && r.stack == s.stack)
      && (!adds ==> r == s)
  {
    var p := CurrentParent(s).value;
    var t := KeptText(cfg, s.inPre, s.nodes[p].el, text);
    if t != "" && t != " " && !s.inVPre {
      ParseTextTruthy(t, cfg.delimiters, cfg.js);
    }
  }

  /** `end` closes the innermost element and, outside pre, drops its last
      child when that is a single-space comment; no other node changes. */
  lemma EndDropsTrailingSpace(cfg: Config, s: State)
    requires WellFormed(s) && s.stack != []
    ensures var r := EndTag(cfg, s).value; var p := CurrentParent(s).value; var el := s.nodes[p].el;
      && r.stack == s.stack[..|s.stack| - 1]
      && |r.nodes| == |s.nodes| && (forall i :: 0 <= i < |s.nodes| && i != p ==> r.nodes[i] == s.nodes[i])
      && r.nodes[p].el.children ==
           (if |el.children| > 0 && s.nodes[el.children[|el.children| - 1]] == CommentNode(" ") && !s.inPre
            then el.children[..|el.children| - 1] else el.children)
      && r.inVPre == (s.inVPre && !el.pre) && r.inPre == (s.inPre && !cfg.isPreTag(el.tag))
  {
    ChildrenInside(s.nodes, s.stack[|s.stack| - 1]);
  }

  /** `comment` makes the comment the open element's new last child. */
  lemma CommentAppended(s: State, text: string)
    requires WellFormed(s) && s.stack != []
    ensures var r := CommentText(s, text).value; var p := CurrentParent(s).value;
      && r.nodes[|s.nodes|] == CommentNode(text)
      && r.nodes[p].el.children == s.nodes[p].el.children + [|s.nodes|]
      && r.nodes[..|s.nodes|] == s.nodes[p := r.nodes[p]]
  {
    var r := CommentText(s, text).value;
    var p := CurrentParent(s).value;
    assert r.nodes[..|s.nodes|] == s.nodes[p := r.nodes[p]] by {
      assert forall i :: 0 <= i < |s.nodes| ==> r.nodes[..|s.nodes|][i] == s.nodes[p := r.nodes[p]][i];
    }
  }
  // ---------------------------------------------------------------------------
  // The store keeps its deduplication invariant through a whole parse
  // ---------------------------------------------------------------------------

  lemma ReadDirectivesValid(cfg: Config, s: State, el: Element, self: nat)
    requires OwnBranches(el, self) && ReadDirectives(cfg, s, el, self).Ok?
    ensures StoreValid(s.store) ==> StoreValid(ReadDirectives(cfg, s, el, self).value.0.store)
  {
    var el1 := if s.inVPre then el else ProcessPre(el);
    if !(s.inVPre || el1.pre) {
      ProcessElementValid(el1, self, s.store, cfg.js);
    }
  }

  lemma StartTagValid(cfg: Config, s: State, tag: string, attrs: seq<Attr>, unary: bool)
    requires WellFormed(s)
    ensures StartTag(cfg, s, tag, attrs, unary).Ok? && StoreValid(s.store) ==>
      StoreValid(StartTag(cfg, s, tag, attrs, unary).value.store)
  {
    var (el0, w) := Create(cfg, s, tag, attrs);
    var s0 := s.(warnings := s.warnings + w);
    if ReadDirectives(cfg, s0, el0, |s.nodes|).Ok? {
      ReadDirectivesValid(cfg, s0, el0, |s.nodes|);
    }
  }

  lemma CharsTextValid(cfg: Config, s: State, text: string)
    requires WellFormed(s)
    ensures CharsText(cfg, s, text).Ok? && StoreValid(s.store) ==> StoreValid(CharsText(cfg, s, text).value.store)
  {
    if s.stack != [] {
      var p := CurrentParent(s).value;
      var t := KeptText(cfg, s.inPre, s.nodes[p].el, text);
      if t != "" && !s.inVPre && t != " " && ParseText(t, cfg.delimiters, cfg.js).Ok? {
        var expr := ParseText(t, cfg.delimiters, cfg.js).value;
        if Truthy(expr) && PushProp(s.store, t, None, cfg.js).Ok? {
          PushPropValid(s.store, t, None, cfg.js);
        }
      }
    }
  }

  lemma HandleValid(cfg: Config, s: State, ev: Event)
    requires WellFormed(s)
    ensures Handle(cfg, s, ev).Ok? && StoreValid(s.store) ==> StoreValid(Handle(cfg, s, ev).value.store)
  {
    match ev
    case Start(tag, attrs, unary) => StartTagValid(cfg, s, tag, attrs, unary);
    case End =>
    case Chars(text) => CharsTextValid(cfg, s, text);
    case Comment(text) =>
  }

  lemma {:induction false} RunValid(cfg: Config, s: State, events: seq<Event>)
    requires WellFormed(s)
    ensures Run(cfg, s, events).Ok? && StoreValid(s.store) ==> StoreValid(Run(cfg, s, events).value.store)
    decreases |events|
  {
    if events != [] && Handle(cfg, s, events[0]).Ok? {
      HandleValid(cfg, s, events[0]);
      var s' := Handle(cfg, s, events[0]).value;
      RunValid(cfg, s', events[1..]);
    }
  }

  /** However many texts a template registers, and however often each
      recurs, the store stays deduplicated: one slot per text, one compiled
      form per non-empty text. */
  lemma ParseValid(cfg: Config, events: seq<Event>, st: Store)
    ensures Parse(cfg, events, st).Ok? && StoreValid(st) ==> StoreValid(Parse(cfg, events, st).value.store)
  {
    RunValid(cfg, Initial(st), events);
  }
}

=== FILE: diagnostics.dfy ===
/** The two tiers of trouble the compiler front end reports: warnings, which
    it records and carries on from, and fatal errors, which abort the whole
    compilation (a thrown exception in the original). */
module Diagnostics {

  datatype Fatal =
    | SyntaxErrs(text: string)   // neither parse of an interpolated expression succeeds
    | MissingSrc(tag: string)    // `include` / `import` without a non-empty `src`
    | BareCondition(value: string) // `wx:if` / `wx:elif` value with no leading `{{...}}`
    | NoOpenElement              // an end tag or a comment with no element open

  datatype Warning =
    | RootIsText                          // the whole template is text
    | TextOutsideRoot(text: string)       // non-blank text with no element open
    | ForbiddenTag(tag: string)           // `style` or executable `script`
    | DuplicateAttribute(name: string)
    | InvalidFor(value: string)           // `wx:for` value the bracket pattern rejects
    | InvalidCondition(value: string)     // `wx:if` / `wx:elif` value the bracket pattern rejects
    | KeyedTemplate
    | OrphanBranch(tag: string, elseif: string) // `wx:elif` / `wx:else` with no `wx:if` before it
    | IgnoredText(text: string)           // text between a `wx:if` element and its branch
}

=== FILE: directives.dfy ===
/** The directive extractors `processPre`, `processRawAttrs`, `processFor`,
    `processIf`, `processOnce`, `processKey`, `processInclude`,
    `processImport`, `processComponent` and `processAttrs` of
    src/compiler/parser/index.js. Each reads a fresh element's attributes,
    removes the ones it consumes from the attribute list and fills in
    fields.

    The `pushProp` calls an extractor makes are returned, in order, rather
    than applied: no extractor reads the store, so the caller applies them
    right after the extractor returns, which keeps the order of stores and
    of fatal errors. Likewise the removals are threaded through as a list and
    the fields written once, at the end: no step reads those fields, and a
    fatal error discards the element.

    The attribute map is never changed by the removals, so every value an
    extractor reads is the one the map held when the element was created. */
module Directives {
  import opened Wrappers
  import opened JsText
  import opened Diagnostics
  import opened PropStore
  import opened Ast
  import opened Attrs
  import opened TplBracket
  import opened TextParser

  /** What an extractor leaves: the element, the `pushProp` calls it made,
      the warnings it issued, and the template path it registered, if any. */
  datatype Step = Step(el: Element, pushes: seq<PushCall>, warnings: seq<Warning>, template: Option<string>)

  /** `b` is `a` as a node: same tag, attribute map, place in the tree,
      namespace and `forbidden` and `pre` marks. */
  predicate SameNode(a: Element, b: Element) {
    && b.tag == a.tag && b.attributeMap == a.attributeMap && b.parent == a.parent
    && b.children == a.children && b.ns == a.ns && b.forbidden == a.forbidden && b.pre == a.pre
  }

  function Done(el: Element): Step {
    Step(el, [], [], None)
  }

  /** JavaScript `a || b` on optional strings. */
  function Or(a: Option<string>, b: Option<string>): Option<string> {
    if Truthy(a) then a else b
  }

  /** The value when it is truthy, else the default. */
  function OrDefault(v: Option<string>, default: string): string {
    if Truthy(v) then v.value else default
  }

  /** The call `pushProp(v)` when `v` is truthy, else none. */
  function PushIfTruthy(v: Option<string>): (r: seq<PushCall>)
    ensures Truthy(v) ==> r == [PushCall(v.value, None)]
    ensures !Truthy(v) ==> r == []
  {
    if Truthy(v) then [PushCall(v.value, None)] else []
  }

  /** `getAndRemoveAttr(el, name)` when the element's list has become `list`. */
  function Take(el: Element, list: seq<Attr>, name: string): (r: (seq<Attr>, Option<string>))
    ensures r.1 == AttrValue(el, name)
    ensures Kept(list, r.0, {name})
  {
    var (e, v) := GetAndRemoveAttr(el.(attributeList := list), name);
    (e.attributeList, v)
  }

  // ---------------------------------------------------------------------------
  // v-pre and raw attributes
  // ---------------------------------------------------------------------------

  /** `processPre`: a `v-pre` attribute, whatever its value, marks the element. */
  function ProcessPre(el: Element): (r: Element)
    ensures r.pre <==> el.pre || "v-pre" in el.attributeMap
    ensures r == el.(attributeList := r.attributeList, pre := r.pre)
    ensures Kept(el.attributeList, r.attributeList, {"v-pre"})
  {
    var (list, v) := Take(el, el.attributeList, "v-pre");
    el.(attributeList := list, pre := el.pre || v.Some?)
  }

  /** `processRawAttrs`: inside a `v-pre` block the attributes are kept in
      order with their values as JSON string literals; an element with no
      attributes there is plain unless it carries `v-pre` itself. */
  function ProcessRawAttrs(el: Element): (r: Element)
    ensures |el.attributeList| > 0 ==>
      && |r.attrs| == |el.attributeList|
      && forall i :: 0 <= i < |r.attrs| ==>
           r.attrs[i].name == el.attributeList[i].name && Unquote(r.attrs[i].value) == Some(el.attributeList[i].value)
    ensures |el.attributeList| > 0 ==> r == el.(attrs := r.attrs)
    ensures |el.attributeList| == 0 ==> r == el.(plain := el.plain || !el.pre)
  {
    if |el.attributeList| > 0 then
      var attrs := seq(|el.attributeList|, i requires 0 <= i < |el.attributeList| =>
                         Attr(el.attributeList[i].name, Quote(el.attributeList[i].value)));
      assert forall i :: 0 <= i < |attrs| ==> Unquote(attrs[i].value) == Some(el.attributeList[i].value) by {
        forall i | 0 <= i < |attrs| ensures Unquote(attrs[i].value) == Some(el.attributeList[i].value) {
          UnquoteQuote(el.attributeList[i].value);
        }
      }
      el.(attrs := attrs)
    else if !el.pre then el.(plain := true)
    else el
  }

  // ---------------------------------------------------------------------------
  // wx:for
  // ---------------------------------------------------------------------------

  const ForNames: set<string> := {"wx:for", "wx:for-items", "wx:for-item", "wx:for-index", "wx:key"}

  /** The loop value: `wx:for`, or `wx:for-items` when `wx:for` is missing or empty. */
  function LoopValue(el: Element): Option<string> {
    Or(AttrValue(el, "wx:for"), AttrValue(el, "wx:for-items"))
  }

  /** The element has a loop value that the template pattern matches: one
      with a character other than a line terminator (`MatchValueNone`). */
  predicate HasLoop(el: Element) {
    Truthy(LoopValue(el)) && !OnlyLineTerminators(LoopValue(el).value)
  }

  /** The element is a loop: not an `import`, with a loop value that the
      template pattern matches. */
  predicate Loops(el: Element) {
    el.tag != "import" && HasLoop(el)
  }

  /** Reads and removes the loop value: `wx:for-items` is looked at (and
      removed) only when `wx:for` is missing or empty. */
  function TakeLoopValue(el: Element): (r: (seq<Attr>, Option<string>))
    ensures r.1 == LoopValue(el)
    ensures Kept(el.attributeList, r.0, {"wx:for", "wx:for-items"})
  {
    var (l1, v) := Take(el, el.attributeList, "wx:for");
    if Truthy(v) then
      KeptMore(el.attributeList, l1, {"wx:for"}, {"wx:for", "wx:for-items"});
      (l1, v)
    else
      var (l2, items) := Take(el, l1, "wx:for-items");
      KeptTrans(el.attributeList, l1, l2, {"wx:for"}, {"wx:for-items"}, {"wx:for", "wx:for-items"});
      (l2, items)
  }

  /** The `pushProp` calls of a loop: the loop value, then each truthy loop
      variable attribute. */
  function LoopPushes(el: Element): seq<PushCall>
    requires Truthy(LoopValue(el))
  {
    [PushCall(LoopValue(el).value, None)]
      + PushIfTruthy(AttrValue(el, "wx:for-item"))
      + PushIfTruthy(AttrValue(el, "wx:for-index"))
      + PushIfTruthy(AttrValue(el, "wx:key"))
  }

  /** The loop variables `processFor` sets: `for`, `alias`, `iterator1`, `key`. */
  datatype LoopVars = LoopVars(forExp: string, alias: string, iterator1: string, key: string)

  /** What `processFor` reads from a non-`import` element: the attribute
      list after the removals, the loop variables when the element loops,
      the `pushProp` calls and the warnings. */
  datatype LoopRead = LoopRead(list: seq<Attr>, vars: Option<LoopVars>, pushes: seq<PushCall>, warnings: seq<Warning>)

  /** The loop variables of a loop: each attribute when truthy, else its default. */
  function LoopVarsOf(el: Element): LoopVars
    requires Truthy(LoopValue(el))
  {
    LoopVars(LoopValue(el).value, OrDefault(AttrValue(el, "wx:for-item"), "item"),
             OrDefault(AttrValue(el, "wx:for-index"), "index"), OrDefault(AttrValue(el, "wx:key"), "index"))
  }

  /** Reads the loop variables of a matched loop value from `list`. */
  function ReadLoopVars(el: Element, list: seq<Attr>, exp: string): (r: LoopRead)
    requires Truthy(LoopValue(el)) && exp == LoopValue(el).value
    ensures Kept(list, r.list, {"wx:for-item", "wx:for-index", "wx:key"})
    ensures r.vars == Some(LoopVarsOf(el)) && r.pushes == LoopPushes(el) && r.warnings == []
  {
    var (l1, item) := Take(el, list, "wx:for-item");
    var (l2, index) := Take(el, l1, "wx:for-index");
    var (l3, key) := Take(el, l2, "wx:key");
    KeptTrans(list, l1, l2, {"wx:for-item"}, {"wx:for-index"}, {"wx:for-item", "wx:for-index"});
    KeptTrans(list, l2, l3, {"wx:for-item", "wx:for-index"}, {"wx:key"}, {"wx:for-item", "wx:for-index", "wx:key"});
    LoopRead(l3, Some(LoopVars(exp, OrDefault(item, "item"), OrDefault(index, "index"), OrDefault(key, "index"))),
             [PushCall(exp, None)] + PushIfTruthy(item) + PushIfTruthy(index) + PushIfTruthy(key), [])
  }

  /** `processFor` on an element other than `import`. A loop value the
      pattern matches is kept raw and registered, then each loop variable
      attribute is read, removed and registered when truthy. A value the
      pattern cannot match (only line terminators) draws a warning. */
  function ReadLoop(el: Element): (r: LoopRead)
    ensures Kept(el.attributeList, r.list, ForNames)
    ensures r.vars.Some? <==> HasLoop(el)
    ensures HasLoop(el) ==> r.vars == Some(LoopVarsOf(el)) && r.pushes == LoopPushes(el)
    ensures !HasLoop(el) ==> r.pushes == []
    ensures r.warnings == (if Truthy(LoopValue(el)) && !HasLoop(el) then [InvalidFor(LoopValue(el).value)] else [])
  {
    var (l1, exp) := TakeLoopValue(el);
    KeptMore(el.attributeList, l1, {"wx:for", "wx:for-items"}, ForNames);
    if !HasLoop(el) then
      LoopRead(l1, None, [], if Truthy(exp) then [InvalidFor(exp.value)] else [])
    else
      var l := ReadLoopVars(el, l1, exp.value);
      KeptTrans(el.attributeList, l1, l.list, {"wx:for", "wx:for-items"}, {"wx:for-item", "wx:for-index", "wx:key"}, ForNames);
      l
  }

  /** `processFor` on an `import`: both loop value attributes go, nothing is set. */
  function ForImport(el: Element): (r: seq<Attr>)
    ensures Kept(el.attributeList, r, ForNames)
  {
    var (l1, _) := Take(el, el.attributeList, "wx:for");
    var (l2, _) := Take(el, l1, "wx:for-items");
    KeptTrans(el.attributeList, l1, l2, {"wx:for"}, {"wx:for-items"}, ForNames);
    l2
  }

  /** `processFor` on an element other than `import`, applied to the element. */
  function ForLoop(el: Element): (r: Step)
    requires el.tag != "import"
    ensures SameNode(el, r.el) && r.el.ifConditions == el.ifConditions
    ensures Kept(el.attributeList, r.el.attributeList, ForNames)
    ensures r.template == None
    ensures !HasLoop(el) ==> r.el == el.(attributeList := r.el.attributeList) && r.pushes == []
    ensures HasLoop(el) ==>
      var v := LoopVarsOf(el);
      && r.el == el.(attributeList := r.el.attributeList, forExp := Some(v.forExp),
                     alias := Some(v.alias), iterator1 := Some(v.iterator1), key := Some(v.key))
      && r.pushes == LoopPushes(el)
    ensures r.warnings == (if Truthy(LoopValue(el)) && !HasLoop(el) then [InvalidFor(LoopValue(el).value)] else [])
  {
    var l := ReadLoop(el);
    if !HasLoop(el) then Step(el.(attributeList := l.list), [], l.warnings, None)
    else
      var v := l.vars.value;
      Step(el.(attributeList := l.list, forExp := Some(v.forExp), alias := Some(v.alias),
               iterator1 := Some(v.iterator1), key := Some(v.key)), l.pushes, l.warnings, None)
  }

  /** `processFor`. On an `import` both loop value attributes go and nothing
      is set. Elsewhere a loop sets `for` to its raw value and `alias`,
      `iterator1` and `key` to `wx:for-item`, `wx:for-index` and `wx:key`
      or their defaults `item`, `index` and `index`. */
  function ProcessFor(el: Element): (r: Step)
    ensures SameNode(el, r.el) && r.el.ifConditions == el.ifConditions
    ensures Kept(el.attributeList, r.el.attributeList, ForNames)
    ensures r.template == None
    ensures !Loops(el) ==> r.el == el.(attributeList := r.el.attributeList) && r.pushes == []
    ensures Loops(el) ==>
      var v := LoopVarsOf(el);
      && r.el == el.(attributeList := r.el.attributeList, forExp := Some(v.forExp),
                     alias := Some(v.alias), iterator1 := Some(v.iterator1), key := Some(v.key))
      && r.pushes == LoopPushes(el)
    ensures r.warnings ==
      (if el.tag != "import" && Truthy(LoopValue(el)) && !HasLoop(el) then [InvalidFor(LoopValue(el).value)] else [])
  {
    if el.tag == "import" then Done(el.(attributeList := ForImport(el))) else ForLoop(el)
  }

  // ---------------------------------------------------------------------------
  // wx:if, wx:elif, wx:else
  // ---------------------------------------------------------------------------

  const IfNames: set<string> := {"wx:if", "wx:else", "wx:elif"}

  /** The template pattern matches only its bare alternative, which has no
      group 1. */
  predicate BareMatch(v: string) {
    MatchValue(v).Some? && MatchValue(v).value.Bare?
  }

  /** A condition value read with the template pattern: `None` when the
      pattern fails, else group 1 trimmed and the whole match. Trimming the
      undefined group 1 of a bare match throws. */
  function ReadCondition(v: string): (r: Result<Option<(string, string)>, Fatal>)
    ensures r.Ok? && r.value.None? <==> OnlyLineTerminators(v)
    ensures r.Err? <==> BareMatch(v)
    ensures r.Err? ==> r.error == BareCondition(v)
    ensures r.Ok? && r.value.Some? ==>
      && MatchValue(v).Some? && MatchValue(v).value.Braced?
      && r.value.value == (Trim(Group(v, MatchValue(v).value)), Whole(v, MatchValue(v).value))
  {
    MatchValueNone(v);
    match MatchValue(v)
    case None => Ok(None)
    case Some(m) => if m.Bare? then Err(BareCondition(v)) else Ok(Some((Trim(Group(v, m)), Whole(v, m))))
  }

  /** `{{e}}` on one line reads as `e` trimmed, with the value itself as the
      whole match. */
  lemma ConditionOfBraced(e: string)
    requires e != [] && NoLineTerminator(e)
    ensures ReadCondition("{{" + e + "}}") == Ok(Some((Trim(e), "{{" + e + "}}")))
  {
    var t := "{{" + e + "}}";
    BracedValue(e);
    assert Whole(t, MatchValue(t).value) == t[0..|t|] == t;
  }

  /** A one-line value that does not open with `{` is a fatal error. */
  lemma ConditionOfBare(v: string)
    requires |v| > 0 && !IsLineTerminator(v[0]) && v[0] != '{'
    ensures ReadCondition(v) == Err(BareCondition(v))
  {
    BareValue(v);
  }

  /** The value `processIf` reads the condition from: `wx:if` when truthy,
      else `wx:elif`. */
  function CondValue(el: Element): Option<string> {
    Or(AttrValue(el, "wx:if"), AttrValue(el, "wx:elif"))
  }

  /** The element's condition read with the template pattern: `None` when
      the value is missing or empty or the pattern fails. */
  function CondOf(el: Element): (r: Result<Option<(string, string)>, Fatal>)
    ensures r.Err? <==> Truthy(CondValue(el)) && BareMatch(CondValue(el).value)
    ensures r.Err? ==> r.error == BareCondition(CondValue(el).value)
    ensures r.Ok? ==> (r.value.Some? <==> HasCond(el))
  {
    if Truthy(CondValue(el)) then ReadCondition(CondValue(el).value) else Ok(None)
  }

  /** The condition `processIf` reads, when it reads one: group 1 trimmed
      and the whole match. */
  function CondRead(el: Element): Option<(string, string)> {
    if CondOf(el).Ok? then CondOf(el).value else None
  }

  /** The condition value is truthy and the pattern matches it. */
  predicate HasCond(el: Element) {
    Truthy(CondValue(el)) && !OnlyLineTerminators(CondValue(el).value)
  }

  /** What `processIf` leaves. The three condition attributes may go, the
      rest of the list stays, and only the condition fields may change. A
      condition value the pattern cannot match draws a warning. With `wx:if`
      truthy, a matched condition sets `if`, opens the chain with the
      element itself and is registered with its whole match as the source,
      and `wx:else` and `wx:elif` are ignored. Otherwise `wx:else`, whatever
      its value, marks the element, and a matched `wx:elif` sets `elseif`
      and is registered the same way. */
  predicate IfStep(el: Element, self: nat, s: Step) {
    && IfCommon(el, s)
    && if Truthy(AttrValue(el, "wx:if")) then IfSet(el, self, s) else ElseSet(el, s)
  }

  predicate IfCommon(el: Element, s: Step) {
    && Kept(el.attributeList, s.el.attributeList, IfNames) && s.template == None
    && s.el == el.(attributeList := s.el.attributeList, ifExp := s.el.ifExp, elseif := s.el.elseif,
                   isElse := s.el.isElse, ifConditions := s.el.ifConditions)
    && s.warnings == (if Truthy(CondValue(el)) && !HasCond(el) then [InvalidCondition(CondValue(el).value)] else [])
    && (HasCond(el) ==> CondRead(el).Some? && s.pushes == [PushCall(CondRead(el).value.0, Some(CondRead(el).value.1))])
    && (!HasCond(el) ==> s.pushes == [])
  }

  predicate IfSet(el: Element, self: nat, s: Step) {
    && s.el.elseif == el.elseif && s.el.isElse == el.isElse
    && (HasCond(el) ==>
          && CondRead(el).Some? && s.el.ifExp == Some(CondRead(el).value.0)
          && s.el.ifConditions == el.ifConditions + [IfCondition(s.el.ifExp, self)])
    && (!HasCond(el) ==> s.el.ifExp == el.ifExp && s.el.ifConditions == el.ifConditions)
  }

  predicate ElseSet(el: Element, s: Step) {
    && s.el.ifExp == el.ifExp && s.el.ifConditions == el.ifConditions
    && s.el.isElse == (el.isElse || "wx:else" in el.attributeMap)
    && (HasCond(el) ==> CondRead(el).Some? && s.el.elseif == Some(CondRead(el).value.0))
    && (!HasCond(el) ==> s.el.elseif == el.elseif)
  }

  /** `processIf` when `wx:if` is truthy. */
  function IfBranch(el: Element, self: nat): (r: Result<Step, Fatal>)
    requires Truthy(AttrValue(el, "wx:if"))
    ensures r.Err? <==> BareMatch(CondValue(el).value)
    ensures r.Err? ==> r.error == BareCondition(CondValue(el).value)
    ensures r.Ok? ==> IfCommon(el, r.value) && IfSet(el, self, r.value)
  {
    var (list, _) := Take(el, el.attributeList, "wx:if");
    KeptMore(el.attributeList, list, {"wx:if"}, IfNames);
    var c :- CondOf(el);
    assert CondRead(el) == c;
    if c.None? then Ok(Step(el.(attributeList := list), [], [InvalidCondition(CondValue(el).value)], None))
    else
      var (e, whole) := c.value;
      Ok(Step(el.(attributeList := list, ifExp := Some(e), ifConditions := el.ifConditions + [IfCondition(Some(e), self)]),
              [PushCall(e, Some(whole))], [], None))
  }

  /** Removes `wx:if`, `wx:else` and `wx:elif` (as `processIf` does when
      `wx:if` is missing or empty) and reads the `wx:else` mark. */
  function TakeElse(el: Element): (r: (seq<Attr>, bool))
    ensures Kept(el.attributeList, r.0, IfNames)
    ensures r.1 == (el.isElse || "wx:else" in el.attributeMap)
  {
    var (l1, _) := Take(el, el.attributeList, "wx:if");
    var (l2, els) := Take(el, l1, "wx:else");
    var (l3, _) := Take(el, l2, "wx:elif");
    KeptTrans(el.attributeList, l1, l2, {"wx:if"}, {"wx:else"}, IfNames);
    KeptTrans(el.attributeList, l2, l3, IfNames, {"wx:elif"}, IfNames);
    (l3, el.isElse || els.Some?)
  }

  /** `processIf` when `wx:if` is missing or empty (it is still removed). */
  function ElifBranch(el: Element): (r: Result<Step, Fatal>)
    requires !Truthy(AttrValue(el, "wx:if"))
    ensures r.Err? <==> Truthy(CondValue(el)) && BareMatch(CondValue(el).value)
    ensures r.Err? ==> r.error == BareCondition(CondValue(el).value)
    ensures r.Ok? ==> IfCommon(el, r.value) && ElseSet(el, r.value)
  {
    var (list, isElse) := TakeElse(el);
    var c :- CondOf(el);
    Ok(ElseStep(el, list, isElse))
  }

  /** The step of `ElifBranch` once the condition has been read without a
      fatal error. */
  function ElseStep(el: Element, list: seq<Attr>, isElse: bool): (r: Step)
    requires CondOf(el).Ok?
    requires Kept(el.attributeList, list, IfNames) && isElse == (el.isElse || "wx:else" in el.attributeMap)
    ensures IfCommon(el, r) && ElseSet(el, r)
  {
    var c := CondOf(el).value;
    assert CondRead(el) == c;
    if c.Some? then
      Step(el.(attributeList := list, isElse := isElse, elseif := Some(c.value.0)), [PushCall(c.value.0, Some(c.value.1))], [], None)
    else if Truthy(CondValue(el)) then
      Step(el.(attributeList := list, isElse := isElse), [], [InvalidCondition(CondValue(el).value)], None)
    else Step(el.(attributeList := list, isElse := isElse), [], [], None)
  }

  /** `processIf`. A condition value the pattern cannot match draws a
      warning and sets nothing; one that only the bare alternative matches
      is fatal. */
  function ProcessIf(el: Element, self: nat): (r: Result<Step, Fatal>)
    ensures r.Err? <==> Truthy(CondValue(el)) && BareMatch(CondValue(el).value)
    ensures r.Err? ==> r.error == BareCondition(CondValue(el).value)
    ensures r.Ok? ==> SameNode(el, r.value.el) && Kept(el.attributeList, r.value.el.attributeList, IfNames)
    ensures r.Ok? ==> IfStep(el, self, r.value)
  {
    if Truthy(AttrValue(el, "wx:if")) then IfBranch(el, self) else ElifBranch(el)
  }

  /** `processIf` adds at most the element's own link to its chain. */
  lemma IfBranches(el: Element, self: nat, s: Step)
    requires IfStep(el, self, s) && OwnBranches(el, self)
    ensures OwnBranches(s.el, self)
  {
  }

  /** `wx:if="{{e}}"` on one line sets `if` to `e` trimmed, opens the chain
      with the element itself, and registers `e` trimmed compiled from the
      whole value. */
  lemma IfOfBraced(el: Element, self: nat, e: string)
    requires e != [] && NoLineTerminator(e) && AttrValue(el, "wx:if") == Some("{{" + e + "}}")
    ensures ProcessIf(el, self).Ok?
    ensures var s := ProcessIf(el, self).value;
      && s.el.ifExp == Some(Trim(e)) && s.el.ifConditions == el.ifConditions + [IfCondition(Some(Trim(e)), self)]
      && s.pushes == [PushCall(Trim(e), Some("{{" + e + "}}"))] && s.warnings == []
  {
    ConditionOfBraced(e);
    assert ("{{" + e + "}}")[0] == '{';
  }

  /** Without a truthy `wx:if`, `wx:elif="{{e}}"` on one line sets `elseif`
      to `e` trimmed and registers it compiled from the whole value. */
  lemma ElifOfBraced(el: Element, self: nat, e: string)
    requires e != [] && NoLineTerminator(e) && !Truthy(AttrValue(el, "wx:if"))
    requires AttrValue(el, "wx:elif") == Some("{{" + e + "}}")
    ensures ProcessIf(el, self).Ok?
    ensures var s := ProcessIf(el, self).value;
      && s.el.elseif == Some(Trim(e)) && s.el.ifExp == el.ifExp
      && s.pushes == [PushCall(Trim(e), Some("{{" + e + "}}"))] && s.warnings == []
  {
    ConditionOfBraced(e);
    assert ("{{" + e + "}}")[0] == '{';
  }

  /** A one-line `wx:if` value that does not open with `{` aborts the
      compilation. */
  lemma IfOfBare(el: Element, self: nat, v: string)
    requires |v| > 0 && !IsLineTerminator(v[0]) && v[0] != '{' && AttrValue(el, "wx:if") == Some(v)
    ensures ProcessIf(el, self) == Err(BareCondition(v))
  {
    ConditionOfBare(v);
  }

  // ---------------------------------------------------------------------------
  // v-once, key, plain
  // ---------------------------------------------------------------------------

  /** `processOnce`: a `v-once` attribute, whatever its value, marks the element. */
  function ProcessOnce(el: Element): (r: Element)
    ensures SameNode(el, r)
    ensures r.once <==> el.once || "v-once" in el.attributeMap
    ensures r == el.(attributeList := r.attributeList, once := r.once)
    ensures Kept(el.attributeList, r.attributeList, {"v-once"})
  {
    var (list, v) := Take(el, el.attributeList, "v-once");
    el.(attributeList := list, once := el.once || v.Some?)
  }

  /** `processKey`: a truthy `key` binding replaces the key (a loop's
      included) and is not removed from the list; on a `template` it also
      draws a warning. */
  function ProcessKey(el: Element): (r: Step)
    ensures SameNode(el, r.el)
    ensures r.el.attributeList == el.attributeList && r.pushes == [] && r.template == None
    ensures r.el == el.(key := r.el.key)
    ensures r.el.key == Or(GetBindingAttr(el, "key"), el.key)
    ensures r.warnings == (if Truthy(GetBindingAttr(el, "key")) && el.tag == "template" then [KeyedTemplate] else [])
  {
    var exp := GetBindingAttr(el, "key");
    if !Truthy(exp) then Done(el)
    else Step(el.(key := exp), [], if el.tag == "template" then [KeyedTemplate] else [], None)
  }

  /** `plain`: no truthy key and no attribute left after the structural
      ones are removed (the list `start` received is the one they are
      removed from). */
  predicate Plain(el: Element) {
    !Truthy(el.key) && |el.attributeList| == 0
  }

  // ---------------------------------------------------------------------------
  // include, import, template
  // ---------------------------------------------------------------------------

  /** `processInclude` (`tag` "include", field `include`) and
      `processImport` (`tag` "import", field `import`): on that tag a
      truthy `src` is moved into the field; without one the compilation
      aborts. */
  function TakeSrc(el: Element, tag: string): (r: Result<(seq<Attr>, string), Fatal>)
    requires el.tag == tag
    ensures r.Err? <==> !Truthy(AttrValue(el, "src"))
    ensures r.Err? ==> r.error == MissingSrc(tag)
    ensures r.Ok? ==> Some(r.value.1) == AttrValue(el, "src") && Kept(el.attributeList, r.value.0, {"src"})
  {
    var (list, src) := Take(el, el.attributeList, "src");
    if Truthy(src) then Ok((list, src.value)) else Err(MissingSrc(tag))
  }

  /** `processInclude`. */
  function ProcessInclude(el: Element): (r: Result<Element, Fatal>)
    ensures el.tag != "include" ==> r == Ok(el)
    ensures r.Ok? ==> SameNode(el, r.value)
    ensures el.tag == "include" ==> (r.Err? <==> !Truthy(AttrValue(el, "src")))
    ensures r.Err? ==> r.error == MissingSrc("include")
    ensures el.tag == "include" && r.Ok? ==>
      && r.value == el.(attributeList := r.value.attributeList, includeSrc := AttrValue(el, "src"))
      && Kept(el.attributeList, r.value.attributeList, {"src"})
  {
    if el.tag != "include" then Ok(el)
    else
      var (list, src) :- TakeSrc(el, "include");
      Ok(el.(attributeList := list, includeSrc := Some(src)))
  }

  /** `processImport`. */
  function ProcessImport(el: Element): (r: Result<Element, Fatal>)
    ensures el.tag != "import" ==> r == Ok(el)
    ensures r.Ok? ==> SameNode(el, r.value)
    ensures el.tag == "import" ==> (r.Err? <==> !Truthy(AttrValue(el, "src")))
    ensures r.Err? ==> r.error == MissingSrc("import")
    ensures el.tag == "import" && r.Ok? ==>
      && r.value == el.(attributeList := r.value.attributeList, importSrc := AttrValue(el, "src"))
      && Kept(el.attributeList, r.value.attributeList, {"src"})
  {
    if el.tag != "import" then Ok(el)
    else
      var (list, src) :- TakeSrc(el, "import");
      Ok(el.(attributeList := list, importSrc := Some(src)))
  }

  const ComponentNames: set<string> := {"name", "is", "data"}

  /** The `template` part of `processComponent` once `name` has been found
      missing or empty: a truthy `is` makes the template a component
      reference and is registered as an expression. */
  function TakeIs(el: Element, list: seq<Attr>): (r: Step)
    requires Kept(el.attributeList, list, {"name"})
    ensures Kept(el.attributeList, r.el.attributeList, {"name", "is"})
    ensures r.el == el.(attributeList := r.el.attributeList, component := Or(AttrValue(el, "is"), el.component))
    ensures r.pushes == PushIfTruthy(AttrValue(el, "is")) && r.warnings == [] && r.template == None
  {
    var (l2, isRef) := Take(el, list, "is");
    KeptTrans(el.attributeList, list, l2, {"name"}, {"is"}, {"name", "is"});
    Step(el.(attributeList := l2, component := Or(isRef, el.component)), PushIfTruthy(isRef), [], None)
  }

  /** The `template` part of `processComponent`: a truthy `name` names the
      template and registers it; otherwise a truthy `is` makes it a
      component reference and is registered as an expression. */
  function TemplateRef(el: Element): (r: Step)
    requires el.tag == "template"
    ensures Kept(el.attributeList, r.el.attributeList, {"name", "is"})
    ensures r.el == el.(attributeList := r.el.attributeList, name := r.el.name, component := r.el.component)
    ensures r.warnings == []
    ensures Truthy(AttrValue(el, "name")) ==>
      r.el.name == AttrValue(el, "name") && r.template == AttrValue(el, "name")
      && r.el.component == el.component && r.pushes == []
    ensures !Truthy(AttrValue(el, "name")) ==>
      r.el.name == el.name && r.template == None
      && r.el.component == Or(AttrValue(el, "is"), el.component) && r.pushes == PushIfTruthy(AttrValue(el, "is"))
  {
    var (l1, name) := Take(el, el.attributeList, "name");
    if !Truthy(AttrValue(el, "name")) then TakeIs(el, l1)
    else
      KeptMore(el.attributeList, l1, {"name"}, {"name", "is"});
      Step(el.(attributeList := l1, name := name), [], [], name)
  }

  /** `processComponent`: the `template` part, then a truthy `data` on any
      element is kept and registered as an expression. */
  function ProcessComponent(el: Element): (r: Step)
    ensures Kept(el.attributeList, r.el.attributeList, ComponentNames)
    ensures r.el == el.(attributeList := r.el.attributeList, name := r.el.name, component := r.el.component, data := r.el.data)
    ensures el.tag != "template" ==> r.el.name == el.name && r.el.component == el.component && r.template == None
    ensures el.tag == "template" ==> r.template == (if Truthy(AttrValue(el, "name")) then AttrValue(el, "name") else None)
    ensures r.el.data == Or(AttrValue(el, "data"), el.data)
    ensures r.pushes == (if el.tag == "template" && !Truthy(AttrValue(el, "name")) then PushIfTruthy(AttrValue(el, "is")) else [])
                        + PushIfTruthy(AttrValue(el, "data"))
    ensures r.warnings == []
  {
    var t := if el.tag == "template" then TemplateRef(el) else Done(el);
    var (list, data) := Take(el, t.el.attributeList, "data");
    KeptTrans(el.attributeList, t.el.attributeList, list, {"name", "is"}, {"data"}, ComponentNames);
    Step(t.el.(attributeList := list, data := Or(data, el.data)), t.pushes + PushIfTruthy(data), [], t.template)
  }

  // ---------------------------------------------------------------------------
  // Remaining attributes
  // ---------------------------------------------------------------------------

  /** One `pushProp(value)` per attribute, in list order. */
  function ValuePushes(list: seq<Attr>): (r: seq<PushCall>)
    ensures |r| == |list| && forall i :: 0 <= i < |r| ==> r[i] == PushCall(list[i].value, None)
  {
    seq(|list|, i requires 0 <= i < |list| => PushCall(list[i].value, None))
  }

  /** `processAttrs`: the list is sorted by name in place, then every
      attribute, in that order, is registered by value and appended to
      `attrs`. */
  function ProcessAttrs(el: Element): (r: Step)
    ensures SortedByName(r.el.attributeList) && multiset(r.el.attributeList) == multiset(el.attributeList)
    ensures r.el == el.(attributeList := r.el.attributeList, attrs := el.attrs + r.el.attributeList)
    ensures r.pushes == ValuePushes(r.el.attributeList) && r.warnings == [] && r.template == None
  {
    var sorted := SortByName(el.attributeList);
    Step(el.(attributeList := sorted, attrs := el.attrs + sorted), ValuePushes(sorted), [], None)
  }

  // ---------------------------------------------------------------------------
  // The chain `start` runs outside v-pre
  // ---------------------------------------------------------------------------

  /** Every attribute name some extractor may remove. `key` is not one:
      `processKey` only reads it. */
  const DirectiveNames: set<string> := ForNames + IfNames + {"v-once", "src"} + ComponentNames

  /** Every link of the element's chain names the element itself. */
  predicate OwnBranches(el: Element, self: nat) {
    forall k :: 0 <= k < |el.ifConditions| ==> el.ifConditions[k].block == self
  }

  /** Applies one extractor's `pushProp` calls in order, then registers its
      template, if any, under the element's index. */
  function Apply(st: Store, s: Step, self: nat, js: ExprParser): (r: Result<Store, Fatal>)
    ensures r.Ok? ==> Extends(st, r.value)
    ensures r.Err? <==> PushAll(st, s.pushes, js).Err?
    ensures r.Ok? ==> r.value.slots == PushAll(st, s.pushes, js).value.slots
    ensures r.Ok? ==> r.value.templates == st.templates + (if s.template.Some? then [(s.template.value, self)] else [])
  {
    var st' :- PushAll(st, s.pushes, js);
    Ok(if s.template.Some? then AddTemplate(st', s.template.value, self) else st')
  }

  /** What the chain leaves: the element, the store, and the warnings of
      `processFor`, `processIf` and `processKey` in that order. */
  datatype Processed = Processed(el: Element, store: Store, warnings: seq<Warning>)

  /** `processFor` and `processIf`, each followed by its `pushProp` calls. */
  function CondStage(el: Element, self: nat, st: Store, js: ExprParser): (r: Result<Processed, Fatal>)
    ensures r.Ok? ==> SameNode(el, r.value.el) && Extends(st, r.value.store)
    ensures r.Ok? ==> Kept(el.attributeList, r.value.el.attributeList, ForNames + IfNames)
    ensures Truthy(CondValue(el)) && BareMatch(CondValue(el).value) ==> r.Err?
  {
    var f := ProcessFor(el);
    assert CondValue(f.el) == CondValue(el);
    var st1 :- Apply(st, f, self, js);
    var i :- ProcessIf(f.el, self);
    var st2 :- Apply(st1, i, self, js);
    KeptTrans(el.attributeList, f.el.attributeList, i.el.attributeList, ForNames, IfNames, ForNames + IfNames);
    ExtendsTrans(st, st1, st2);
    Ok(Processed(i.el, st2, f.warnings + i.warnings))
  }

  /** `processInclude` then `processImport`. */
  function Sources(el: Element): (r: Result<Element, Fatal>)
    ensures r.Ok? ==> SameNode(el, r.value) && Kept(el.attributeList, r.value.attributeList, {"src"})
    ensures (el.tag == "include" || el.tag == "import") && !Truthy(AttrValue(el, "src")) ==> r.Err?
  {
    var inc :- ProcessInclude(el);
    var imp :- ProcessImport(inc);
    KeptTrans(el.attributeList, inc.attributeList, imp.attributeList, {"src"}, {"src"}, {"src"});
    Ok(imp)
  }

  /** `processOnce`, `processKey`, `plain`, `processInclude` and
      `processImport`: no `pushProp` calls, and the warning of `processKey`. */
  function SourceStage(el: Element): (r: Result<(Element, seq<Warning>), Fatal>)
    ensures r.Ok? ==> SameNode(el, r.value.0) && Kept(el.attributeList, r.value.0.attributeList, {"v-once", "src"})
    ensures r.Ok? ==> r.value.0.ifConditions == el.ifConditions
    ensures (el.tag == "include" || el.tag == "import") && !Truthy(AttrValue(el, "src")) ==> r.Err?
  {
    var o := ProcessOnce(el);
    var k := ProcessKey(o);
    var e :- Sources(k.el.(plain := Plain(k.el)));
    KeptTrans(el.attributeList, o.attributeList, e.attributeList, {"v-once"}, {"src"}, {"v-once", "src"});
    Ok((e, k.warnings))
  }

  /** `processComponent` and `processAttrs`, each followed by its
      `pushProp` calls and template registration. */
  function AttrStage(el: Element, self: nat, st: Store, js: ExprParser): (r: Result<Processed, Fatal>)
    ensures r.Ok? ==> SameNode(el, r.value.el) && Extends(st, r.value.store)
    ensures r.Ok? ==> SortedByName(r.value.el.attributeList) && Reaches(el.attributeList, ComponentNames, r.value.el.attrs)
    ensures r.Ok? ==> r.value.el.ifConditions == el.ifConditions
  {
    var c := ProcessComponent(el);
    var st1 :- Apply(st, c, self, js);
    var a := ProcessAttrs(c.el);
    var st2 :- Apply(st1, a, self, js);
    ExtendsTrans(st, st1, st2);
    assert Reaches(el.attributeList, ComponentNames, a.el.attrs) by {
      forall x | x in Without(el.attributeList, ComponentNames) ensures x in a.el.attrs {
        WithoutMembers(c.el.attributeList, ComponentNames, x);
        assert x in multiset(a.el.attributeList);
      }
    }
    Ok(Processed(a.el, st2, []))
  }

  /** The extractors `start` runs outside `v-pre`, in order, each one's
      `pushProp` calls applied before the next runs, so that the first fatal
      error in source order is the one reported. `plain` is decided after
      `processKey`. Every attribute no extractor consumes ends up in
      `attrs`, and the list ends sorted by name. */
  function ProcessElement(el: Element, self: nat, st: Store, js: ExprParser): (r: Result<Processed, Fatal>)
    ensures r.Ok? ==> SameNode(el, r.value.el) && Extends(st, r.value.store)
    ensures r.Ok? ==> SortedByName(r.value.el.attributeList) && Reaches(el.attributeList, DirectiveNames, r.value.el.attrs)
    ensures Truthy(CondValue(el)) && BareMatch(CondValue(el).value) ==> r.Err?
    ensures (el.tag == "include" || el.tag == "import") && !Truthy(AttrValue(el, "src")) ==> r.Err?
  {
    var p :- CondStage(el, self, st, js);
    var (e, w) :- SourceStage(p.el);
    var q :- AttrStage(e, self, p.store, js);
    ExtendsTrans(st, p.store, q.store);
    ReachesKept(e.attributeList, e.attributeList, {}, ComponentNames, DirectiveNames, q.el.attrs);
    ReachesKept(p.el.attributeList, e.attributeList, {"v-once", "src"}, DirectiveNames, DirectiveNames, q.el.attrs);
    ReachesKept(el.attributeList, p.el.attributeList, ForNames + IfNames, DirectiveNames, DirectiveNames, q.el.attrs);
    Ok(Processed(q.el, q.store, p.warnings + w))
  }
  lemma CondStageBranches(el: Element, self: nat, st: Store, js: ExprParser)
    requires CondStage(el, self, st, js).Ok? && OwnBranches(el, self)
    ensures OwnBranches(CondStage(el, self, st, js).value.el, self)
  {
    var f := ProcessFor(el);
    var st1 := Apply(st, f, self, js).value;
    var i := ProcessIf(f.el, self).value;
    IfBranches(f.el, self, i);
    assert CondStage(el, self, st, js).value.el == i.el;
  }

  /** The chain adds no link to the element's chain but its own. */
  lemma ProcessElementBranches(el: Element, self: nat, st: Store, js: ExprParser)
    requires OwnBranches(el, self)
    ensures ProcessElement(el, self, st, js).Ok? ==> OwnBranches(ProcessElement(el, self, st, js).value.el, self)
  {
    if ProcessElement(el, self, st, js).Err? { return; }
    CondStageBranches(el, self, st, js);
    var p := CondStage(el, self, st, js).value;
    var e := SourceStage(p.el).value.0;
    var q := AttrStage(e, self, p.store, js).value;
    assert ProcessElement(el, self, st, js).value.el == q.el;
  }
  // ---------------------------------------------------------------------------
  // The chain keeps the store's deduplication invariant
  // ---------------------------------------------------------------------------

  lemma ApplyValid(st: Store, s: Step, self: nat, js: ExprParser)
    requires Apply(st, s, self, js).Ok?
    ensures StoreValid(st) ==> StoreValid(Apply(st, s, self, js).value)
  {
    PushAllValid(st, s.pushes, js);
  }

  lemma CondStageValid(el: Element, self: nat, st: Store, js: ExprParser)
    requires CondStage(el, self, st, js).Ok?
    ensures StoreValid(st) ==> StoreValid(CondStage(el, self, st, js).value.store)
  {
    var f := ProcessFor(el);
    ApplyValid(st, f, self, js);
    var st1 := Apply(st, f, self, js).value;
    var i := ProcessIf(f.el, self).value;
    ApplyValid(st1, i, self, js);
    assert CondStage(el, self, st, js).value.store == Apply(st1, i, self, js).value;
  }

  lemma AttrStageValid(el: Element, self: nat, st: Store, js: ExprParser)
    ensures AttrStage(el, self, st, js).Ok? && StoreValid(st) ==> StoreValid(AttrStage(el, self, st, js).value.store)
  {
    if AttrStage(el, self, st, js).Err? { return; }
    var c := ProcessComponent(el);
    ApplyValid(st, c, self, js);
    var st1 := Apply(st, c, self, js).value;
    var a := ProcessAttrs(c.el);
    ApplyValid(st1, a, self, js);
    assert AttrStage(el, self, st, js).value.store == Apply(st1, a, self, js).value;
  }

  /** Every `pushProp` call of the chain keeps the deduplication invariant. */
  lemma ProcessElementValid(el: Element, self: nat, st: Store, js: ExprParser)
    ensures ProcessElement(el, self, st, js).Ok? && StoreValid(st) ==> StoreValid(ProcessElement(el, self, st, js).value.store)
  {
    if ProcessElement(el, self, st, js).Err? { return; }
    CondStageValid(el, self, st, js);
    var p := CondStage(el, self, st, js).value;
    var e := SourceStage(p.el).value.0;
    AttrStageValid(e, self, p.store, js);
    assert ProcessElement(el, self, st, js).value.store == AttrStage(e, self, p.store, js).value.store;
  }
}

=== FILE: expr.dfy ===
/** The expression lowerer (`walk` in src/compiler/parser/text-parser.js).
    `walk` turns the expression syntax tree produced by the external
    JavaScript parser into a bracketed instruction string. The model gives
    the tree a datatype, the instruction a datatype (`Instr`, what each
    string means) and a decoder for the strings, so that `walk` can be shown
    to lose nothing beyond the node kinds it does not support. */
module Expr {
  import opened Wrappers

  /** The parser's expression nodes that `walk` looks at. Absent children
      (`undefined` in the source) are `None`; every other node kind is
      `Unsupported`. */
  datatype Node =
    | Identifier(name: string)
    | Literal(raw: string)
    | Unary(operator: string, argument: Option<Node>)
    | Binary(operator: string, left: Option<Node>, right: Option<Node>)
    | Logical(operator: string, left: Option<Node>, right: Option<Node>)
    | Unsupported(kind: string)

  /** `walk`, with the exact spacing of each template: the logical case
      puts no space after its commas, the binary and unary cases do. The
      templates' fixed pieces are the constants below. */
  function Walk(n: Option<Node>): (r: string)
    ensures r == [] <==> !Lowerable(n)
    ensures r != [] ==> r[0] == '[' && r[|r| - 1] == ']'
    decreases n
  {
    match n
    case None => ""
    case Some(node) =>
      match node
      case Logical(op, l, r) =>
        if op != "" && l.Some? then OpOpen + op + OpClose + Walk(l) + "," + Walk(r) + "]" else ""
      case Binary(op, l, r) =>
        if op != "" then OpOpen + op + OpClose + " " + Walk(l) + ", " + Walk(r) + "]" else ""
      case Identifier(name) =>
        if name != "" then LookupOpen + name + LookupClose else ""
      case Unary(op, a) =>
        if op != "" then OpOpen + op + OpClose + " " + Walk(a) + "]" else ""
      case Literal(raw) =>
        if raw != "" then LitOpen + raw + "]" else ""
      case Unsupported(_) => ""
  }

  /** The nodes `walk` produces an instruction for: a present node of a
      supported kind whose operator, name or raw text is non-empty, and for
      a logical node, one with a left operand. */
  predicate Lowerable(n: Option<Node>) {
    match n
    case None => false
    case Some(Identifier(name)) => name != ""
    case Some(Literal(raw)) => raw != ""
    case Some(Unary(op, _)) => op != ""
    case Some(Binary(op, _, _)) => op != ""
    case Some(Logical(op, l, _)) => op != "" && l.Some?
    case Some(Unsupported(_)) => false
  }

  /** The instruction format: scope lookup of a name, a raw literal, an
      operator applied to lowered operands, or no instruction at all. */
  datatype Instr =
    | Lookup(name: string)
    | Lit(raw: string)
    | LogicalOp(op: string, left: Instr, right: Instr)
    | BinaryOp(op: string, left: Instr, right: Instr)
    | UnaryOp(op: string, arg: Instr)
    | NoInstr

  /** What `walk` means, node kind by node kind. */
  function Lower(n: Option<Node>): (i: Instr)
    ensures i == NoInstr <==> !Lowerable(n)
    decreases n
  {
    match n
    case None => NoInstr
    case Some(node) =>
      match node
      case Logical(op, l, r) => if op != "" && l.Some? then LogicalOp(op, Lower(l), Lower(r)) else NoInstr
      case Binary(op, l, r) => if op != "" then BinaryOp(op, Lower(l), Lower(r)) else NoInstr
      case Identifier(name) => if name != "" then Lookup(name) else NoInstr
      case Unary(op, a) => if op != "" then UnaryOp(op, Lower(a)) else NoInstr
      case Literal(raw) => if raw != "" then Lit(raw) else NoInstr
      case Unsupported(_) => NoInstr
  }

  const LookupOpen := "[[7],[3, \""
  const LookupClose := "\"]]"
  const LitOpen := "[1, "
  const OpOpen := "[[2, \""
  const OpClose := "\"],"

  /** The concrete syntax of an instruction. */
  function Render(i: Instr): string {
    match i
    case Lookup(name) => LookupOpen + name + LookupClose
    case Lit(raw) => LitOpen + raw + "]"
    case LogicalOp(op, l, r) => OpOpen + op + OpClose + Render(l) + "," + Render(r) + "]"
    case BinaryOp(op, l, r) => OpOpen + op + OpClose + " " + Render(l) + ", " + Render(r) + "]"
    case UnaryOp(op, a) => OpOpen + op + OpClose + " " + Render(a) + "]"
    case NoInstr => ""
  }

  /** `walk` writes exactly the concrete syntax of the lowered instruction. */
  lemma {:induction false} WalkRendersLower(n: Option<Node>)
    ensures Walk(n) == Render(Lower(n))
    decreases n
  {
    match n
    case None =>
    case Some(node) =>
      match node
      case Logical(op, l, r) =>
        WalkRendersLower(l); WalkRendersLower(r);
      case Binary(op, l, r) =>
        WalkRendersLower(l); WalkRendersLower(r);
      case Unary(op, a) =>
        WalkRendersLower(a);
      case Identifier(_) =>
      case Literal(_) =>
      case Unsupported(_) =>
  }

  // ---------------------------------------------------------------------------
  // Reading instructions back
  // ---------------------------------------------------------------------------

  predicate HasPrefix(s: string, p: string) {
    |p| <= |s| && s[..|p|] == p
  }

  /** Index of the first `stop` in `s`, or `|s|`. */
  function UpTo(s: string, stop: char): (n: nat)
    ensures n <= |s|
    ensures forall i :: 0 <= i < n ==> s[i] != stop
    ensures n == |s| || s[n] == stop
  {
    if |s| == 0 || s[0] == stop then 0 else 1 + UpTo(s[1..], stop)
  }

  /** Parses one instruction at the front of `s` and returns it with the rest
      of `s`. An instruction is empty exactly when the next character
      closes or separates operands. */
  function Decode(s: string): (r: Option<(Instr, string)>)
    ensures r.Some? ==> |r.value.1| <= |s|
    decreases |s|, 0
  {
    if Follows(s) then Some((NoInstr, s))
    else if HasPrefix(s, LookupOpen) then ReadLookup(s[|LookupOpen|..])
    else if HasPrefix(s, LitOpen) then ReadLit(s[|LitOpen|..])
    else if HasPrefix(s, OpOpen) then ReadOperator(s[|OpOpen|..])
    else None
  }

  /** After `[[7],[3, "`: the name up to the next quote, then `"]]`. */
  function ReadLookup(body: string): (r: Option<(Instr, string)>)
    ensures r.Some? ==> |r.value.1| <= |body|
  {
    var n := UpTo(body, '"');
    if HasPrefix(body[n..], LookupClose) then Some((Lookup(body[..n]), body[n + |LookupClose|..])) else None
  }

  /** After `[1, `: the raw text up to the next closing bracket. */
  function ReadLit(body: string): (r: Option<(Instr, string)>)
    ensures r.Some? ==> |r.value.1| <= |body|
  {
    var n := UpTo(body, ']');
    if n < |body| then Some((Lit(body[..n]), body[n + 1..])) else None
  }

  /** After `[[2, "`: the operator up to the next quote, `"],`, and then
      spaced operands (binary, unary) or tight ones (logical). */
  function ReadOperator(body: string): (r: Option<(Instr, string)>)
    ensures r.Some? ==> |r.value.1| <= |body|
    decreases |body|, 2
  {
    var n := UpTo(body, '"');
    if !HasPrefix(body[n..], OpClose) then None
    else
      var after := body[n + |OpClose|..];
      if |after| > 0 && after[0] == ' ' then DecodeSpaced(body[..n], after[1..])
      else DecodeTight(body[..n], after)
  }

  /** Operands of a binary or unary operator: `A]` or `L, R]`. */
  function DecodeSpaced(op: string, s: string): (r: Option<(Instr, string)>)
    ensures r.Some? ==> |r.value.1| <= |s|
    decreases |s|, 1
  {
    match Decode(s)
    case None => None
    case Some((a, rest)) =>
      if |rest| > 0 && rest[0] == ']' then Some((UnaryOp(op, a), rest[1..]))
      else if |rest| > 1 && rest[0] == ',' && rest[1] == ' ' then
        match Decode(rest[2..])
        case None => None
        case Some((b, rest2)) =>
          if |rest2| > 0 && rest2[0] == ']' then Some((BinaryOp(op, a, b), rest2[1..])) else None
      else None
  }

  /** Operands of a logical operator: `L,R]`. */
  function DecodeTight(op: string, s: string): (r: Option<(Instr, string)>)
    ensures r.Some? ==> |r.value.1| <= |s|
    decreases |s|, 1
  {
    match Decode(s)
    case None => None
    case Some((a, rest)) =>
      if |rest| > 0 && rest[0] == ',' then
        match Decode(rest[1..])
        case None => None
        case Some((b, rest2)) =>
          if |rest2| > 0 && rest2[0] == ']' then Some((LogicalOp(op, a, b), rest2[1..])) else None
      else None
  }

  /** Names and operators carry no double quote and raw literals no closing
      bracket, so their ends can be found again. `walk` escapes nothing, so
      outside this class the format is ambiguous: a raw such as `"]"` (a
      string literal) or `/[a-z]/` (a regular expression) can end where the
      decoder cannot tell (see `RawBracketAmbiguous`). */
  predicate Readable(i: Instr) {
    match i
    case Lookup(name) => '"' !in name
    case Lit(raw) => ']' !in raw
    case LogicalOp(op, l, r) => '"' !in op && Readable(l) && Readable(r)
    case BinaryOp(op, l, r) => '"' !in op && Readable(l) && Readable(r)
    case UnaryOp(op, a) => '"' !in op && Readable(a)
    case NoInstr => true
  }

  /** What may follow an operand: nothing, a separator or a closing bracket. */
  predicate Follows(rest: string) {
    rest == [] || rest[0] == ',' || rest[0] == ']'
  }

  /** `UpTo` stops at the first `stop`: the one that opens `tail`. */
  lemma UpToStops(w: string, tail: string, stop: char)
    requires stop !in w && |tail| > 0 && tail[0] == stop
    ensures UpTo(w + tail, stop) == |w|
  {
    var body := w + tail;
    assert body[|w|] == stop;
    assert forall i :: 0 <= i < |w| ==> body[i] == w[i];
  }

  /** For a readable instruction, rendering then decoding gives it back,
      whatever follows it. */
  lemma {:induction false} DecodeRender(i: Instr, rest: string)
    requires Readable(i) && Follows(rest)
    ensures Decode(Render(i) + rest) == Some((i, rest))
    decreases i, 1
  {
    match i
    case NoInstr =>
      assert Render(i) + rest == rest;
    case Lookup(name) =>
      DecodeLookup(name, rest);
    case Lit(raw) =>
      DecodeLit(raw, rest);
    case UnaryOp(op, a) =>
      DecodeRenderUnary(op, a, rest);
    case BinaryOp(op, l, r) =>
      DecodeRenderBinary(op, l, r, rest);
    case LogicalOp(op, l, r) =>
      DecodeRenderLogical(op, l, r, rest);
  }

  lemma Assoc(a: string, b: string, c: string)
    ensures a + b + c == a + (b + c)
  {
  }

  /** The head of every operator instruction, with what follows it regrouped. */
  function Head(op: string): string {
    OpOpen + op + OpClose
  }

  lemma UnaryLayout(op: string, a: Instr, rest: string)
    ensures Render(UnaryOp(op, a)) + rest == Head(op) + (" " + (Render(a) + ("]" + rest)))
  {
    var h := Head(op);
    Assoc(h + " " + Render(a), "]", rest);
    Assoc(h + " ", Render(a), "]" + rest);
    Assoc(h, " ", Render(a) + ("]" + rest));
  }

  lemma BinaryLayout(op: string, l: Instr, r: Instr, rest: string)
    ensures Render(BinaryOp(op, l, r)) + rest == Head(op) + (" " + (Render(l) + (", " + (Render(r) + ("]" + rest)))))
  {
    var h := Head(op);
    Assoc(h + " " + Render(l) + ", " + Render(r), "]", rest);
    Assoc(h + " " + Render(l) + ", ", Render(r), "]" + rest);
    Assoc(h + " " + Render(l), ", ", Render(r) + ("]" + rest));
    Assoc(h + " ", Render(l), ", " + (Render(r) + ("]" + rest)));
    Assoc(h, " ", Render(l) + (", " + (Render(r) + ("]" + rest))));
  }

  lemma LogicalLayout(op: string, l: Instr, r: Instr, rest: string)
    ensures Render(LogicalOp(op, l, r)) + rest == Head(op) + (Render(l) + ("," + (Render(r) + ("]" + rest))))
  {
    var h := Head(op);
    Assoc(h + Render(l) + "," + Render(r), "]", rest);
    Assoc(h + Render(l) + ",", Render(r), "]" + rest);
    Assoc(h + Render(l), ",", Render(r) + ("]" + rest));
    Assoc(h, Render(l), "," + (Render(r) + ("]" + rest)));
  }

  lemma {:induction false} DecodeRenderUnary(op: string, a: Instr, rest: string)
    requires Readable(UnaryOp(op, a)) && Follows(rest)
    ensures Decode(Render(UnaryOp(op, a)) + rest) == Some((UnaryOp(op, a), rest))
    decreases UnaryOp(op, a), 0
  {
    var tail := "]" + rest;
    var after := " " + (Render(a) + tail);
    UnaryLayout(op, a, rest);
    OperatorHead(op, after);
    assert after[1..] == Render(a) + tail;
    DecodeRender(a, tail);
    assert tail[1..] == rest;
  }

  lemma {:induction false} DecodeRenderBinary(op: string, l: Instr, r: Instr, rest: string)
    requires Readable(BinaryOp(op, l, r)) && Follows(rest)
    ensures Decode(Render(BinaryOp(op, l, r)) + rest) == Some((BinaryOp(op, l, r), rest))
    decreases BinaryOp(op, l, r), 0
  {
    var tail := "]" + rest;
    var mid := ", " + (Render(r) + tail);
    var after := " " + (Render(l) + mid);
    BinaryLayout(op, l, r, rest);
    OperatorHead(op, after);
    assert after[1..] == Render(l) + mid;
    DecodeRender(l, mid);
    assert mid[2..] == Render(r) + tail;
    DecodeRender(r, tail);
    SpacedBinary(op, Render(l) + mid, l, mid, r, tail, rest);
  }

  lemma SpacedBinary(op: string, x: string, l: Instr, mid: string, r: Instr, tail: string, rest: string)
    requires Decode(x) == Some((l, mid)) && |mid| > 1 && mid[0] == ',' && mid[1] == ' '
    requires Decode(mid[2..]) == Some((r, tail))
    requires tail == "]" + rest
    ensures DecodeSpaced(op, x) == Some((BinaryOp(op, l, r), rest))
  {
    assert tail[1..] == rest;
  }

  lemma {:induction false} DecodeRenderLogical(op: string, l: Instr, r: Instr, rest: string)
    requires Readable(LogicalOp(op, l, r)) && Follows(rest)
    ensures Decode(Render(LogicalOp(op, l, r)) + rest) == Some((LogicalOp(op, l, r), rest))
    decreases LogicalOp(op, l, r), 0
  {
    var tail := "]" + rest;
    var mid := "," + (Render(r) + tail);
    var after := Render(l) + mid;
    LogicalLayout(op, l, r, rest);
    OperatorHead(op, after);
    assert after[0] != ' ' by {
      if Render(l) != [] { RenderStartsWithBracket(l); }
    }
    DecodeRender(l, mid);
    assert mid[1..] == Render(r) + tail;
    DecodeRender(r, tail);
    assert tail[1..] == rest;
  }

  lemma DecodeLookup(name: string, rest: string)
    requires '"' !in name
    ensures Decode(Render(Lookup(name)) + rest) == Some((Lookup(name), rest))
  {
    var body := name + (LookupClose + rest);
    Assoc(LookupOpen + name, LookupClose, rest);
    Assoc(LookupOpen, name, LookupClose + rest);
    DecodeLookupOpen(LookupOpen + body);
    assert (LookupOpen + body)[|LookupOpen|..] == body;
    ReadLookupName(name, rest);
  }

  lemma DecodeLookupOpen(s: string)
    requires HasPrefix(s, LookupOpen)
    ensures Decode(s) == ReadLookup(s[|LookupOpen|..])
  {
    assert !Follows(s) by { assert s[..|LookupOpen|][0] == '['; }
  }

  lemma ReadLookupName(name: string, rest: string)
    requires '"' !in name
    ensures ReadLookup(name + (LookupClose + rest)) == Some((Lookup(name), rest))
  {
    var tail := LookupClose + rest;
    var body := name + tail;
    UpToStops(name, tail, '"');
    assert body[|name|..] == tail && body[..|name|] == name;
    assert HasPrefix(tail, LookupClose) by { assert tail[..|LookupClose|] == LookupClose; }
    assert body[|name| + |LookupClose|..] == rest by { assert body[|name| + |LookupClose|..] == tail[|LookupClose|..]; }
  }

  lemma DecodeLit(raw: string, rest: string)
    requires ']' !in raw
    ensures Decode(Render(Lit(raw)) + rest) == Some((Lit(raw), rest))
  {
    var body := raw + ("]" + rest);
    Assoc(LitOpen + raw, "]", rest);
    Assoc(LitOpen, raw, "]" + rest);
    DecodeLitOpen(LitOpen + body);
    assert (LitOpen + body)[|LitOpen|..] == body;
    ReadLitRaw(raw, rest);
  }

  lemma DecodeLitOpen(s: string)
    requires HasPrefix(s, LitOpen)
    ensures Decode(s) == ReadLit(s[|LitOpen|..])
  {
    assert !Follows(s) by { assert s[..|LitOpen|][0] == '['; }
    assert !HasPrefix(s, LookupOpen) by { assert s[..|LitOpen|][1] == '1'; assert s[1] != LookupOpen[1]; }
  }

  lemma ReadLitRaw(raw: string, rest: string)
    requires ']' !in raw
    ensures ReadLit(raw + ("]" + rest)) == Some((Lit(raw), rest))
  {
    var tail := "]" + rest;
    var body := raw + tail;
    UpToStops(raw, tail, ']');
    assert body[..|raw|] == raw;
    assert body[|raw| + 1..] == rest by { assert body[|raw| + 1..] == tail[1..]; }
  }

  lemma RenderStartsWithBracket(i: Instr)
    requires Render(i) != []
    ensures Render(i)[0] == '['
  {
  }

  /** A string opening with the operator head is read as an operator. */
  lemma DecodeOperator(s: string)
    requires HasPrefix(s, OpOpen)
    ensures Decode(s) == ReadOperator(s[|OpOpen|..])
  {
    assert s[..|OpOpen|][2] == '2';
    assert !Follows(s) by { assert s[..|OpOpen|][0] == '['; }
    assert !HasPrefix(s, LookupOpen) by { assert s[2] != LookupOpen[2]; }
    assert !HasPrefix(s, LitOpen) by { assert s[1] != LitOpen[1]; }
  }

  /** The operator, `"],`, then the operands. */
  lemma ReadOperatorHead(op: string, after: string)
    requires '"' !in op
    ensures ReadOperator(op + OpClose + after)
         == if |after| > 0 && after[0] == ' ' then DecodeSpaced(op, after[1..]) else DecodeTight(op, after)
  {
    var tail := OpClose + after;
    var body := op + tail;
    assert op + OpClose + after == body;
    UpToStops(op, tail, '"');
    assert body[|op|..] == tail;
    assert body[..|op|] == op;
    assert HasPrefix(tail, OpClose) by { assert tail[..|OpClose|] == OpClose; }
    assert body[|op| + |OpClose|..] == after by { assert body[|op| + |OpClose|..] == tail[|OpClose|..]; }
  }

  /** The operator head `[[2, "op"],` is recognised and split off. */
  lemma OperatorHead(op: string, after: string)
    requires '"' !in op
    ensures Decode(Head(op) + after)
         == if |after| > 0 && after[0] == ' ' then DecodeSpaced(op, after[1..]) else DecodeTight(op, after)
  {
    var s := OpOpen + op + OpClose + after;
    assert s == OpOpen + (op + OpClose + after);
    DecodeOperator(s);
    ReadOperatorHead(op, after);
  }

  /** When the lowered instruction is readable (no raw literal holds `]`,
      no name or operator holds `"`), `walk` loses exactly what `Lower`
      drops: its output reads back as the lowered instruction. */
  lemma WalkReadsBack(n: Option<Node>)
    requires Readable(Lower(n))
    ensures Decode(Walk(n)) == Some((Lower(n), ""))
  {
    WalkRendersLower(n);
    DecodeRender(Lower(n), "");
    assert Render(Lower(n)) + "" == Render(Lower(n));
  }

  /** A raw literal holding `], [1, ` renders like two literals: two different
      sums print the same text, so no decoder can read every `walk` output
      back. */
  lemma RawBracketAmbiguous(op: string, x: string, y: string, z: string)
    ensures var m := "], [1, ";
      var a := BinaryOp(op, Lit(x + m + y), Lit(z));
      var b := BinaryOp(op, Lit(x), Lit(y + m + z));
      a != b && Render(a) == Render(b)
  {
    var m := "], [1, ";
    assert |x + m + y| != |x|;
    SplitLeft(op, x, y, z);
    SplitRight(op, x, y, z);
  }

  /** Both sums of `RawBracketAmbiguous` flattened to one text. */
  function Flat(op: string, x: string, y: string, z: string): string {
    OpOpen + op + OpClose + " " + (LitOpen + (x + ("], [1, " + (y + ("], [1, " + (z + "]]"))))))
  }

  lemma SplitLeft(op: string, x: string, y: string, z: string)
    ensures Render(BinaryOp(op, Lit(x + "], [1, " + y), Lit(z))) == Flat(op, x, y, z)
  {
    assert "]" + ", " + LitOpen == "], [1, ";
  }

  lemma SplitRight(op: string, x: string, y: string, z: string)
    ensures Render(BinaryOp(op, Lit(x), Lit(y + "], [1, " + z))) == Flat(op, x, y, z)
  {
    assert "]" + ", " + LitOpen == "], [1, ";
  }
}

=== FILE: jstext.dfy ===
/** The JavaScript string primitives the compiler leans on: `trim`, the `\s`
    class, `JSON.stringify` of a string, the `<` order on strings and
    `Array.prototype.join`. Text is a sequence of Unicode scalar values. */
module JsText {
  import opened Wrappers

  // ---------------------------------------------------------------------------
  // White space and `trim`
  // ---------------------------------------------------------------------------

  /** The LineTerminator code points: the characters `.` does not match. */
  predicate IsLineTerminator(c: char) {
    c == '\n' || c == '\r' || c == '\U{2028}' || c == '\U{2029}'
  }

  /** WhiteSpace or LineTerminator: what `\s` matches and `trim` strips. */
  predicate IsWhiteSpace(c: char) {
    || IsLineTerminator(c)
    || c == '\t' || c == '\U{000B}' || c == '\U{000C}' || c == ' '
    || c == '\U{00A0}' || c == '\U{1680}' || ('\U{2000}' <= c <= '\U{200A}')
    || c == '\U{202F}' || c == '\U{205F}' || c == '\U{3000}' || c == '\U{FEFF}'
  }

  predicate AllWhiteSpace(s: string) {
    forall i :: 0 <= i < |s| ==> IsWhiteSpace(s[i])
  }

  /** Length of the maximal run of white space starting at `p` (what a greedy `\s*` takes). */
  function WsRun(s: string, p: nat): (n: nat)
    requires p <= |s|
    ensures p + n <= |s|
    ensures forall i :: p <= i < p + n ==> IsWhiteSpace(s[i])
    ensures p + n == |s| || !IsWhiteSpace(s[p + n])
    decreases |s| - p
  {
    if p < |s| && IsWhiteSpace(s[p]) then 1 + WsRun(s, p + 1) else 0
  }

  /** Any prefix of what `WsRun` spans is white space. */
  lemma WsRunBlank(s: string, p: nat, k: nat)
    requires p <= |s| && k <= WsRun(s, p)
    ensures AllWhiteSpace(s[p..p + k])
  {
    var r := s[p..p + k];
    forall i | 0 <= i < |r| ensures IsWhiteSpace(r[i]) { assert r[i] == s[p + i]; }
  }

  /** Length of the maximal run of white space that ends `s`. */
  function TrailingWs(s: string): (n: nat)
    ensures n <= |s|
    ensures forall i :: |s| - n <= i < |s| ==> IsWhiteSpace(s[i])
    ensures n == |s| || !IsWhiteSpace(s[|s| - n - 1])
  {
    if |s| > 0 && IsWhiteSpace(s[|s| - 1]) then 1 + TrailingWs(s[..|s| - 1]) else 0
  }

  /** `r` sits in `s` at offset `i` with nothing but white space around it. */
  ghost predicate TrimmedFrom(s: string, r: string, i: nat) {
    i + |r| <= |s| && s[i..i + |r|] == r && AllWhiteSpace(s[..i]) && AllWhiteSpace(s[i + |r|..])
  }

  /** `r` is what trimming `s` should give: an infix of `s` framed by white
      space only, which neither starts nor ends with white space. */
  ghost predicate IsTrimOf(s: string, r: string) {
    && (exists i :: TrimmedFrom(s, r, i))
    && (r == [] || (!IsWhiteSpace(r[0]) && !IsWhiteSpace(r[|r| - 1])))
  }

  /** `String.prototype.trim`. */
  function Trim(s: string): string {
    var i := WsRun(s, 0);
    s[i..|s| - TrailingWs(s[i..])]
  }

  /** `Trim` removes exactly the white space around the text, and gives
      nothing exactly for a text of white space only. */
  lemma TrimSpec(s: string)
    ensures IsTrimOf(s, Trim(s))
    ensures Trim(s) == [] <==> AllWhiteSpace(s)
  {
    var i := WsRun(s, 0);
    var j := |s| - TrailingWs(s[i..]);
    assert TrimmedFrom(s, s[i..j], i);
    assert AllWhiteSpace(s) ==> i == |s|;
  }

  /** There is only one way to trim a string: `Trim` is fully described by `IsTrimOf`. */
  lemma TrimUnique(s: string, r: string)
    requires IsTrimOf(s, r)
    ensures r == Trim(s)
  {
    var i: nat :| TrimmedFrom(s, r, i);
    TrimSpec(s);
    var t := Trim(s);
    var k: nat :| TrimmedFrom(s, t, k);
    TrimmedUnique(s, r, i, t, k);
  }

  /** Two infixes framed by white space that both start and end with a
      non-blank character (or are empty) are the same infix. */
  lemma TrimmedUnique(s: string, r: string, i: nat, t: string, k: nat)
    requires TrimmedFrom(s, r, i) && TrimmedFrom(s, t, k)
    requires r == [] || (!IsWhiteSpace(r[0]) && !IsWhiteSpace(r[|r| - 1]))
    requires t == [] || (!IsWhiteSpace(t[0]) && !IsWhiteSpace(t[|t| - 1]))
    ensures r == t
  {
    FramedBlank(s, r, i);
    FramedBlank(s, t, k);
    if r != [] {
      assert s[i] == r[0] && s[i + |r| - 1] == r[|r| - 1];
    }
    if t != [] {
      assert s[k] == t[0] && s[k + |t| - 1] == t[|t| - 1];
    }
    assert (r == []) == (t == []);
    if r != [] {
      assert i == k;
      assert i + |r| == k + |t|;
    }
  }

  /** Outside a framed infix every character is white space. */
  lemma FramedBlank(s: string, r: string, i: nat)
    requires TrimmedFrom(s, r, i)
    ensures forall p :: 0 <= p < i ==> IsWhiteSpace(s[p])
    ensures forall p :: i + |r| <= p < |s| ==> IsWhiteSpace(s[p])
  {
    forall p | 0 <= p < i ensures IsWhiteSpace(s[p]) { assert s[..i][p] == s[p]; }
    forall p | i + |r| <= p < |s| ensures IsWhiteSpace(s[p]) { assert s[i + |r|..][p - (i + |r|)] == s[p]; }
  }

  /** Dropping a blank prefix does not change the trimmed text. */
  lemma TrimDropBlankPrefix(s: string, k: nat)
    requires k <= |s| && AllWhiteSpace(s[..k])
    ensures Trim(s[k..]) == Trim(s)
  {
    var t := Trim(s[k..]);
    TrimSpec(s[k..]);
    var i: nat :| TrimmedFrom(s[k..], t, i);
    TrimmedShift(s, k, t, i);
    TrimUnique(s, t);
  }

  /** A trim of a suffix after a blank prefix sits in the whole text too. */
  lemma TrimmedShift(s: string, k: nat, t: string, i: nat)
    requires k <= |s| && AllWhiteSpace(s[..k]) && TrimmedFrom(s[k..], t, i)
    ensures TrimmedFrom(s, t, k + i)
  {
    DropSlice(s, k, i, i + |t|);
    BlankJoin(s, k, k + i);
  }

  /** Slices of a suffix are slices of the whole. */
  lemma DropSlice(s: string, k: nat, i: nat, j: nat)
    requires k + j <= |s| && i <= j
    ensures s[k..][..i] == s[k..k + i] && s[k..][i..j] == s[k + i..k + j] && s[k..][j..] == s[k + j..]
  {
  }

  /** Two adjacent blank slices make a blank prefix. */
  lemma BlankJoin(s: string, a: nat, b: nat)
    requires a <= b <= |s| && AllWhiteSpace(s[..a]) && AllWhiteSpace(s[a..b])
    ensures AllWhiteSpace(s[..b])
  {
    forall x | 0 <= x < b ensures IsWhiteSpace(s[..b][x]) {
      if x < a { assert s[..a][x] == s[x]; } else { assert s[a..b][x - a] == s[x]; }
    }
  }

  // ---------------------------------------------------------------------------
  // JSON.stringify of a string, and its inverse
  // ---------------------------------------------------------------------------

  function HexDigit(n: nat): (c: char)
    requires n < 16
  {
    if n < 10 then ('0' as int + n) as char else ('a' as int + n - 10) as char
  }

  predicate IsHexDigit(c: char) {
    ('0' <= c <= '9') || ('a' <= c <= 'f') || ('A' <= c <= 'F')
  }

  function HexValue(c: char): (n: nat)
    requires IsHexDigit(c)
    ensures n < 16
  {
    if '0' <= c <= '9' then c as int - '0' as int
    else if 'a' <= c <= 'f' then c as int - 'a' as int + 10
    else c as int - 'A' as int + 10
  }

  /** The escape `JSON.stringify` writes for one character (ECMA-262 QuoteJSONString). */
  function EscapeChar(c: char): string {
    if c == '"' then ['\\', '"']
    else if c == '\\' then ['\\', '\\']
    else if c as int == 0x08 then ['\\', 'b']
    else if c == '\t' then ['\\', 't']
    else if c == '\n' then ['\\', 'n']
    else if c as int == 0x0C then ['\\', 'f']
    else if c == '\r' then ['\\', 'r']
    else if c as int < 0x20 then ['\\', 'u', '0', '0', HexDigit(c as int / 16), HexDigit(c as int % 16)]
    else [c]
  }

  function EscapeBody(s: string): string {
    if s == [] then [] else EscapeChar(s[0]) + EscapeBody(s[1..])
  }

  /** `JSON.stringify(s)` for a string `s`. */
  function Quote(s: string): (q: string)
    ensures |q| >= 2 && q[0] == '"' && q[|q| - 1] == '"'
  {
    ['"'] + EscapeBody(s) + ['"']
  }

  function Prepend(c: char, o: Option<string>): Option<string> {
    match o
    case Some(r) => Some([c] + r)
    case None => None
  }

  /** Reads the body of a JSON string literal (what lies between the quotes). */
  function UnescapeBody(t: string): Option<string>
    decreases |t|
  {
    if |t| == 0 then Some([])
    else if t[0] == '\\' then
      if |t| < 2 then None
      else if t[1] == '"' || t[1] == '\\' || t[1] == '/' then Prepend(t[1], UnescapeBody(t[2..]))
      else if t[1] == 'b' then Prepend(8 as char, UnescapeBody(t[2..]))
      else if t[1] == 't' then Prepend('\t', UnescapeBody(t[2..]))
      else if t[1] == 'n' then Prepend('\n', UnescapeBody(t[2..]))
      else if t[1] == 'f' then Prepend(12 as char, UnescapeBody(t[2..]))
      else if t[1] == 'r' then Prepend('\r', UnescapeBody(t[2..]))
      else if t[1] == 'u' && |t| >= 6 && IsHexDigit(t[2]) && IsHexDigit(t[3]) && IsHexDigit(t[4]) && IsHexDigit(t[5]) then
        var v := ((HexValue(t[2]) * 16 + HexValue(t[3])) * 16 + HexValue(t[4])) * 16 + HexValue(t[5]);
        if 0xD800 <= v < 0xE000 then None else Prepend(v as char, UnescapeBody(t[6..]))
      else None
    else if t[0] == '"' || t[0] as int < 0x20 then None
    else Prepend(t[0], UnescapeBody(t[1..]))
  }

  /** `JSON.parse` restricted to string literals. */
  function Unquote(q: string): Option<string> {
    if |q| >= 2 && q[0] == '"' && q[|q| - 1] == '"' then UnescapeBody(q[1..|q| - 1]) else None
  }

  lemma UnescapeChar(c: char, rest: string)
    ensures UnescapeBody(EscapeChar(c) + rest) == Prepend(c, UnescapeBody(rest))
  {
    var t := EscapeChar(c) + rest;
    if c as int < 0x20 && c != '\t' && c != '\n' && c != '\r' && c as int != 0x08 && c as int != 0x0C {
      var hi, lo := c as int / 16, c as int % 16;
      assert t[..6] == ['\\', 'u', '0', '0', HexDigit(hi), HexDigit(lo)];
      assert HexValue(HexDigit(hi)) == hi && HexValue(HexDigit(lo)) == lo;
      assert t[6..] == rest;
    } else if c == '"' || c == '\\' || c as int < 0x20 {
      assert t[2..] == rest;
    } else {
      assert t[1..] == rest;
    }
  }

  /** `JSON.parse(JSON.stringify(s)) === s`: quoting loses nothing. */
  lemma {:induction false} UnquoteQuote(s: string)
    ensures Unquote(Quote(s)) == Some(s)
  {
    UnescapeEscape(s);
    var q := Quote(s);
    assert q[1..|q| - 1] == EscapeBody(s);
  }

  lemma {:induction false} UnescapeEscape(s: string)
    ensures UnescapeBody(EscapeBody(s)) == Some(s)
  {
    if s != [] {
      UnescapeEscape(s[1..]);
      UnescapeChar(s[0], EscapeBody(s[1..]));
      assert [s[0]] + s[1..] == s;
    }
  }

  // ---------------------------------------------------------------------------
  // The `<` order on strings
  // ---------------------------------------------------------------------------

  /** `a < b` on JavaScript strings: lexicographic by character code. */
  predicate Less(a: string, b: string)
    decreases |a|
  {
    if |a| == 0 then |b| > 0
    else if |b| == 0 then false
    else if a[0] != b[0] then a[0] < b[0]
    else Less(a[1..], b[1..])
  }

  lemma {:induction false} LessIrreflexive(a: string)
    ensures !Less(a, a)
    decreases |a|
  {
    if |a| > 0 { LessIrreflexive(a[1..]); }
  }

  lemma {:induction false} LessTransitive(a: string, b: string, c: string)
    requires Less(a, b) && Less(b, c)
    ensures Less(a, c)
    decreases |a|
  {
    if |a| > 0 && a[0] == b[0] && b[0] == c[0] {
      LessTransitive(a[1..], b[1..], c[1..]);
    }
  }

  lemma {:induction false} LessTotal(a: string, b: string)
    ensures a == b || Less(a, b) || Less(b, a)
    decreases |a|
  {
    if |a| > 0 && |b| > 0 && a[0] == b[0] {
      LessTotal(a[1..], b[1..]);
      if a[1..] == b[1..] {
        assert a == [a[0]] + a[1..] && b == [b[0]] + b[1..];
      }
    }
  }

  // ---------------------------------------------------------------------------
  // Array.prototype.join
  // ---------------------------------------------------------------------------

  function Join(parts: seq<string>, sep: string): string {
    if |parts| == 0 then []
    else if |parts| == 1 then parts[0]
    else parts[0] + sep + Join(parts[1..], sep)
  }
}

=== FILE: pattern.dfy ===
/** The interpolation patterns of src/compiler/parser/text-parser.js.

    The default pattern is `\{\{((['"][^'"]+['"]|[^{}]+)+)\}\}`: `{{`, one
    or more pieces, `}}`, where a piece is a quoted run (a quote, at least one
    non-quote, a quote) or a run of characters other than braces. Which end a
    match takes depends on the order in which a backtracking regular
    expression engine tries the alternatives, so the matcher here performs
    that search explicitly: one more repetition before giving up, the quoted
    alternative before the brace-free one, longer brace-free runs before
    shorter ones. It is then shown to agree with the declarative reading of
    the pattern.

    Custom delimiters build `open((?:.|\n)+?)close` with every regular
    expression metacharacter of `open` and `close` escaped: the shortest
    non-empty run, free of the line terminators `.` and `\n` both miss,
    followed by the closing delimiter. */
module Pattern {
  import opened Wrappers
  import opened JsText

  /** Where a match lies in the text: `open` is `text[start..innerStart]`,
      the captured expression `text[innerStart..innerEnd]`, `close` is
      `text[innerEnd..end]`. */
  datatype Match = Match(start: nat, innerStart: nat, innerEnd: nat, end: nat)

  /** `None` selects the default pattern, `Some((open, close))` custom delimiters. */
  type Delimiters = Option<(string, string)>

  function Open(d: Delimiters): string {
    if d.Some? then d.value.0 else "{{"
  }

  function Close(d: Delimiters): string {
    if d.Some? then d.value.1 else "}}"
  }

  predicate LiteralAt(t: string, p: nat, w: string) {
    p + |w| <= |t| && t[p..p + |w|] == w
  }

  // ---------------------------------------------------------------------------
  // The default pattern, declaratively
  // ---------------------------------------------------------------------------

  predicate IsQuote(c: char) {
    c == '\'' || c == '"'
  }

  predicate IsBrace(c: char) {
    c == '{' || c == '}'
  }

  /** `text[p..e]` is `['"][^'"]+['"]`. */
  ghost predicate QuotedAt(t: string, p: nat, e: nat) {
    p + 3 <= e <= |t| && IsQuote(t[p]) && IsQuote(t[e - 1]) && forall i :: p < i < e - 1 ==> !IsQuote(t[i])
  }

  /** `text[p..e]` is `[^{}]+`. */
  ghost predicate BraceFreeAt(t: string, p: nat, e: nat) {
    p < e <= |t| && forall i :: p <= i < e ==> !IsBrace(t[i])
  }

  ghost predicate PieceAt(t: string, p: nat, e: nat) {
    QuotedAt(t, p, e) || BraceFreeAt(t, p, e)
  }

  /** `text[p..j]` is one or more pieces. */
  ghost predicate Pieces(t: string, p: nat, j: nat)
    decreases j - p
  {
    p < j <= |t| && exists e :: p < e <= j && PieceAt(t, p, e) && (e == j || Pieces(t, e, j))
  }

  predicate CloseAt(t: string, j: nat) {
    j + 2 <= |t| && t[j] == '}' && t[j + 1] == '}'
  }

  /** A region of the default pattern opens at `s` and its expression ends at `j`. */
  ghost predicate DefaultRegion(t: string, s: nat, j: nat) {
    s + 2 <= |t| && t[s] == '{' && t[s + 1] == '{' && Pieces(t, s + 2, j) && CloseAt(t, j)
  }

  // ---------------------------------------------------------------------------
  // The default pattern, as the engine searches it
  // ---------------------------------------------------------------------------

  /** Index of the first quote at or after `p`, or `|t|`. */
  function NextQuote(t: string, p: nat): (q: nat)
    requires p <= |t|
    ensures p <= q <= |t|
    ensures forall i :: p <= i < q ==> !IsQuote(t[i])
    ensures q == |t| || IsQuote(t[q])
    decreases |t| - p
  {
    if p == |t| || IsQuote(t[p]) then p else NextQuote(t, p + 1)
  }

  /** The quoted alternative at `p`; the greedy `[^'"]+` can only stop at the next quote. */
  function QuotedEnd(t: string, p: nat): (r: Option<nat>)
    requires p <= |t|
    ensures r.Some? ==> QuotedAt(t, p, r.value)
  {
    if p < |t| && IsQuote(t[p]) then
      var q := NextQuote(t, p + 1);
      if q < |t| && p + 2 <= q then Some(q + 1) else None
    else None
  }

  /** Length of the longest brace-free run at `p`, the first length `[^{}]+` tries. */
  function BraceFreeRun(t: string, p: nat): (n: nat)
    requires p <= |t|
    ensures p + n <= |t|
    ensures forall i :: p <= i < p + n ==> !IsBrace(t[i])
    ensures p + n == |t| || IsBrace(t[p + n])
    decreases |t| - p
  {
    if p < |t| && !IsBrace(t[p]) then 1 + BraceFreeRun(t, p + 1) else 0
  }

  /** `(A|B)*\}\}` at `p`: another piece if possible, otherwise the closing
      braces. Yields where the closing braces start. */
  function Star(t: string, p: nat): (r: Option<nat>)
    requires p <= |t|
    ensures r.Some? ==> p <= r.value && CloseAt(t, r.value)
    decreases |t| - p, 2, 0
  {
    var more := Iterate(t, p);
    if more.Some? then more
    else if CloseAt(t, p) then Some(p)
    else None
  }

  /** One mandatory piece at `p`, then `Star`: the quoted alternative first,
      then brace-free runs from the longest down. */
  function Iterate(t: string, p: nat): (r: Option<nat>)
    requires p <= |t|
    ensures r.Some? ==> p < r.value && CloseAt(t, r.value)
    decreases |t| - p, 1, 0
  {
    var quoted := match QuotedEnd(t, p) case Some(e) => Star(t, e) case None => None;
    if quoted.Some? then quoted else TryBraceFree(t, p, BraceFreeRun(t, p))
  }

  /** Brace-free runs of length `k`, `k - 1`, ..., 1 at `p`, each followed by `Star`. */
  function TryBraceFree(t: string, p: nat, k: nat): (r: Option<nat>)
    requires p + k <= |t|
    ensures r.Some? ==> p < r.value && CloseAt(t, r.value)
    decreases |t| - p, 0, k
  {
    if k == 0 then None
    else
      var r := Star(t, p + k);
      if r.Some? then r else TryBraceFree(t, p, k - 1)
  }

  /** The default pattern tried at `s`. */
  function DefaultMatchAt(t: string, s: nat): (r: Option<Match>)
    requires s <= |t|
    ensures r.Some? ==> r.value.start == s && r.value.innerStart == s + 2 && r.value.end == r.value.innerEnd + 2
    ensures r.Some? ==> DefaultRegion(t, s, r.value.innerEnd)
    ensures r.None? ==> forall j :: !DefaultRegion(t, s, j)
  {
    if s + 2 <= |t| && t[s] == '{' && t[s + 1] == '{' then
      match Iterate(t, s + 2)
      case Some(j) => IterateSound(t, s + 2); Some(Match(s, s + 2, j, j + 2))
      case None => (IterateFindsAll(t, s); None)
    else None
  }

  // Soundness: whatever the search finds is a region of the pattern.

  lemma {:induction false} StarSound(t: string, p: nat)
    requires p <= |t| && Star(t, p).Some?
    ensures var j := Star(t, p).value; p == j || Pieces(t, p, j)
    decreases |t| - p, 2, 0
  {
    if Iterate(t, p).Some? { IterateSound(t, p); }
  }

  lemma {:induction false} IterateSound(t: string, p: nat)
    requires p <= |t| && Iterate(t, p).Some?
    ensures Pieces(t, p, Iterate(t, p).value)
    decreases |t| - p, 1, 0
  {
    var j := Iterate(t, p).value;
    var q := QuotedEnd(t, p);
    if q.Some? && Star(t, q.value).Some? {
      var e := q.value;
      StarSound(t, e);
      assert PieceAt(t, p, e);
    } else {
      TryBraceFreeSound(t, p, BraceFreeRun(t, p));
    }
  }

  lemma {:induction false} TryBraceFreeSound(t: string, p: nat, k: nat)
    requires p + k <= |t| && k <= BraceFreeRun(t, p) && TryBraceFree(t, p, k).Some?
    ensures Pieces(t, p, TryBraceFree(t, p, k).value)
    decreases |t| - p, 0, k
  {
    var j := TryBraceFree(t, p, k).value;
    if Star(t, p + k).Some? {
      StarSound(t, p + k);
      assert PieceAt(t, p, p + k) by { assert BraceFreeAt(t, p, p + k); }
    } else {
      TryBraceFreeSound(t, p, k - 1);
    }
  }

  // Completeness: if the pattern has a region here, the search finds one.

  lemma QuotedEndExact(t: string, p: nat, e: nat)
    requires QuotedAt(t, p, e)
    ensures QuotedEnd(t, p) == Some(e)
  {
    var q := NextQuote(t, p + 1);
    assert q == e - 1;
  }

  lemma {:induction false} TryBraceFreeFinds(t: string, p: nat, k: nat, m: nat)
    requires 1 <= k <= m && p + m <= |t| && Star(t, p + k).Some?
    ensures TryBraceFree(t, p, m).Some?
    decreases m
  {
    if m > k && Star(t, p + m).None? {
      TryBraceFreeFinds(t, p, k, m - 1);
    }
  }

  lemma {:induction false} StarComplete(t: string, p: nat, j: nat)
    requires p <= j && (p == j || Pieces(t, p, j)) && CloseAt(t, j)
    ensures Star(t, p).Some?
    decreases j - p, 1
  {
    if p < j { IterateComplete(t, p, j); }
  }

  lemma {:induction false} IterateComplete(t: string, p: nat, j: nat)
    requires Pieces(t, p, j) && CloseAt(t, j)
    ensures Iterate(t, p).Some?
    decreases j - p, 0
  {
    var e :| p < e <= j && PieceAt(t, p, e) && (e == j || Pieces(t, e, j));
    StarComplete(t, e, j);
    if QuotedAt(t, p, e) {
      QuotedEndExact(t, p, e);
    } else {
      var m := BraceFreeRun(t, p);
      assert e - p <= m by {
        assert p + m == |t| || IsBrace(t[p + m]);
      }
      TryBraceFreeFinds(t, p, e - p, m);
    }
  }

  lemma IterateFindsAll(t: string, s: nat)
    requires s + 2 <= |t| && Iterate(t, s + 2).None?
    ensures forall j :: !DefaultRegion(t, s, j)
  {
    forall j | DefaultRegion(t, s, j) ensures false {
      IterateComplete(t, s + 2, j);
    }
  }

  // ---------------------------------------------------------------------------
  // Custom delimiters
  // ---------------------------------------------------------------------------

  /** The line terminators neither `.` nor `\n` matches. */
  predicate Unmatched(c: char) {
    c == '\r' || c == '\U{2028}' || c == '\U{2029}'
  }

  /** A region between custom delimiters opens at `s` and its expression ends at `j`. */
  ghost predicate CustomRegion(t: string, s: nat, open: string, close: string, j: nat) {
    && LiteralAt(t, s, open)
    && s + |open| < j
    && LiteralAt(t, j, close)
    && forall i :: s + |open| <= i < j ==> !Unmatched(t[i])
  }

  /** The lazy `(?:.|\n)+?` at `p`, having consumed `k` characters: stop as
      soon as `close` follows, fail on a character it cannot consume. */
  function LazyClose(t: string, p: nat, k: nat, close: string): (r: Option<nat>)
    requires 1 <= k
    ensures r.Some? ==> p + k <= r.value && LiteralAt(t, r.value, close)
    ensures r.Some? ==> forall i :: p + k - 1 <= i < r.value ==> !Unmatched(t[i])
    ensures r.Some? ==> forall j :: p + k <= j < r.value ==> !LiteralAt(t, j, close)
    ensures r.None? ==> forall j :: p + k <= j <= |t| && (forall i :: p + k - 1 <= i < j ==> !Unmatched(t[i])) ==> !LiteralAt(t, j, close)
    decreases |t| - (p + k)
  {
    if |t| < p + k || Unmatched(t[p + k - 1]) then None
    else if LiteralAt(t, p + k, close) then Some(p + k)
    else LazyClose(t, p, k + 1, close)
  }

  /** The custom-delimiter pattern tried at `s`: the shortest region there. */
  function CustomMatchAt(t: string, s: nat, open: string, close: string): (r: Option<Match>)
    ensures r.Some? ==> r.value.start == s && r.value.innerStart == s + |open| && r.value.end == r.value.innerEnd + |close|
    ensures r.Some? ==> CustomRegion(t, s, open, close, r.value.innerEnd)
    ensures r.Some? ==> forall j :: s + |open| < j < r.value.innerEnd ==> !CustomRegion(t, s, open, close, j)
    ensures r.None? ==> forall j :: !CustomRegion(t, s, open, close, j)
  {
    if LiteralAt(t, s, open) then
      match LazyClose(t, s + |open|, 1, close)
      case Some(j) => Some(Match(s, s + |open|, j, j + |close|))
      case None => None
    else None
  }

  /** The regular expression metacharacters `regexEscapeRE` lists. */
  predicate IsRegexMeta(c: char) {
    c in "-.*+?^${}()|[]/\\"
  }

  /** `buildRegex`'s escaping: a backslash before every metacharacter. */
  function EscapeRegex(d: string): string {
    if d == [] then []
    else (if IsRegexMeta(d[0]) then ['\\', d[0]] else [d[0]]) + EscapeRegex(d[1..])
  }

  /** The text a regular expression fragment matches when it consists only of
      ordinary characters and escaped metacharacters; `None` when it holds
      anything else (an unescaped metacharacter or another escape). */
  function LiteralOf(p: string): Option<string>
    decreases |p|
  {
    if p == [] then Some([])
    else if p[0] == '\\' then
      if |p| >= 2 && IsRegexMeta(p[1]) then Prepend(p[1], LiteralOf(p[2..])) else None
    else if IsRegexMeta(p[0]) then None
    else Prepend(p[0], LiteralOf(p[1..]))
  }

  /** Escaped delimiters match exactly themselves. */
  lemma {:induction false} EscapedIsLiteral(d: string)
    ensures LiteralOf(EscapeRegex(d)) == Some(d)
  {
    if d != [] {
      EscapedIsLiteral(d[1..]);
      var e := EscapeRegex(d[1..]);
      if IsRegexMeta(d[0]) {
        assert EscapeRegex(d) == ['\\', d[0]] + e;
        assert (['\\', d[0]] + e)[2..] == e;
      } else {
        assert EscapeRegex(d) == [d[0]] + e;
        assert ([d[0]] + e)[1..] == e;
      }
      assert [d[0]] + d[1..] == d;
    }
  }

  // ---------------------------------------------------------------------------
  // Searching (`RegExp.prototype.exec` with the global flag)
  // ---------------------------------------------------------------------------

  /** The chosen pattern tried at `s`. */
  function MatchAt(t: string, s: nat, d: Delimiters): (r: Option<Match>)
    requires s <= |t|
    ensures r.Some? ==> r.value.start == s <= r.value.innerStart < r.value.innerEnd <= r.value.end <= |t|
  {
    if d.None? then
      var r := DefaultMatchAt(t, s);
      if r.Some? then
        assert Pieces(t, s + 2, r.value.innerEnd);
        r
      else r
    else CustomMatchAt(t, s, d.value.0, d.value.1)
  }

  /** A match is framed by the delimiters. */
  lemma MatchFramed(t: string, s: nat, d: Delimiters)
    requires s <= |t| && MatchAt(t, s, d).Some?
    ensures var m := MatchAt(t, s, d).value;
      t[s..m.innerStart] == Open(d) && t[m.innerEnd..m.end] == Close(d)
  {
    var m := MatchAt(t, s, d).value;
    if d.None? {
      assert t[s..s + 2] == "{{";
      assert t[m.innerEnd..m.end] == "}}";
    }
  }

  /** The leftmost match starting at or after `from`. */
  function Find(t: string, from: nat, d: Delimiters): (r: Option<Match>)
    requires from <= |t|
    ensures r.Some? ==> from <= r.value.start <= |t| && MatchAt(t, r.value.start, d) == r
    decreases |t| - from
  {
    var here := MatchAt(t, from, d);
    if here.Some? then here
    else if from == |t| then None
    else Find(t, from + 1, d)
  }

  /** No match of the pattern starts in `[lo, hi)`. */
  predicate NoMatchIn(t: string, lo: nat, hi: nat, d: Delimiters)
    requires hi <= |t| + 1
  {
    forall s :: lo <= s < hi ==> MatchAt(t, s, d).None?
  }

  /** The match found is the leftmost one; finding none means no position matches. */
  lemma {:induction false} FindLeftmost(t: string, from: nat, d: Delimiters)
    requires from <= |t|
    ensures Find(t, from, d).Some? ==> NoMatchIn(t, from, Find(t, from, d).value.start, d)
    ensures Find(t, from, d).None? ==> NoMatchIn(t, from, |t| + 1, d)
    decreases |t| - from
  {
    if MatchAt(t, from, d).None? && from < |t| {
      FindLeftmost(t, from + 1, d);
      var hi := if Find(t, from, d).Some? then Find(t, from, d).value.start else |t| + 1;
      NoMatchExtend(t, from, hi, d);
    }
  }

  /** A position without a match extends a match-free range down by one. */
  lemma NoMatchExtend(t: string, from: nat, hi: nat, d: Delimiters)
    requires from < hi <= |t| + 1 && from <= |t| && MatchAt(t, from, d).None?
    requires NoMatchIn(t, from + 1, hi, d)
    ensures NoMatchIn(t, from, hi, d)
  {
  }

  /** The default pattern finds nothing from `from` on exactly when no region
      of the pattern starts there. */
  lemma DefaultFindNone(t: string, from: nat)
    requires from <= |t|
    ensures Find(t, from, None).None? <==> forall s, j :: from <= s <= |t| ==> !DefaultRegion(t, s, j)
  {
    FindLeftmost(t, from, None);
    if Find(t, from, None).Some? {
      var m := Find(t, from, None).value;
      assert DefaultRegion(t, m.start, m.innerEnd);
    } else {
      forall s, j | from <= s <= |t| ensures !DefaultRegion(t, s, j) {
        assert MatchAt(t, s, None).None?;
      }
    }
  }

  /** Custom delimiters find nothing from `from` on exactly when no region
      between them starts there. */
  lemma CustomFindNone(t: string, from: nat, open: string, close: string)
    requires from <= |t|
    ensures Find(t, from, Some((open, close))).None?
        <==> forall s, j :: from <= s <= |t| ==> !CustomRegion(t, s, open, close, j)
  {
    var d := Some((open, close));
    FindLeftmost(t, from, d);
    if Find(t, from, d).Some? {
      var m := Find(t, from, d).value;
      assert CustomRegion(t, m.start, open, close, m.innerEnd);
    } else {
      forall s, j | from <= s <= |t| ensures !CustomRegion(t, s, open, close, j) {
        assert MatchAt(t, s, d).None?;
      }
    }
  }
}

=== FILE: propstore.dfy ===
/** `pushProp` of src/compiler/parser/index.js and the store it fills: a
    table from expression text to the slot of its compiled form, and the list
    of compiled forms, each text compiled once, in first-seen order. The store
    also collects the named templates (`path`, element) of the current file. */
module PropStore {
  import opened Wrappers
  import opened Diagnostics
  import opened TextParser

  datatype Store = Store(
    slots: map<string, int>,
    props: seq<Option<string>>,
    templates: seq<(string, nat)>)

  const EmptyStore := Store(map[], [], [])

  function NonEmptyKeys(slots: map<string, int>): set<string> {
    set k | k in slots && k != ""
  }

  /** The deduplication invariant: the empty text has the slot -1 and no
      compiled form; every other text owns its own slot in `props`, and every
      entry of `props` belongs to exactly one text. */
  predicate StoreValid(st: Store) {
    && (forall k :: k in st.slots ==> (k == "" <==> st.slots[k] == -1))
    && (forall k :: k in st.slots && k != "" ==> 0 <= st.slots[k] < |st.props|)
    && (forall k1, k2 :: k1 in st.slots && k2 in st.slots && k1 != k2 ==> st.slots[k1] != st.slots[k2] || k1 == "")
    && |st.props| == |NonEmptyKeys(st.slots)|
  }

  /** What gets compiled: `optExp || exp`. */
  function CompiledText(exp: string, optExp: Option<string>): string {
    if optExp.Some? && optExp.value != "" then optExp.value else exp
  }

  /** `b` grows `a`: every text keeps its slot, and the compiled forms and
      the templates of `a` stay in place at the front of `b`'s. */
  predicate Extends(a: Store, b: Store) {
    && a.slots.Keys <= b.slots.Keys
    && (forall k :: k in a.slots ==> b.slots[k] == a.slots[k])
    && |a.props| <= |b.props| && (forall i :: 0 <= i < |a.props| ==> b.props[i] == a.props[i])
    && |a.templates| <= |b.templates| && (forall i :: 0 <= i < |a.templates| ==> b.templates[i] == a.templates[i])
  }

  lemma ExtendsTrans(a: Store, b: Store, c: Store)
    requires Extends(a, b) && Extends(b, c)
    ensures Extends(a, c)
  {
  }

  /** `pushProp(exp, optExp)`. A known text changes nothing; the empty text
      gets the slot -1; any other text gets the next slot and the compiled
      form of `optExp || exp`, found with the default pattern. */
  function PushProp(st: Store, exp: string, optExp: Option<string>, js: ExprParser): (r: Result<Store, Fatal>)
    ensures exp in st.slots ==> r == Ok(st)
    ensures r.Ok? ==> r.value.slots.Keys == st.slots.Keys + {exp} && Extends(st, r.value) && r.value.templates == st.templates
    ensures r.Ok? && exp !in st.slots ==>
      |r.value.props| == |st.props| + (if exp == "" then 0 else 1)
    ensures r.Ok? && exp !in st.slots && exp != "" ==>
      r.value.slots[exp] == |st.props| && ParseText(CompiledText(exp, optExp), None, js) == Ok(r.value.props[|st.props|])
    ensures r.Ok? && exp !in st.slots && exp == "" ==> r.value.slots[exp] == -1
    ensures r.Err? <==> exp !in st.slots && exp != "" && ParseText(CompiledText(exp, optExp), None, js).Err?
    ensures r.Err? ==> r.error.SyntaxErrs?
  {
    if exp in st.slots then Ok(st)
    else if exp != "" then
      var compiled :- ParseText(CompiledText(exp, optExp), None, js);
      Ok(st.(slots := st.slots[exp := |st.props|], props := st.props + [compiled]))
    else Ok(st.(slots := st.slots[exp := -1]))
  }

  /** A new non-empty text with the next slot keeps the invariant. */
  lemma InsertValid(st: Store, exp: string, compiled: Option<string>)
    requires StoreValid(st) && exp !in st.slots && exp != ""
    ensures StoreValid(st.(slots := st.slots[exp := |st.props|], props := st.props + [compiled]))
  {
    var slots := st.slots[exp := |st.props|];
    var props := st.props + [compiled];
    forall k | k in slots ensures k == "" <==> slots[k] == -1 {
      if k != exp { assert slots[k] == st.slots[k]; }
    }
    forall k | k in slots && k != "" ensures 0 <= slots[k] < |props| {
      if k != exp { assert slots[k] == st.slots[k]; }
    }
    forall k1, k2 | k1 in slots && k2 in slots && k1 != k2 ensures slots[k1] != slots[k2] || k1 == "" {
      if k1 == exp {
        assert slots[k2] == st.slots[k2];
      } else if k2 == exp {
        assert slots[k1] == st.slots[k1];
      } else {
        assert slots[k1] == st.slots[k1] && slots[k2] == st.slots[k2];
      }
    }
    assert NonEmptyKeys(slots) == NonEmptyKeys(st.slots) + {exp};
    assert exp !in NonEmptyKeys(st.slots);
  }

  /** The empty text with slot -1 keeps the invariant. */
  lemma InsertEmptyValid(st: Store)
    requires StoreValid(st) && "" !in st.slots
    ensures StoreValid(st.(slots := st.slots["" := -1]))
  {
    assert NonEmptyKeys(st.slots["" := -1]) == NonEmptyKeys(st.slots);
  }

  /** `pushProp` keeps the deduplication invariant. */
  lemma PushPropValid(st: Store, exp: string, optExp: Option<string>, js: ExprParser)
    requires PushProp(st, exp, optExp, js).Ok?
    ensures StoreValid(st) ==> StoreValid(PushProp(st, exp, optExp, js).value)
  {
    if StoreValid(st) && exp !in st.slots {
      if exp == "" {
        InsertEmptyValid(st);
      } else {
        InsertValid(st, exp, ParseText(CompiledText(exp, optExp), None, js).value);
      }
    }
  }

  /** `getCurrentCodeInfo().templates.push({ path, tmpl })`. */
  function AddTemplate(st: Store, path: string, el: nat): (r: Store)
    ensures r.slots == st.slots && r.props == st.props
    ensures |r.templates| == |st.templates| + 1 && r.templates[..|st.templates|] == st.templates
    ensures r.templates[|st.templates|] == (path, el)
  {
    st.(templates := st.templates + [(path, el)])
  }

  lemma EmptyStoreValid()
    ensures StoreValid(EmptyStore)
  {
    assert NonEmptyKeys(map[]) == {};
  }

  /** One `pushProp(exp, optExp)` call. */
  datatype PushCall = PushCall(exp: string, optExp: Option<string>)

  /** The calls in order, stopping at the first fatal error: the store only grows. */
  function PushAll(st: Store, calls: seq<PushCall>, js: ExprParser): (r: Result<Store, Fatal>)
    ensures r.Ok? ==> Extends(st, r.value) && r.value.templates == st.templates
    ensures r.Err? ==> r.error.SyntaxErrs?
    decreases |calls|
  {
    if calls == [] then Ok(st)
    else
      var st' :- PushProp(st, calls[0].exp, calls[0].optExp, js);
      PushAll(st', calls[1..], js)
  }

  /** The calls keep the deduplication invariant. */
  lemma {:induction false} PushAllValid(st: Store, calls: seq<PushCall>, js: ExprParser)
    requires PushAll(st, calls, js).Ok?
    ensures StoreValid(st) ==> StoreValid(PushAll(st, calls, js).value)
    decreases |calls|
  {
    if calls != [] {
      var st' := PushProp(st, calls[0].exp, calls[0].optExp, js).value;
      assert PushAll(st, calls, js) == PushAll(st', calls[1..], js);
      PushPropValid(st, calls[0].exp, calls[0].optExp, js);
      PushAllValid(st', calls[1..], js);
    }
  }

  /** The texts of the calls. */
  function Texts(calls: seq<PushCall>): set<string>
    decreases |calls|
  {
    if calls == [] then {} else {calls[0].exp} + Texts(calls[1..])
  }

  /** Every text gets a slot and nothing else does; however often a text
      recurs, it ends with one slot (and, when the store is valid, one
      compiled form per distinct non-empty text). */
  lemma {:induction false} PushAllKeys(st: Store, calls: seq<PushCall>, js: ExprParser)
    requires PushAll(st, calls, js).Ok?
    ensures PushAll(st, calls, js).value.slots.Keys == st.slots.Keys + Texts(calls)
    decreases |calls|
  {
    if calls != [] {
      var st' := PushProp(st, calls[0].exp, calls[0].optExp, js).value;
      assert PushAll(st, calls, js) == PushAll(st', calls[1..], js);
      PushAllKeys(st', calls[1..], js);
    }
  }
}

=== FILE: textparser.dfy ===
/** `parseText` and `parseExp` of src/compiler/parser/text-parser.js: a text
    is cut into literal gaps and interpolation regions, gaps become JSON string
    literals, regions become `_s(...)` around their compiled expression, and
    the pieces are joined with `+`.

    The JavaScript parser (acorn) and the JSON dump of its syntax tree are
    parameters; what `walk` makes of the tree is modelled in `Expr`. */
module TextParser {
  import opened Wrappers
  import opened JsText
  import opened Expr
  import opened Pattern
  import opened Diagnostics

  // ---------------------------------------------------------------------------
  // parseExp
  // ---------------------------------------------------------------------------

  /** A top-level statement of a parsed program; only expression statements
      carry an expression `walk` can see. */
  datatype Statement = ExpressionStatement(expression: Option<Node>) | OtherStatement

  datatype Program = Program(body: seq<Statement>)

  /** The external JavaScript parser (`None` when it throws) and `JSON.stringify`
      of the tree it builds. */
  datatype ExprParser = ExprParser(parse: string -> Option<Program>, dump: Program -> string)

  /** The object-literal reading tried second. */
  function Wrapped(text: string): string {
    "x={" + text + "}"
  }

  /** The first reading succeeds: the parser accepts the text and the program
      has a first statement for `walkExp` to read (an empty program makes it
      throw, which sends the text on to the second reading). */
  predicate PlainParses(js: ExprParser, text: string) {
    js.parse(text).Some? && |js.parse(text).value.body| > 0
  }

  /** `ast.body[0].expression`: absent for a statement that is no expression. */
  function FirstExpression(p: Program): Option<Node>
    requires |p.body| > 0
  {
    match p.body[0]
    case ExpressionStatement(e) => e
    case OtherStatement => None
  }

  /** `parseExp`: the lowered first expression, else the dump of the
      object-literal reading, else a fatal error naming the text. */
  function ParseExp(js: ExprParser, text: string): (r: Result<string, Fatal>)
    ensures r.Err? <==> !PlainParses(js, text) && js.parse(Wrapped(text)).None?
    ensures r.Err? ==> r.error == SyntaxErrs(text)
    ensures PlainParses(js, text) ==> Lowerable(FirstExpression(js.parse(text).value)) == (r.value != [])
  {
    if PlainParses(js, text) then Ok(Walk(FirstExpression(js.parse(text).value)))
    else if js.parse(Wrapped(text)).Some? then Ok(js.dump(js.parse(Wrapped(text)).value))
    else Err(SyntaxErrs(text))
  }

  /** When the first reading yields a supported expression whose lowered
      instruction is readable (no raw literal holding `]`, no name or
      operator holding `"`), what `parseExp` produces reads back, exactly, as
      that expression's instruction tree. */
  lemma ParseExpReadsBack(js: ExprParser, text: string)
    requires PlainParses(js, text)
    requires Readable(Lower(FirstExpression(js.parse(text).value)))
    ensures ParseExp(js, text).Ok?
    ensures Decode(ParseExp(js, text).value) == Some((Lower(FirstExpression(js.parse(text).value)), ""))
  {
    WalkReadsBack(FirstExpression(js.parse(text).value));
  }

  // ---------------------------------------------------------------------------
  // Segmentation
  // ---------------------------------------------------------------------------

  /** A literal gap `text[lo..hi]` or an interpolation region. */
  datatype Segment = Gap(lo: nat, hi: nat) | Region(m: Match)

  function Lo(g: Segment): nat {
    if g.Gap? then g.lo else g.m.start
  }

  function Hi(g: Segment): nat {
    if g.Gap? then g.hi else g.m.end
  }

  /** The segments lie side by side and cover exactly `text[from..to]`. */
  predicate Tiles(segs: seq<Segment>, from: nat, to: nat)
    decreases |segs|
  {
    if segs == [] then from == to
    else Lo(segs[0]) == from && from <= Hi(segs[0]) && Tiles(segs[1..], Hi(segs[0]), to)
  }

  predicate InText(t: string, g: Segment) {
    && Lo(g) <= Hi(g) <= |t|
    && (g.Region? ==> g.m.start <= g.m.innerStart <= g.m.innerEnd <= g.m.end)
  }

  /** The `exec` loop's cut of `text[from..]`: the leftmost match, the gap
      before it if that is not empty, and so on to the end of the text. */
  function Segments(t: string, from: nat, d: Delimiters): (segs: seq<Segment>)
    requires from <= |t|
    ensures Tiles(segs, from, |t|)
    ensures forall i :: 0 <= i < |segs| ==> InText(t, segs[i])
    decreases |t| - from
  {
    match Find(t, from, d)
    case None => if from < |t| then [Gap(from, |t|)] else []
    case Some(m) =>
      var rest := Segments(t, m.end, d);
      var here := [Region(m)] + rest;
      assert Tiles(here, m.start, |t|) by { assert here[1..] == rest; }
      if from < m.start then
        assert ([Gap(from, m.start)] + here)[1..] == here;
        [Gap(from, m.start)] + here
      else here
  }

  /** A gap holds no match start; a region is the match at its start. */
  predicate MatchesPattern(t: string, g: Segment, d: Delimiters) {
    && (g.Gap? ==> g.lo < g.hi <= |t| && NoMatchIn(t, g.lo, g.hi, d))
    && (g.Region? ==> g.m.start <= |t| && MatchAt(t, g.m.start, d) == Some(g.m))
  }

  predicate AllMatch(t: string, segs: seq<Segment>, d: Delimiters) {
    forall i :: 0 <= i < |segs| ==> MatchesPattern(t, segs[i], d)
  }

  /** The regions are exactly the pattern's matches: every region is the
      match at its start, and no match starts inside a gap. */
  lemma {:induction false} SegmentsMatches(t: string, from: nat, d: Delimiters)
    requires from <= |t|
    ensures AllMatch(t, Segments(t, from, d), d)
    decreases |t| - from
  {
    var segs := Segments(t, from, d);
    FindLeftmost(t, from, d);
    match Find(t, from, d)
    case None =>
      if from < |t| {
        assert segs == [Gap(from, |t|)];
        assert MatchesPattern(t, segs[0], d);
      }
      assert AllMatch(t, segs, d);
    case Some(m) =>
      var head := MatchHead(t, from, m, d);
      var rest := Segments(t, m.end, d);
      SegmentsMatches(t, m.end, d);
      assert segs == head + rest;
      AllMatchJoin(t, head, rest, d);
  }

  /** The gap before a leftmost match, if any, and the match itself. */
  function MatchHead(t: string, from: nat, m: Match, d: Delimiters): (head: seq<Segment>)
    requires from <= m.start <= |t| && MatchAt(t, m.start, d) == Some(m)
    requires NoMatchIn(t, from, m.start, d)
    ensures AllMatch(t, head, d)
  {
    var head := if from < m.start then [Gap(from, m.start), Region(m)] else [Region(m)];
    assert MatchesPattern(t, Region(m), d);
    assert from < m.start ==> MatchesPattern(t, Gap(from, m.start), d);
    head
  }

  lemma AllMatchJoin(t: string, a: seq<Segment>, b: seq<Segment>, d: Delimiters)
    requires AllMatch(t, a, d) && AllMatch(t, b, d)
    ensures AllMatch(t, a + b, d)
  {
    forall i | 0 <= i < |a + b| ensures MatchesPattern(t, (a + b)[i], d) {
      if i >= |a| { assert (a + b)[i] == b[i - |a|]; }
    }
  }

  /** Putting the covered pieces back together gives the text back. */
  function Sources(t: string, segs: seq<Segment>): string
    requires forall i :: 0 <= i < |segs| ==> InText(t, segs[i])
  {
    if segs == [] then []
    else
      assert InText(t, segs[0]);
      t[Lo(segs[0])..Hi(segs[0])] + Sources(t, segs[1..])
  }

  lemma {:induction false} SourcesTile(t: string, segs: seq<Segment>, from: nat, to: nat)
    requires forall i :: 0 <= i < |segs| ==> InText(t, segs[i])
    requires Tiles(segs, from, to)
    ensures from <= to <= |t| ==> Sources(t, segs) == t[from..to]
    ensures segs != [] ==> from <= to <= |t|
    decreases |segs|
  {
    if segs != [] {
      var h := Hi(segs[0]);
      SourcesTile(t, segs[1..], h, to);
      if segs[1..] == [] {
        assert h == to;
      }
      assert t[from..to] == t[from..h] + t[h..to];
    }
  }

  /** Segmentation loses and reorders nothing. */
  lemma SegmentsReassemble(t: string, from: nat, d: Delimiters)
    requires from <= |t|
    ensures Sources(t, Segments(t, from, d)) == t[from..]
  {
    SourcesTile(t, Segments(t, from, d), from, |t|);
  }

  // ---------------------------------------------------------------------------
  // parseText
  // ---------------------------------------------------------------------------

  /** A gap's JSON literal, or a region's `_s(...)` around its trimmed, compiled inner text. */
  function Token(t: string, g: Segment, js: ExprParser): (r: Result<string, Fatal>)
    requires InText(t, g)
    ensures r.Err? ==> g.Region? && r.error == SyntaxErrs(Trim(t[g.m.innerStart..g.m.innerEnd]))
  {
    match g
    case Gap(lo, hi) => Ok(Quote(t[lo..hi]))
    case Region(m) =>
      var exp :- ParseExp(js, Trim(t[m.innerStart..m.innerEnd]));
      Ok("_s(" + exp + ")")
  }

  /** The tokens in order; the first region that fails to compile aborts. */
  function Tokens(t: string, segs: seq<Segment>, js: ExprParser): (r: Result<seq<string>, Fatal>)
    requires forall i :: 0 <= i < |segs| ==> InText(t, segs[i])
    ensures r.Ok? ==> |r.value| == |segs|
    ensures r.Err? ==> r.error.SyntaxErrs?
    decreases |segs|
  {
    if segs == [] then Ok([])
    else
      var first :- Token(t, segs[0], js);
      var rest :- Tokens(t, segs[1..], js);
      Ok([first] + rest)
  }

  /** The tokens succeed exactly when every segment's token does, and then
      each is its segment's token. */
  lemma {:induction false} TokensOk(t: string, segs: seq<Segment>, js: ExprParser)
    requires forall i :: 0 <= i < |segs| ==> InText(t, segs[i])
    ensures Tokens(t, segs, js).Ok? <==> forall i :: 0 <= i < |segs| ==> Token(t, segs[i], js).Ok?
    ensures Tokens(t, segs, js).Ok? ==> forall i :: 0 <= i < |segs| ==> Token(t, segs[i], js) == Ok(Tokens(t, segs, js).value[i])
    decreases |segs|
  {
    if segs != [] {
      var tail := segs[1..];
      assert forall i :: 1 <= i < |segs| ==> segs[i] == tail[i - 1];
      TokensOk(t, tail, js);
      var first := Token(t, segs[0], js);
      var rest := Tokens(t, tail, js);
      if first.Ok? && rest.Ok? {
        var toks := [first.value] + rest.value;
        assert Tokens(t, segs, js) == Ok(toks);
        forall i | 0 <= i < |segs| ensures Token(t, segs[i], js) == Ok(toks[i]) {
          if i > 0 { assert toks[i] == rest.value[i - 1]; }
        }
      } else if first.Ok? {
        var k :| 0 <= k < |tail| && Token(t, tail[k], js).Err?;
        assert Token(t, segs[k + 1], js).Err?;
      }
    }
  }

  /** `parseText`: `None` when the pattern finds nothing, otherwise the
      `+`-joined tokens. */
  function ParseText(t: string, d: Delimiters, js: ExprParser): (r: Result<Option<string>, Fatal>)
    ensures r == Ok(None) <==> Find(t, 0, d).None?
    ensures r.Err? ==> exists i :: 0 <= i < |Segments(t, 0, d)| && Segments(t, 0, d)[i].Region? && Token(t, Segments(t, 0, d)[i], js).Err?
    ensures r.Err? ==> r.error.SyntaxErrs?
  {
    if Find(t, 0, d).None? then Ok(None)
    else
      TokensOk(t, Segments(t, 0, d), js);
      var toks :- Tokens(t, Segments(t, 0, d), js);
      Ok(Some(Join(toks, "+")))
  }

  /** With the default pattern, `parseText` yields nothing exactly when no
      `{{`, pieces, `}}` region occurs in the text. */
  lemma ParseTextNone(t: string, js: ExprParser)
    ensures ParseText(t, None, js) == Ok(None) <==> forall s: nat, j: nat :: s <= |t| ==> !DefaultRegion(t, s, j)
  {
    DefaultFindNone(t, 0);
  }

  /** With custom delimiters, `parseText` yields nothing exactly when no
      region between them occurs in the text. */
  lemma ParseTextNoneCustom(t: string, open: string, close: string, js: ExprParser)
    ensures ParseText(t, Some((open, close)), js) == Ok(None)
        <==> forall s: nat, j: nat :: s <= |t| ==> !CustomRegion(t, s, open, close, j)
  {
    CustomFindNone(t, 0, open, close);
  }

  /** The shape of a successful result: one token per segment in text order,
      joined with `+`; each gap token is the JSON literal of a non-empty gap
      and each region token wraps the compiled trimmed inner text in `_s(...)`,
      even when that compiles to nothing. */
  lemma ParseTextShape(t: string, d: Delimiters, js: ExprParser, out: string)
    requires ParseText(t, d, js) == Ok(Some(out))
    ensures var segs := Segments(t, 0, d); var r := Tokens(t, segs, js);
      && r.Ok? && out == Join(r.value, "+") && |r.value| == |segs| > 0
      && (forall i :: 0 <= i < |segs| && segs[i].Gap? ==>
            segs[i].lo < segs[i].hi && Unquote(r.value[i]) == Some(t[segs[i].lo..segs[i].hi]))
      && (forall i :: 0 <= i < |segs| && segs[i].Region? ==>
            var m := segs[i].m;
            var e := ParseExp(js, Trim(t[m.innerStart..m.innerEnd]));
            e.Ok? && r.value[i] == "_s(" + e.value + ")")
  {
    var segs := Segments(t, 0, d);
    SegmentsMatches(t, 0, d);
    TokensOk(t, segs, js);
    var toks := Tokens(t, segs, js).value;
    forall i | 0 <= i < |segs| && segs[i].Gap?
      ensures segs[i].lo < segs[i].hi && Unquote(toks[i]) == Some(t[segs[i].lo..segs[i].hi])
    {
      assert MatchesPattern(t, segs[i], d);
      assert Token(t, segs[i], js) == Ok(toks[i]);
      UnquoteQuote(t[segs[i].lo..segs[i].hi]);
    }
    forall i | 0 <= i < |segs| && segs[i].Region?
      ensures var m := segs[i].m;
        var e := ParseExp(js, Trim(t[m.innerStart..m.innerEnd]));
        e.Ok? && toks[i] == "_s(" + e.value + ")"
    {
      assert Token(t, segs[i], js) == Ok(toks[i]);
    }
  }
  /** A found interpolation always yields a non-empty expression, so a
      caller's truthiness test on the result is the test "the pattern
      matched". */
  lemma ParseTextTruthy(t: string, d: Delimiters, js: ExprParser)
    requires ParseText(t, d, js).Ok?
    ensures ParseText(t, d, js).value.Some? <==> Find(t, 0, d).Some?
    ensures ParseText(t, d, js).value.Some? ==> ParseText(t, d, js).value.value != ""
  {
    if Find(t, 0, d).Some? {
      var segs := Segments(t, 0, d);
      SegmentsMatches(t, 0, d);
      assert |segs| > 0;
      FirstTokenNonEmpty(t, segs, js);
    }
  }

  lemma FirstTokenNonEmpty(t: string, segs: seq<Segment>, js: ExprParser)
    requires forall i :: 0 <= i < |segs| ==> InText(t, segs[i])
    requires |segs| > 0 && Tokens(t, segs, js).Ok?
    ensures Join(Tokens(t, segs, js).value, "+") != ""
  {
    var toks := Tokens(t, segs, js).value;
    assert |toks[0]| > 0;
  }
}

=== FILE: tplbracket.dfy ===
/** The `tplBracket` pattern `(?:{{\s*(.+)\s*}}|(.+))` of
    src/compiler/parser/index.js, which reads `wx:for`, `wx:if` and `wx:elif`
    values. It is neither anchored nor global: the match starts at the first
    position where either alternative succeeds. The braced alternative is
    tried first, its greedy parts backing off as a backtracking engine does;
    when it succeeds, group 1 is what `(.+)` took, and when only the bare
    alternative succeeds, group 1 is undefined. */
module TplBracket {
  import opened Wrappers
  import opened JsText
  import opened Pattern

  /** Length of the longest run at `p` without a line terminator (what a greedy `.+` may take). */
  function LineRun(t: string, p: nat): (n: nat)
    requires p <= |t|
    ensures p + n <= |t|
    ensures forall i :: p <= i < p + n ==> !IsLineTerminator(t[i])
    ensures p + n == |t| || IsLineTerminator(t[p + n])
    decreases |t| - p
  {
    if p < |t| && !IsLineTerminator(t[p]) then 1 + LineRun(t, p + 1) else 0
  }

  /** `\s*}}` succeeds at `q`. The greedy `\s*` must take its whole run:
      any shorter run leaves white space where the `}` must be. */
  predicate ClosesAt(t: string, q: nat)
    requires q <= |t|
  {
    CloseAt(t, q + WsRun(t, q))
  }

  /** `(.+)` at `p` with at most `len` characters, longest first: where the
      group ends. */
  function TryInner(t: string, p: nat, len: nat): (r: Option<nat>)
    requires p + len <= |t|
    ensures r.Some? ==> p < r.value <= p + len && ClosesAt(t, r.value)
    ensures r.Some? ==> forall q :: r.value < q <= p + len ==> !ClosesAt(t, q)
    ensures r.None? ==> forall q :: p < q <= p + len ==> !ClosesAt(t, q)
    decreases len
  {
    if len == 0 then None
    else if ClosesAt(t, p + len) then Some(p + len)
    else TryInner(t, p, len - 1)
  }

  /** The braced alternative at `s` with `ws` characters for the leading
      `\s*`, backing off to fewer: where group 1 starts and ends. */
  function TryLead(t: string, s: nat, ws: nat): (r: Option<(nat, nat)>)
    requires s + 2 + ws <= |t|
    ensures r.Some? ==> s + 2 <= r.value.0 <= s + 2 + ws && r.value.0 < r.value.1 <= |t| && ClosesAt(t, r.value.1)
    ensures r.Some? ==> forall i :: r.value.0 <= i < r.value.1 ==> !IsLineTerminator(t[i])
    decreases ws
  {
    var p := s + 2 + ws;
    match TryInner(t, p, LineRun(t, p))
    case Some(q) => Some((p, q))
    case None => if ws == 0 then None else TryLead(t, s, ws - 1)
  }

  function BracedAt(t: string, s: nat): (r: Option<(nat, nat)>)
    requires s <= |t|
    ensures r.Some? ==> s + 2 <= r.value.0 < r.value.1 <= |t| && ClosesAt(t, r.value.1)
    ensures r.Some? ==> t[s] == '{' && t[s + 1] == '{' && AllWhiteSpace(t[s + 2..r.value.0])
    ensures r.Some? ==> forall i :: r.value.0 <= i < r.value.1 ==> !IsLineTerminator(t[i])
  {
    if s + 2 <= |t| && t[s] == '{' && t[s + 1] == '{' then
      var r := TryLead(t, s, WsRun(t, s + 2));
      if r.Some? then
        WsRunBlank(t, s + 2, r.value.0 - (s + 2));
        r
      else r
    else None
  }

  /** A match: the braced alternative with group 1 at `t[innerStart..innerEnd]`,
      or the bare alternative (group 1 undefined). */
  datatype TplMatch =
    | Braced(start: nat, innerStart: nat, innerEnd: nat, end: nat)
    | Bare(start: nat, end: nat)

  /** What the braced alternative spans: `{{`, white space, a group of at
      least one character on one line, white space, `}}`. */
  predicate BracedShape(t: string, m: TplMatch) {
    && m.Braced?
    && m.start + 2 <= m.innerStart < m.innerEnd && m.innerEnd + 2 <= m.end <= |t|
    && t[m.start] == '{' && t[m.start + 1] == '{' && AllWhiteSpace(t[m.start + 2..m.innerStart])
    && (forall i :: m.innerStart <= i < m.innerEnd ==> !IsLineTerminator(t[i]))
    && AllWhiteSpace(t[m.innerEnd..m.end - 2]) && t[m.end - 2] == '}' && t[m.end - 1] == '}'
  }

  function BracedMatch(t: string, s: nat): (m: TplMatch)
    requires s <= |t| && BracedAt(t, s).Some?
    ensures BracedShape(t, m) && m.start == s
  {
    var (p, q) := BracedAt(t, s).value;
    var e := q + WsRun(t, q);
    WsRunBlank(t, q, WsRun(t, q));
    assert t[e] == '}' && t[e + 1] == '}';
    Braced(s, p, q, e + 2)
  }

  /** Tries both alternatives at `s`, then moves right. */
  function MatchFrom(t: string, s: nat): (r: Option<TplMatch>)
    requires s <= |t|
    ensures r.None? <==> forall i :: s <= i < |t| ==> IsLineTerminator(t[i])
    ensures r.Some? && r.value.Braced? ==> BracedShape(t, r.value)
    ensures r.Some? && r.value.Bare? ==> r.value.start < r.value.end <= |t|
    decreases |t| - s
  {
    if s == |t| then None
    else if BracedAt(t, s).Some? then Some(BracedMatch(t, s))
    else if !IsLineTerminator(t[s]) then Some(Bare(s, s + LineRun(t, s)))
    else MatchFrom(t, s + 1)
  }

  /** `value.match(tplBracket)`. */
  function MatchValue(t: string): Option<TplMatch> {
    MatchFrom(t, 0)
  }

  /** Every character is a line terminator (the empty text included). */
  predicate OnlyLineTerminators(t: string) {
    forall i :: 0 <= i < |t| ==> IsLineTerminator(t[i])
  }

  /** The pattern fails exactly on a text of line terminators only: either
      alternative needs one character that `.` accepts. */
  lemma MatchValueNone(t: string)
    ensures MatchValue(t).None? <==> OnlyLineTerminators(t)
  {
  }

  /** Group 1 of a braced match. */
  function Group(t: string, m: TplMatch): string
    requires m.Braced? && m.innerStart <= m.innerEnd <= |t|
  {
    t[m.innerStart..m.innerEnd]
  }

  /** The whole matched text, `inMatch[0]`. */
  function Whole(t: string, m: TplMatch): string
    requires m.start <= m.end <= |t|
  {
    t[m.start..m.end]
  }

  predicate NoLineTerminator(e: string) {
    forall i :: 0 <= i < |e| ==> !IsLineTerminator(e[i])
  }

  /** `{{e}}` on one line, with `e` not empty, matches as a whole and its
      group 1 trims to what `e` trims to. */
  lemma BracedValue(e: string)
    requires e != [] && NoLineTerminator(e)
    ensures var t := "{{" + e + "}}"; var m := MatchValue(t);
      && m.Some? && m.value.Braced? && m.value.start == 0 && m.value.end == |t|
      && Trim(Group(t, m.value)) == Trim(e)
  {
    var t := "{{" + e + "}}";
    var n := |t|;
    assert t[0] == '{' && t[1] == '{' && t[n - 2] == '}' && t[n - 1] == '}';
    assert t[2..n - 2] == e;
    assert forall i :: 2 <= i < n - 2 ==> t[i] == e[i - 2];
    var p := BracedGroup(t);
    assert MatchValue(t) == Some(BracedMatch(t, 0));
  }

  /** A value of the form `{{`, one line of text, `}}`. */
  predicate Framed(t: string) {
    && |t| > 4 && t[0] == '{' && t[1] == '{' && t[|t| - 2] == '}' && t[|t| - 1] == '}'
    && forall i :: 2 <= i < |t| ==> !IsLineTerminator(t[i])
  }

  /** Where group 1 of a framed value starts: after the leading white space,
      or one character earlier when the framed text is all white space. */
  lemma BracedGroup(t: string) returns (p: nat)
    requires Framed(t)
    ensures 2 <= p < |t| - 2 && BracedAt(t, 0) == Some((p, |t| - 2)) && Trim(t[p..|t| - 2]) == Trim(t[2..|t| - 2])
  {
    var n := |t|;
    var w := WsRun(t, 2);
    assert w <= n - 4 by { assert !IsWhiteSpace(t[n - 2]); }
    assert ClosesAt(t, n - 2);
    assert !ClosesAt(t, n - 1) && !ClosesAt(t, n);
    if w < n - 4 {
      p := SpacedGroup(t);
    } else {
      p := BlankGroup(t);
    }
  }

  lemma SpacedGroup(t: string) returns (p: nat)
    requires Framed(t) && WsRun(t, 2) < |t| - 4 && ClosesAt(t, |t| - 2) && !ClosesAt(t, |t| - 1) && !ClosesAt(t, |t|)
    ensures 2 <= p < |t| - 2 && BracedAt(t, 0) == Some((p, |t| - 2)) && Trim(t[p..|t| - 2]) == Trim(t[2..|t| - 2])
  {
    var n := |t|;
    var w := WsRun(t, 2);
    p := 2 + w;
    LineRunToEnd(t, p);
    InnerFromEnd(t, p);
    LeadFinds(t, w, n - 2);
    BracedAtLead(t);
    SpacedTrim(t, w);
  }

  /** Dropping the leading white space does not change the trimmed text. */
  lemma SpacedTrim(t: string, w: nat)
    requires 4 + w < |t| && w == WsRun(t, 2)
    ensures Trim(t[2 + w..|t| - 2]) == Trim(t[2..|t| - 2])
  {
    var n := |t|;
    SliceOfSlice(t, 2, n - 2, w);
    WsRunBlank(t, 2, WsRun(t, 2));
    TrimDropBlankPrefix(t[2..n - 2], w);
  }

  lemma SliceOfSlice(s: string, lo: nat, hi: nat, k: nat)
    requires lo <= hi <= |s| && k <= hi - lo
    ensures s[lo..hi][..k] == s[lo..lo + k] && s[lo..hi][k..] == s[lo + k..hi]
  {
  }


  /** `(.+)` from `p` to the end of a framed value closes at `}}`, the last
      two positions not closing. */
  lemma InnerFromEnd(t: string, p: nat)
    requires p + 2 < |t| && ClosesAt(t, |t| - 2) && !ClosesAt(t, |t| - 1) && !ClosesAt(t, |t|)
    ensures TryInner(t, p, |t| - p) == Some(|t| - 2)
  {
    var n := |t|;
    assert TryInner(t, p, n - p - 2) == Some(n - 2);
    assert TryInner(t, p, n - p - 1) == Some(n - 2);
  }

  /** The braced alternative at 0 defers to its leading white space run. */
  lemma BracedAtLead(t: string)
    requires |t| >= 2 && t[0] == '{' && t[1] == '{'
    ensures BracedAt(t, 0) == TryLead(t, 0, WsRun(t, 2))
  {
  }

  lemma LeadFinds(t: string, ws: nat, q: nat)
    requires 2 + ws <= |t| && TryInner(t, 2 + ws, LineRun(t, 2 + ws)) == Some(q)
    ensures TryLead(t, 0, ws) == Some((2 + ws, q))
  {
  }

  lemma LeadBacksOff(t: string, ws: nat)
    requires 2 + ws <= |t| && ws > 0 && TryInner(t, 2 + ws, LineRun(t, 2 + ws)) == None
    ensures TryLead(t, 0, ws) == TryLead(t, 0, ws - 1)
  {
  }

  lemma BlankGroup(t: string) returns (p: nat)
    requires Framed(t) && WsRun(t, 2) == |t| - 4 && ClosesAt(t, |t| - 2) && !ClosesAt(t, |t| - 1) && !ClosesAt(t, |t|)
    ensures 2 <= p < |t| - 2 && BracedAt(t, 0) == Some((p, |t| - 2)) && Trim(t[p..|t| - 2]) == Trim(t[2..|t| - 2])
  {
    var n := |t|;
    var w := WsRun(t, 2);
    p := n - 3;
    LineRunToEnd(t, n - 2);
    assert TryInner(t, n - 2, 2) == None;
    LeadBacksOff(t, w);
    LineRunToEnd(t, p);
    assert TryInner(t, p, 3) == Some(n - 2);
    LeadFinds(t, w - 1, n - 2);
    BracedAtLead(t);
    BlankTrim(t);
  }

  /** A framed value of white space only: both texts trim to nothing. */
  lemma BlankTrim(t: string)
    requires Framed(t) && WsRun(t, 2) == |t| - 4
    ensures Trim(t[|t| - 3..|t| - 2]) == Trim(t[2..|t| - 2])
  {
    var n := |t|;
    WsRunBlank(t, 2, WsRun(t, 2));
    assert AllWhiteSpace(t[n - 3..n - 2]) by { assert t[n - 3..n - 2] == [t[n - 3]]; }
    TrimSpec(t[n - 3..n - 2]);
    TrimSpec(t[2..n - 2]);
  }

  lemma LineRunToEnd(t: string, p: nat)
    requires p <= |t| && forall i :: p <= i < |t| ==> !IsLineTerminator(t[i])
    ensures LineRun(t, p) == |t| - p
  {
  }

  /** A value on one line that does not open with `{` matches only the bare
      alternative: group 1 is undefined. */
  lemma BareValue(t: string)
    requires |t| > 0 && !IsLineTerminator(t[0]) && t[0] != '{'
    ensures MatchValue(t).Some? && MatchValue(t).value.Bare?
  {
  }
}

=== FILE: wrappers.dfy ===
/** Optional values and fallible results, used for JavaScript's `undefined`
    and for the exceptions the compiler throws. */
module Wrappers {

  datatype Option<+T> = None | Some(value: T)

  /** `Err` stands for a thrown exception; it supports `:-` propagation. */
  datatype Result<+T, +E> = Ok(value: T) | Err(error: E) {

    predicate IsFailure() {
      Err?
    }

    function PropagateFailure<U>(): Result<U, E>
      requires Err?
    {
      Err(error)
    }

    function Extract(): T
      requires Ok?
    {
      value
    }
  }
}
